=== FILE: README.md ===
# iris_to_hdf5 core, modelled in Dafny

This project models two C programs. They convert Vaisala IRIS RAW radar products into ODIM_H5 files, following OPERA WD_2008_03.

**IRIS_decoder** reads a RAW product record by record. Its steps:
- It learns the recorded data types from the DSP data mask.
- It reads the ingest data headers of each scan.
- It decompresses every ray and merges it into one sample array per data type. Missing rays stay at the fill byte 255. One-byte correlation types are widened to 2-byte words.
- It derives the scan metadata: polarization mode, PRF mode, bin method, filter thresholds, a1gate, rotation sense and start time.
- It labels every data type with an ODIM quantity code and name.

**ODIM_encoder** reads those arrays back. Its steps:
- It parses the request string (for example `"1,2:DBZH,VRADH 3:*"`) into a per-scan table of wanted quantity codes.
- It accepts the scans that hold a wanted quantity.
- For every quantity it chooses one of three modes:
  - write it as it is (mode 1);
  - narrow 2-byte codes to 1 byte (mode 8);
  - widen 1-byte codes to 2 bytes (mode 16).
- It computes the conversion's gain and offset, with Nyquist corrections for velocity and width, and converts the samples.
- It names the file `T_PA<A1><A2><radar>_C_<centre>_<time>.h5`.

The modules follow that structure:
- `Wrappers`: Option and Result.
- `CStrings`: strstr, strtok_r, atoi, %d and %02d.
- `Quantities`: the encoder's catalog and its name lookup.
- `IrisTypes`: data-mask decoding, sample widths and the data type labels.
- `RecordStream`: get_raw_bytes and the ingest-header loop.
- `ScanAssembly`: the sample arrays, the resolution upgrade, the rotation sign and a1gate.
- `ScanMeta`: polarization, PRF, bin method, thresholds and the time split.
- `Wanted`: the request parser and scan acceptance.
- `Requantize`: mode selection, gain and offset, and the conversion loops.
- `Naming`: the compression level, scan_optimized, the calibration flags, the radar number and the file name.

Conventions:
- Byte arrays are `seq<Byte>`.
- The record cursor is a value threaded through pure functions.
- Gains and offsets are `real`.
- C's `exit(1)`, null dereferences, divisions by zero and out-of-range casts become `Err` or `None`.
- Reads and writes past the end of a buffer become `Err` too: a read past the end of the product gives `RecordStream.Read` the error `Truncated`, and a ray that runs past the end of its array gives `ScanAssembly.MergeRay` the error `Overrun`.
- C's truncating `/` and `%` are written out (`ScanMeta.CDiv`, `ScanMeta.CMod`, `Requantize.Trunc`).

Constants that come from headers missing from the repository were fixed as follows:
- IRIS data type numbers: `DB_XHDR` = 0 … `DB_AZDR16` = 88, following the IRIS numbering.
- `TAPE_RECORD_LEN` = 6144, `RAW_PROD_BHDR_SIZE` = 12, `INGEST_DATA_HEADER_SIZE` = 76.
- ODIM quantity codes: narrow codes 1..27, wide code = narrow code + `TWOB`, with `TWOB` = 32 and 64 catalog slots.
  - The code only relies on "X2 is X + TWOB" and "0 is no quantity", and the proofs use nothing more.
  - `MAX_SCANS` and `MAX_QUANTS` are parameters.

## Model

| member | source | states |
|---|---|---|
| `CStrings.Strstr` | ODIM_encoder.c:162 | strstr finds the word exactly when it occurs, and then at its first occurrence |
| `CStrings.AtoiNatString` | ODIM_encoder.c:92 | atoi reads back any number printed with %d, with or without a minus sign, whatever non-digit text follows |
| `CStrings.Pad2Digits` | ODIM_encoder.c:707 | %02d of 0..99 prints exactly two digits, which read back as the number |
| `CStrings.Tokens` | ODIM_encoder.c:1168-1180 | strtok_r never returns an empty token or one that holds the delimiter |
| `CStrings.TokensJoin` | ODIM_encoder.c:1168-1180 | splitting tokens joined by the delimiter gives the same tokens back |
| `CStrings.TokensContent` | ODIM_encoder.c:1168-1180 | the tokens, one after another, are the string with every delimiter removed: nothing else is lost or added |
| `Quantities.GetQuantityCode` | ODIM_encoder.c:775-784 | the result is the first catalog code whose request name matches, or 0 when no code matches |
| `Quantities.WideNames` | ODIM_encoder.c:786-1148 | every 2-byte entry is requested by its ODIM name plus "2", and writes the same ODIM name as its 1-byte entry |
| `Quantities.Sentinels` | ODIM_encoder.c:786-1148 | undetect is 0 everywhere; nodata is 65535 for 2-byte entries and 255 for 1-byte ones, except VRADH (0) and RHOHV (65535) |
| `Quantities.SetSlots` | ODIM_encoder.c:786-1148 | the catalog fills exactly the 1-byte codes other than KDP, SQIH, PMI and CCOR, and all 2-byte codes |
| `IrisTypes.CountQuantities` | IRIS_decoder.c:213-226 | the data types are the mask bits below 128 other than XHDR, strictly ascending, and none is missing; IS_XHDR holds exactly when XHDR is in the mask |
| `IrisTypes.DataBytes` | IRIS_decoder.c:614-628 | KDP, RHOHV, SQI, CCOR8 and PMI8 get 2 bytes; every other type gets its bits per bin divided by 8, rounded down |
| `IrisTypes.ProcessListSpec` | IRIS_decoder.c:934-948 | each entry gets the label of the last listed data type at or before it, because the working label is cleared only once |
| `IrisTypes.SqiLabelUnset` | IRIS_decoder.c:1030-1033 | as written, 1-byte SQI is labelled with a catalog code that has no entry, so its name does not match |
| `IrisTypes.FixedLabelsMatchCatalog` | IRIS_decoder.c:942-1239 | once SQI is labelled SQIH2, every listed type except LOG16 gets a filled catalog code whose ODIM name is its label name |
| `IrisTypes.ForcedLabelsWide` | IRIS_decoder.c:614-624 | every type forced to 2 bytes gets a 2-byte label once SQI is corrected; as written, SQI alone does not |
| `IrisTypes.FixedSlotLabels` | IRIS_decoder.c:1243-1246 | when the second labelling call writes the entry's own slot, slot i keeps the label of data type i |
| `IrisTypes.ForcedRelabelClobbers` | IRIS_decoder.c:623 | as written, a second call for KDP (type 14) relabels slot 14; when that slot holds SQI, SQI is announced as KDP |
| `RecordStream.Read` | IRIS_decoder.c:886-915 | a successful read delivers exactly n bytes and leaves a valid cursor whose offset lies inside a record; it advances the payload position by exactly n |
| `RecordStream.ReadConcat` | IRIS_decoder.c:886-915 | two successive reads deliver the same bytes, the same failure and the same cursor as one read of the combined length, so no byte is skipped or repeated |
| `RecordStream.ReadByte` | IRIS_decoder.c:905-910 | byte i of a read is the product byte at the payload position plus i, with one block header skipped per record |
| `RecordStream.ReadChecksHeaders` | IRIS_decoder.c:892-901 | a read fails on a block mismatch only at an entered record whose header number is wrong; it succeeds exactly when every entered header is right and the product holds the last byte |
| `RecordStream.EndScan` | IRIS_decoder.c:856 | at the end of a scan the cursor moves to offset 0 of the next record, discarding exactly what remains of the current one; an offset already at 0 stays put |
| `RecordStream.ReadHeadersSpec` | IRIS_decoder.c:474-478 | the headers of the loop are the consecutive 76-byte pieces of one read of them all, and the loop fails exactly when that read fails |
| `RecordStream.StoreSpec` | IRIS_decoder.c:474-478 | with an extended header first, slot t holds header t+1 of the run, otherwise header t; nothing else is stored except the extended header alone in slot 0 |
| `RecordStream.IngestHeadersSpec` | IRIS_decoder.c:474-478 | slot t holds the 76 bytes of quantity t's header, taken from one read of the whole run that skips the extended header |
| `ScanAssembly.Fill` | IRIS_decoder.c:719-723 | the array of a quantity starts as n bytes of 255 |
| `ScanAssembly.Upgrade` | IRIS_decoder.c:781-799 | 255 maps to 65535 and 0 to 0 (both directions); 1..254 map into 1..65534 |
| `ScanAssembly.UpgradeMonotone` | IRIS_decoder.c:781-799 | the widening keeps the order of all byte samples, 255 included |
| `ScanAssembly.KdpBytes` | IRIS_decoder.c:767-780 | a KDP ray writes the word 1 in every one of its bins, 2 bytes each |
| `ScanAssembly.Payload` | IRIS_decoder.c:757-813 | a missing ray writes nothing; KDP and the upgraded types write 2 bytes per bin; other 1- or 2-byte types write the first bins*databytes bytes of their ray; a present ray writes something exactly when it is KDP, upgraded or 1 or 2 bytes wide, so any other width writes nothing |
| `ScanAssembly.MergeRay` | IRIS_decoder.c:735-818 | a ray writes its payload at offset az*bins*databytes and changes no other byte; a ray without payload leaves the buffer unchanged |
| `ScanAssembly.AssembleRows` | IRIS_decoder.c:700-818 | with one bin count for all rays, the array is the rays' rows in azimuth order, each missing ray's row left at 255 |
| `ScanAssembly.AssembledRow` | IRIS_decoder.c:719-818 | row a of the array is exactly ray a's payload, or 255 throughout when the ray is missing |
| `ScanAssembly.RotSign` | IRIS_decoder.c:729-732 | the rotation sign is +1 or -1; for an even ray count of at least 360 and azimuths in [0, 360), it is +1 exactly when the end is ahead of the start by more than 0 and at most half the ray count in degrees, or behind it by more than that: the decoder normalises by half the ray count, not by half a turn |
| `ScanAssembly.RotSignFineScan` | IRIS_decoder.c:729-732 | as written, from 720 rays on the sign is +1 exactly when the end azimuth is numerically larger than the start, so a ray crossing north is never corrected |
| `ScanAssembly.RotSignNorthCrossing` | IRIS_decoder.c:729-732 | as written, a clockwise first ray from 359.75 to 0.25 degrees in a 720-ray scan gets the sign -1, where the sense normalised by half a turn gives +1 |
| `ScanAssembly.RotSignByTurnClockwise` | IRIS_decoder.c:729-732 | normalised by half a turn, the sign is +1 exactly when the end lies at most 180 degrees ahead of the start, modulo a turn, for every ray count; for 360 rays it equals the decoder's sign |
| `ScanAssembly.RotSignFullCircle` | IRIS_decoder.c:729-732 | for 360 rays the sign is +1 exactly when the end azimuth is strictly ahead of the start by at most half a turn, modulo a turn; a zero difference gives -1 |
| `ScanAssembly.A1Gate` | IRIS_decoder.c:738-824 | a1gate is (k + rotsgn) mod azgates, where k is the last ray with the largest time (ties go to the later ray); it lies in [0, azgates) |
| `ScanMeta.PolarizationOf` | IRIS_decoder.c:489-515 | exactly one channel flag is raised; H,V for alternating or simultaneous, V for fixed vertical, H for any other code |
| `ScanMeta.PolModeLastLdr` | IRIS_decoder.c:660-666 | the polmode is that of the last LDR data type of the scan, or that of the polarization code when the scan has none |
| `ScanMeta.PrfOf` | IRIS_decoder.c:560-572 | the high PRF is iprf; the PRF is single exactly for trigger codes other than 2/3, 3/4 and 4/5; the low PRF comes from the vendor helper only when it is dual; azmethod follows |
| `ScanMeta.CDivMod` | IRIS_decoder.c:1256-1258 | C's / and % recombine to the dividend; the remainder takes the dividend's sign and is smaller than the divisor |
| `ScanMeta.BinMethod` | IRIS_decoder.c:592-598 | NEAREST exactly when the C quotient of input over output bins is 1, that is binsOut <= binsIn < 2 binsOut; None for zero output bins |
| `ScanMeta.Thresholds` | IRIS_decoder.c:671-689 | a filter the TCF string names gets its calibration threshold in the unit of the attribute (1/16 dB for LOG, CSR (negated) and SIG; 1/256 for SQI and PMI); a filter holds a value other than its "no filter" value (0, or 1000 for CSR) exactly when it is named and its calibration value is not the one that converts to that value |
| `ScanMeta.DefaultsNotWritten` | ODIM_encoder.c:638-642 | a filter the TCF string does not name is never written by the encoder, and a named LOG or CSR with a live threshold is |
| `ScanMeta.SplitSeconds` | IRIS_decoder.c:1256-1258 | hours, minutes and seconds recombine to the count; minutes and seconds stay below 60 in magnitude and share the count's sign |
| `ScanMeta.TimeRoundTrip` | IRIS_decoder.c:1256-1260 | below 100 hours the HHMMSS string is six digits, which read back as the same seconds |
| `Wanted.ParseWanted` | ODIM_encoder.c:1160-1166 | ALL_QUANTS is set exactly for no request, "ALL", "*" and "*:*" |
| `Wanted.ParseAll` | ODIM_encoder.c:1160-1166 | an "all" request puts -1 in slot 0 of scans 1..MAX_SCANS-1 and leaves every other cell 0 |
| `Wanted.ScanListSpec` | ODIM_encoder.c:1182-1193 | the scan list is every scan if some item starts with '*', followed by atoi of each item after the last such item |
| `Wanted.WriteItemsSpec` | ODIM_encoder.c:1194-1200 | a quantity list sets slot k of every listed scan to the code of item k, '*' giving -1, and changes no other cell |
| `Wanted.WriteListsSpec` | ODIM_encoder.c:1175-1201 | with several ':' lists, slot k holds item k of the last list long enough to have one |
| `Wanted.AcceptedIff` | ODIM_encoder.c:271-288 | a scan is accepted exactly when a wanted code before the terminator is negative, or pairs (equal or TWOB apart) with an available code at or before its terminator |
| `Wanted.AllAccepted` | ODIM_encoder.c:273-283 | after an "all" request, scans 1..MAX_SCANS-1 are accepted whatever they hold, and no other scan is |
| `Requantize.TryPairs` | ODIM_encoder.c:449-478 | a wanted code selects an encoding exactly when it pairs with the available code, forced rewrite included |
| `Requantize.ForcedWide` | ODIM_encoder.c:449-457 | a 1-byte request for SQIH, PMI, CCOR or RHOHV against its 2-byte source writes the source as it is; no narrowing produces those four |
| `Requantize.SelectSpec` | ODIM_encoder.c:436-478 | the encoding comes from the first slot before the terminator that is negative or pairs with the available code; with none, the quantity is skipped |
| `Requantize.SelectedScanAccepted` | ODIM_encoder.c:271-288 | every quantity the selection writes belongs to a scan that the acceptance test lets through |
| `Requantize.PassScale` | ODIM_encoder.c:540-556 | mode 1 writes the catalog scale, times the Nyquist factor for 1-byte VRADH and WRADH |
| `Requantize.ConvertKeepsValue` | ODIM_encoder.c:481-535 | with the correction, for every 1-to-2 or 2-to-1 byte pair, a converted code read through the written scale gives the value the source code had through its own file scale |
| `Requantize.AsWrittenAgrees` | ODIM_encoder.c:496-509 | away from WRADH the gain and offset computation as written equals the corrected one |
| `Requantize.WidthAsWritten` | ODIM_encoder.c:511-534 | as written, a widened WRADH code reads back as the true width divided by the Nyquist width, and a narrowed one as the true width times it |
| `Requantize.WidthWideningExample` | ODIM_encoder.c:511-523 | as written, 1-byte WRADH code 128 at Nyquist width 8 means 4 m/s but reads back otherwise after widening |
| `Requantize.NarrowSample` | ODIM_encoder.c:570-575 | nodata is checked first and gives the target nodata, then undetect gives the target undetect; any other code is at most 254 |
| `Requantize.NarrowMonotone` | ODIM_encoder.c:572-575 | with a non-negative gain, narrowing keeps the order of the non-sentinel codes |
| `Requantize.WidenSample` | ODIM_encoder.c:593-595 | undetect is checked before nodata: a code that is both gives the target undetect |
| `Requantize.SentinelRoundTrip` | ODIM_encoder.c:570-595 | narrowing then widening keeps undetect always, and keeps nodata for every quantity except 1-byte VRADH |
| `Requantize.NarrowAll` | ODIM_encoder.c:562-580 | the narrowing loop emits one code per little-endian source word, in order |
| `Requantize.WidenAll` | ODIM_encoder.c:582-601 | the widening loop emits two little-endian bytes per source code, in order, and fails exactly when some code has no 16-bit value |
| `Requantize.EncodeQuantity` | ODIM_encoder.c:426-601 | skipped when nothing is selected, and the written quantity is the selected one; mode 1 passes the samples with the pass scale; modes 8 and 16 convert each sample with the encoder's own gain and offset and write the scale that computation leaves, which is the target's file scale for every quantity except WRADH; narrowing 1-byte samples fails, and widening 2-byte samples converts the low byte of each word |
| `Naming.CompressionLevel` | ODIM_encoder.c:92-93 | the level is always 0..9 and is 6 when the variable is unset |
| `Naming.CompressionLevelOf` | ODIM_encoder.c:92-93 | a printed number 0..9 is taken as the level, a larger number gives 6, and so does any negative number |
| `Naming.ScanOptimizedPrf` | ODIM_encoder.c:376-380 | scan_optimized is VRADH exactly for a dual PRF whose low PRF differs from the high one; otherwise DBZH |
| `Naming.FlagsRoundTrip` | ODIM_encoder.c:383-398 | the flag attributes written name exactly the set bits, at the positions that have a name, in each of the two flag words |
| `Naming.RadNum` | ODIM_encoder.c:162 | a radar number exists only if the source holds "RAD:" |
| `Naming.RadNumOf` | ODIM_encoder.c:162 | "RAD:", two characters, then a number gives that number |
| `Naming.A1ByName` | ODIM_encoder.c:655-676 | with at most one data group, A1 is the letter of the quantity's ODIM name, so a 1-byte quantity and its 2-byte form get the same letter |
| `Naming.A2` | ODIM_encoder.c:682-695 | no scan means no file name; A2 is Z exactly for more than one scan |
| `Naming.NameRoundTrip` | ODIM_encoder.c:707 | the fields of a file name are read back from it by splitting at '_' |

## Left out

- Vendor library calls are inputs:
  - `lDspMaskTest` becomes a set of mask bits.
  - `uncompress_cowords` becomes a ray record (present or missing, bin count, bytes).
  - `fNyquistVelocity` and `fNyquistWidth` become the reals `ni` and `nw`.
  - `fPrfLowFromHighCase` becomes the low PRF.
  - `dsp_string_from_tcf` becomes the five TCF strings.
  - `fPDegFromBin2` (for the start azimuth) and `fDegFromBin2` (for the end azimuth) become the two azimuths in degrees.
- HDF5 output, files and streams are not modelled: `tmpfile`, `fread`, `fwrite`, `rename`, the ODIM name file and the intermediate data file.
- `getenv` is an `Option<string>` argument where the logic depends on it: the compression level and the radar source string. Every other environment block is configuration.
- `mktime`, `gmtime_r` and `strftime` depend on the C library and the time zone; the date part and the end time are not modelled.
- `usage`, the Dump functions, argv parsing and verbose printing are not modelled.
- `ScanAssembly.Upgrade`: does not model the 1.0000001 bias or IEEE rounding, because the value is stated as 1 + floor(65533 * sqrt((v - 1) / 253)) in exact arithmetic.
- Requantize uses exact real arithmetic: eps enters only the conversion offset, and the IEEE rounding of the conversion is not modelled.
- `Requantize.WidenSample`: returns None where the C cast of a value outside 0..65535 to ushort is undefined.
- `Requantize.EncodeQuantity`: division by zero (a zero Nyquist factor or a zero target gain) gives None, where C would produce inf or NaN.
- `Requantize.EncodeQuantity`: returns None when narrowing 1-byte samples, where the loop's 2-byte read at the last sample runs past the end of the array; the values the loop would compute over the remaining samples, which pair each byte with its neighbour, are not modelled.
- `Requantize.EncodeQuantity`: follows the encoder as written, so converting between WRADH and WRADH2 uses the gain and offset of the first row under Findings; the corrected conversion (`Requantize.Convert`, with `Requantize.ConvertKeepsValue`) is the one proved to keep values.
- The byte order of stored words is little-endian, as on the hosts the programs target.
- `ScanAssembly.AssembleRows` and `ScanAssembly.AssembledRow` assume every ray of a scan has the first ray's bin count. With other counts, the rows are placed by each ray's own count, which `ScanAssembly.MergeRay` states.
- `ScanAssembly.Payload`: a ray is assumed to fit the decoder's fixed ray buffer (`Fits`); a longer ray would overflow it.
- `ScanMeta.Thresholds`: for LDR data types the TCF buffer is read uninitialised. It is modelled as a parameter holding whatever the buffer last held.
- `CStrings.Atoi`: does not model overflow of int, because the numbers read here are small. `Naming.RadNum` also does not model the truncation of radnum to short.
- `Naming.RadNum`: a source string without "RAD:", or too short to skip six characters, gives None where the encoder dereferences a null pointer or reads past the string.
- The request parser's table is a map. Writes past MAX_QUANTS slots, or to a scan number outside the table (an atoi result, or items after '*' that overflow swlist), are not modelled as memory corruption.
- The preliminary "T_PAxx" file name, which is later renamed, is not modelled.
- `ScanMeta.TimeRoundTrip`: holds below 100 hours only, because %02d prints three digits beyond that.
- `IrisTypes.CountQuantities`: keeps every mask bit below 128 with no limit, where the decoder stores them in a 64-entry array (and sizes its per-quantity arrays alike); a mask with more than 64 data types would overflow it, and that overflow is not modelled.
- `IrisTypes.DataBytes` is computed once per product, as the decoder does it only for the first scan.
- The elevation-angle rounding, the unit conversions (`/100.0` and similar) and the other per-scan attributes copied straight from the headers are not modelled.

## Findings

| source | as written | input that shows it | evidently intended | confidence | as-written member | corrected member |
|---|---|---|---|---|---|---|
| ODIM_encoder.c:511-534 | Converting between WRADH and WRADH2 applies the Nyquist width to the target's gain, where VRADH applies the Nyquist velocity to the source's gain | 1-byte WRADH code 128 with Nyquist width 8 m/s means 4 m/s; the widened code reads back as 0.5 m/s | scale the source like VRADH, so that the converted code keeps its value | not executed; medium | `Requantize.WidthWideningExample` | `Requantize.ConvertKeepsValue` |
| IRIS_decoder.c:1030-1033 | 1-byte SQI, which the decoder turns into 2-byte words, is labelled with the 1-byte code SQIH, which has no catalog entry | any product recording DB_SQI | the 2-byte code SQIH2, as RHOHV, KDP, PMI and CCOR get | not executed; medium | `IrisTypes.SqiLabelUnset` | `IrisTypes.FixedLabelsMatchCatalog` |
| IRIS_decoder.c:623 | the second labelling call for a forced type stores the label in the slot numbered by the IRIS data type, not in the slot of the entry | a product with 15 data types, KDP at entry 11 and SQI at entry 14: slot 14 is relabelled KDP | store the label in the entry's own slot | not executed; high | `IrisTypes.ForcedRelabelClobbers` | `IrisTypes.FixedSlotLabels` |
| IRIS_decoder.c:729-732 | the azimuth difference of the first ray is brought into range by half the ray count (`azgates/2`), which is half a turn in degrees only for 360 rays | a 720-ray scan whose clockwise first ray runs from 359.75 to 0.25 degrees: the difference -359.5 is not below -360, so rotsgn is -1; a1gate is then the ray before the latest one instead of the ray after it, and antspeed is negated | compare with 180 degrees and wrap by 360, whatever the ray count | not executed; medium | `ScanAssembly.RotSignNorthCrossing` | `ScanAssembly.RotSignByTurnClockwise` |

=== FILE: c_strings.dfy ===
/**
  The C library string routines the decoder and the encoder lean on, as pure
  functions on `string`: strstr, strtok_r with a one-character delimiter,
  atoi, and the decimal conversions of printf's %d and %02d.
*/
module CStrings {
  import opened Wrappers

  // ---------------------------------------------------------------------
  // strstr

  /** Whether `word` occurs in `text` starting at index `i`. */
  predicate OccursAt(text: string, word: string, i: int) {
    0 <= i <= |text| - |word| && text[i..i + |word|] == word
  }

  /** strstr found `word` in `text`. */
  predicate Contains(text: string, word: string) {
    exists i | 0 <= i <= |text| - |word| :: OccursAt(text, word, i)
  }

  /** The search of strstr from index `i` on. */
  function StrstrFrom(text: string, word: string, i: nat): (r: Option<nat>)
    ensures r.Some? ==> i <= r.value && OccursAt(text, word, r.value)
    ensures r.Some? ==> forall j :: i <= j < r.value ==> !OccursAt(text, word, j)
    ensures r.None? ==> forall j :: i <= j ==> !OccursAt(text, word, j)
    decreases |text| - i
  {
    if i + |word| > |text| then None
    else if text[i..i + |word|] == word then Some(i)
    else StrstrFrom(text, word, i + 1)
  }

  /** strstr: the first index at which `word` occurs in `text`, None for
      the null pointer. */
  function Strstr(text: string, word: string): (r: Option<nat>)
    ensures r.Some? <==> Contains(text, word)
    ensures r.Some? ==> OccursAt(text, word, r.value) && forall j :: 0 <= j < r.value ==> !OccursAt(text, word, j)
  {
    StrstrFrom(text, word, 0)
  }

  // ---------------------------------------------------------------------
  // Decimal digits

  predicate IsDigit(c: char) {
    '0' <= c <= '9'
  }

  function Digit(d: nat): char
    requires d < 10
  {
    ('0' as int + d) as char
  }

  /** printf's %d of a natural number: its decimal digits, no leading zero. */
  function NatString(n: nat): (s: string)
    ensures |s| >= 1
    ensures forall i :: 0 <= i < |s| ==> '0' <= s[i] <= '9'
    decreases n
  {
    if n < 10 then [Digit(n)] else NatString(n / 10) + [Digit(n % 10)]
  }

  /** The value of a string of decimal digits. */
  function ParseDigits(s: string): nat
    requires forall i :: 0 <= i < |s| ==> '0' <= s[i] <= '9'
    decreases |s|
  {
    if s == [] then 0 else ParseDigits(s[..|s| - 1]) * 10 + (s[|s| - 1] as int - '0' as int)
  }

  /** The digits NatString prints read back as the number printed. */
  lemma {:induction false} ParseNatString(n: nat)
    ensures ParseDigits(NatString(n)) == n
    decreases n
  {
    if n >= 10 {
      ParseNatString(n / 10);
      var s := NatString(n);
      assert s[..|s| - 1] == NatString(n / 10);
    }
  }

  /** printf's %02d: at least two characters, zero padded; a negative number
      keeps its sign in front. */
  function Pad2(n: int): string {
    if 0 <= n < 10 then "0" + NatString(n)
    else if n >= 0 then NatString(n)
    else "-" + NatString(-n)
  }

  /** Below 100, %02d prints exactly two digits that read back as `n`. */
  lemma Pad2Digits(n: int)
    requires 0 <= n < 100
    ensures |Pad2(n)| == 2 && forall i :: 0 <= i < 2 ==> '0' <= Pad2(n)[i] <= '9'
    ensures ParseDigits(Pad2(n)) == n
  {
    ParseNatString(n);
    if n < 10 {
      var s := Pad2(n);
      assert s[..1] == "0";
    } else {
      assert NatString(n / 10) == [Digit(n / 10)];
    }
  }

  // ---------------------------------------------------------------------
  // atoi

  /** isspace in the C locale. */
  predicate IsSpace(c: char) {
    c == ' ' || c == '\t' || c == '\n' || c == 11 as char || c == 12 as char || c == '\r'
  }

  /** Length of the run of digits `s` starts with. */
  function DigitRun(s: string): (k: nat)
    ensures k <= |s|
    ensures forall i :: 0 <= i < k ==> IsDigit(s[i])
    ensures k < |s| ==> !IsDigit(s[k])
    decreases |s|
  {
    if s == [] || !IsDigit(s[0]) then 0 else 1 + DigitRun(s[1..])
  }

  /** atoi: white space is skipped, one sign is taken, then the longest run of
      digits is read; a string without digits there gives 0. */
  function Atoi(s: string): int
    decreases |s|
  {
    if s != [] && IsSpace(s[0]) then Atoi(s[1..])
    else
      var body := if s != [] && (s[0] == '-' || s[0] == '+') then s[1..] else s;
      var v: int := ParseDigits(body[..DigitRun(body)]);
      if s != [] && s[0] == '-' then -v else v
  }

  lemma {:induction false} DigitRunPrefix(p: string, rest: string)
    requires forall i :: 0 <= i < |p| ==> IsDigit(p[i])
    requires rest == [] || !IsDigit(rest[0])
    ensures DigitRun(p + rest) == |p|
    decreases |p|
  {
    if p != [] {
      assert (p + rest)[1..] == p[1..] + rest;
      DigitRunPrefix(p[1..], rest);
    } else {
      assert p + rest == rest;
    }
  }

  /** The number a run of digits followed by a non-digit spells. */
  lemma DigitsThen(p: string, rest: string)
    requires forall i :: 0 <= i < |p| ==> IsDigit(p[i])
    requires rest == [] || !IsDigit(rest[0])
    ensures DigitRun(p + rest) == |p|
    ensures (p + rest)[..DigitRun(p + rest)] == p
  {
    DigitRunPrefix(p, rest);
    assert (p + rest)[..|p|] == p;
  }

  /** atoi of a run of digits followed by a non-digit. */
  lemma AtoiDigits(p: string, rest: string)
    requires |p| > 0 && forall i :: 0 <= i < |p| ==> '0' <= p[i] <= '9'
    requires rest == [] || !IsDigit(rest[0])
    ensures Atoi(p + rest) == ParseDigits(p)
  {
    var s := p + rest;
    assert s[0] == p[0];
    assert !IsSpace(s[0]) && s[0] != '-' && s[0] != '+';
    DigitsThen(p, rest);
  }

  /** atoi of a string starting with a minus sign. */
  lemma AtoiMinus(s: string)
    requires s != [] && s[0] == '-'
    ensures Atoi(s) == -(ParseDigits(s[1..][..DigitRun(s[1..])]) as int)
  {
    assert !IsSpace(s[0]);
  }

  /** atoi of a minus sign, a run of digits and a non-digit. */
  lemma AtoiNegDigits(p: string, rest: string)
    requires |p| > 0 && forall i :: 0 <= i < |p| ==> '0' <= p[i] <= '9'
    requires rest == [] || !IsDigit(rest[0])
    ensures Atoi("-" + (p + rest)) == -(ParseDigits(p) as int)
  {
    var t := p + rest;
    var s := "-" + t;
    AtoiMinus(s);
    assert s[1..] == t by {
      assert |s[1..]| == |t|;
      forall i | 0 <= i < |t| ensures s[1..][i] == t[i] {
        assert s[1..][i] == s[i + 1];
      }
    }
    DigitsThen(p, rest);
  }

  /** atoi reads back what %d printed, with or without a minus sign, whatever
      non-digit text follows. */
  lemma AtoiNatString(n: nat, rest: string)
    requires rest == [] || !IsDigit(rest[0])
    ensures Atoi(NatString(n) + rest) == n
    ensures Atoi("-" + (NatString(n) + rest)) == -(n as int)
  {
    ParseNatString(n);
    AtoiDigits(NatString(n), rest);
    AtoiNegDigits(NatString(n), rest);
  }

  // ---------------------------------------------------------------------
  // strtok_r

  /** Index of the first `d` in `s`, or |s| when there is none. */
  function Find(s: string, d: char): (k: nat)
    ensures k <= |s|
    ensures forall i :: 0 <= i < k ==> s[i] != d
    ensures k < |s| ==> s[k] == d
    decreases |s|
  {
    if s == [] || s[0] == d then 0 else 1 + Find(s[1..], d)
  }

  /** strtok_r with the single delimiter `d`: the maximal runs of characters
      other than `d`, in order; empty runs are never returned. */
  function Tokens(s: string, d: char): (r: seq<string>)
    ensures forall j :: 0 <= j < |r| ==> |r[j]| > 0 && d !in r[j]
    decreases |s|
  {
    if s == [] then []
    else if s[0] == d then Tokens(s[1..], d)
    else
      var k := Find(s, d);
      [s[..k]] + Tokens(s[k..], d)
  }

  /** The tokens written out with one delimiter between two of them. */
  function Join(toks: seq<string>, d: char): string
    decreases |toks|
  {
    if |toks| == 0 then []
    else if |toks| == 1 then toks[0]
    else toks[0] + [d] + Join(toks[1..], d)
  }

  /** The characters of `s` other than `d`. */
  function Without(s: string, d: char): (r: string)
    decreases |s|
  {
    if s == [] then [] else (if s[0] == d then [] else [s[0]]) + Without(s[1..], d)
  }

  /** The tokens one after another. */
  function Flatten(toks: seq<string>): string
    decreases |toks|
  {
    if toks == [] then [] else toks[0] + Flatten(toks[1..])
  }

  lemma FindPrefix(t: string, u: string, d: char)
    requires d !in t
    ensures Find(t + u, d) == (if u != [] && u[0] == d then |t| else |t| + Find(u, d))
  {
    var j := if u != [] && u[0] == d then 0 else Find(u, d);
    forall i | 0 <= i < |t| + j ensures (t + u)[i] != d {
      if i >= |t| { assert (t + u)[i] == u[i - |t|]; }
    }
    if |t| + j < |t + u| {
      assert (t + u)[|t| + j] == u[j];
    }
  }

  /** Splitting a joined list gives the list back, provided no token is empty
      or holds the delimiter. */
  lemma {:induction false} TokensJoin(toks: seq<string>, d: char)
    requires forall j :: 0 <= j < |toks| ==> |toks[j]| > 0 && d !in toks[j]
    ensures Tokens(Join(toks, d), d) == toks
    decreases |toks|
  {
    if |toks| == 1 {
      var t := toks[0];
      FindPrefix(t, [], d);
      assert t + [] == t;
      assert t[..|t|] == t && t[|t|..] == [];
    } else if |toks| > 1 {
      var t := toks[0];
      var rest := Join(toks[1..], d);
      var s := Join(toks, d);
      assert s == t + ([d] + rest);
      FindPrefix(t, [d] + rest, d);
      assert s[..|t|] == t;
      assert s[|t|..] == [d] + rest;
      assert ([d] + rest)[1..] == rest;
      TokensJoin(toks[1..], d);
      assert toks == [t] + toks[1..];
    }
  }

  lemma WithoutAppend(a: string, b: string, d: char)
    ensures Without(a + b, d) == Without(a, d) + Without(b, d)
    decreases |a|
  {
    if a != [] {
      assert (a + b)[1..] == a[1..] + b;
      WithoutAppend(a[1..], b, d);
    } else {
      assert a + b == b;
    }
  }

  lemma {:induction false} WithoutFree(a: string, d: char)
    requires d !in a
    ensures Without(a, d) == a
    decreases |a|
  {
    if a != [] {
      assert a[0] != d;
      assert d !in a[1..];
      WithoutFree(a[1..], d);
      assert a == [a[0]] + a[1..];
    }
  }

  /** Tokenizing loses the delimiters and nothing else: the tokens one after
      another are the string with every `d` removed. */
  lemma {:induction false} TokensContent(s: string, d: char)
    ensures Flatten(Tokens(s, d)) == Without(s, d)
    decreases |s|
  {
    if s != [] {
      if s[0] == d {
        TokensContent(s[1..], d);
      } else {
        var k := Find(s, d);
        assert s == s[..k] + s[k..];
        WithoutAppend(s[..k], s[k..], d);
        WithoutFree(s[..k], d);
        TokensContent(s[k..], d);
        var r := Tokens(s, d);
        assert r[0] == s[..k] && r[1..] == Tokens(s[k..], d);
      }
    }
  }
}

=== FILE: datatypes.dfy ===
/**
  IRIS data types of a RAW product and their ODIM labels.

  The decoder learns the recorded data types from the DSP data mask, decides
  how many bytes each sample of a type takes, and labels every type with an
  ODIM quantity code and name (ProcessDatatype).
*/
module IrisTypes {
  import opened Wrappers
  import opened Quantities

  // IRIS data type numbers (DB_*).
  const XHDR: int := 0
  const DBT: int := 1
  const DBZ: int := 2
  const VEL: int := 3
  const WIDTH: int := 4
  const ZDR_T: int := 5
  const DBZC: int := 7
  const DBT2: int := 8
  const DBZ2: int := 9
  const VEL2: int := 10
  const WIDTH2: int := 11
  const ZDR2: int := 12
  const KDP_T: int := 14
  const KDP2: int := 15
  const PHIDP_T: int := 16
  const VELC: int := 17
  const SQI: int := 18
  const RHOHV_T: int := 19
  const RHOHV2: int := 20
  const DBZC2: int := 21
  const VELC2: int := 22
  const SQI2: int := 23
  const PHIDP2: int := 24
  const LDRH: int := 25
  const LDRH2: int := 26
  const LDRV_T: int := 27
  const LDRV2: int := 28
  const HCLASS_T: int := 55
  const HCLASS2: int := 56
  const ZDRC_T: int := 57
  const ZDRC2: int := 58
  const DBTV8: int := 61
  const DBTV16: int := 62
  const DBZV8: int := 63
  const DBZV16: int := 64
  const SNR8: int := 65
  const SNR16: int := 66
  const DBTE8: int := 71
  const DBTE16: int := 72
  const DBZE8: int := 73
  const DBZE16: int := 74
  const PMI8: int := 75
  const PMI16: int := 76
  const LOG8: int := 77
  const LOG16: int := 78
  const CSP8: int := 79
  const CSP16: int := 80
  const CCOR8: int := 81
  const CCOR16: int := 82
  const AH8: int := 83
  const AH16: int := 84
  const AV8: int := 85
  const AV16: int := 86
  const AZDR8: int := 87
  const AZDR16: int := 88

  /** Data types are the bit numbers 0..127 of the DSP data mask. */
  const MaskBits: int := 128

  /** The quantity-counting loop of product_raw: the data types set in the mask,
      in ascending order, without the extended header, which is only flagged. */
  method CountQuantities(mask: set<int>) returns (types: seq<int>, xhdr: bool)
    ensures xhdr <==> XHDR in mask
    ensures forall i :: 0 <= i < |types| ==> 0 <= types[i] < MaskBits && types[i] in mask && types[i] != XHDR
    ensures forall i, j :: 0 <= i < j < |types| ==> types[i] < types[j]
    ensures forall t :: 0 <= t < MaskBits && t in mask && t != XHDR ==> t in types
  {
    types := [];
    xhdr := false;
    var t := 0;
    while t < MaskBits
      invariant 0 <= t <= MaskBits
      invariant xhdr <==> XHDR in mask && XHDR < t
      invariant forall i :: 0 <= i < |types| ==> 0 <= types[i] < t && types[i] in mask && types[i] != XHDR
      invariant forall i, j :: 0 <= i < j < |types| ==> types[i] < types[j]
      invariant forall u :: 0 <= u < t && u in mask && u != XHDR ==> u in types
    {
      if t in mask {
        if t == XHDR {
          xhdr := true;
        } else {
          types := types + [t];
        }
      }
      t := t + 1;
    }
  }

  /** The data types the decoder turns into 2-byte samples whatever their
      recorded width. */
  predicate Forced16(dt: int) {
    dt in {KDP_T, RHOHV_T, SQI, CCOR8, PMI8}
  }

  /** Bytes per sample of a data type: 2 for the forced types, otherwise the
      recorded bits per bin of its ingest header divided by 8. */
  function DataBytes(dt: int, bitsPerBin: nat): (b: nat)
    ensures Forced16(dt) ==> b == 2
    ensures !Forced16(dt) ==> b * 8 <= bitsPerBin < b * 8 + 8
  {
    if Forced16(dt) then 2 else bitsPerBin / 8
  }

  /** The ODIM label ProcessDatatype gives a data type. */
  datatype Label = Label(code: int, name: string)

  /** The label before any data type is processed: the cleared DataWhat. */
  const NoLabel: Label := Label(0, "")

  /** The switch of ProcessDatatype, as written: None for a data type it does
      not list. A 1-byte SQI is labelled with the 1-byte SQIH code. */
  function LabelOf(dt: int): Option<Label> {
    if dt == SQI then Some(Label(SQIH, "SQIH")) else CommonLabel(dt)
  }

  /** The switch of ProcessDatatype with a 1-byte SQI labelled SQIH2, the
      2-byte quantity its samples are turned into. */
  function FixedLabelOf(dt: int): Option<Label> {
    if dt == SQI then Some(Label(Wide(SQIH), "SQIH")) else CommonLabel(dt)
  }

  /** The cases of the switch that need no correction. */
  function CommonLabel(dt: int): Option<Label> {
    match dt
    case 1 => Some(Label(TH, "TH"))
    case 2 => Some(Label(DBZH, "DBZH"))
    case 3 => Some(Label(VRADH, "VRADH"))
    case 4 => Some(Label(WRADH, "WRADH"))
    case 5 => Some(Label(ZDR, "ZDR"))
    case 57 => Some(Label(ZDRC, "ZDRC"))
    case 58 => Some(Label(Wide(ZDRC), "ZDRC"))
    case 7 => Some(Label(DBZHC, "DBZHC"))
    case 8 => Some(Label(Wide(TH), "TH"))
    case 9 => Some(Label(Wide(DBZH), "DBZH"))
    case 10 => Some(Label(Wide(VRADH), "VRADH"))
    case 11 => Some(Label(Wide(WRADH), "WRADH"))
    case 12 => Some(Label(Wide(ZDR), "ZDR"))
    case 14 => Some(Label(Wide(KDP), "KDP"))
    case 15 => Some(Label(Wide(KDP), "KDP"))
    case 16 => Some(Label(PHIDP, "PHIDP"))
    case 17 => Some(Label(VRADDH, "VRADDH"))
    case 19 => Some(Label(Wide(RHOHV), "RHOHV"))
    case 20 => Some(Label(Wide(RHOHV), "RHOHV"))
    case 21 => Some(Label(Wide(DBZHC), "DBZHC"))
    case 22 => Some(Label(Wide(VRADDH), "VRADDH"))
    case 23 => Some(Label(Wide(SQIH), "SQIH"))
    case 24 => Some(Label(Wide(PHIDP), "PHIDP"))
    case 25 => Some(Label(LDR, "LDR"))
    case 26 => Some(Label(Wide(LDR), "LDR"))
    case 27 => Some(Label(LDRV, "LDRV"))
    case 28 => Some(Label(Wide(LDRV), "LDRV"))
    case 55 => Some(Label(HCLASS, "HCLASS"))
    case 56 => Some(Label(Wide(HCLASS), "HCLASS"))
    case 61 => Some(Label(TV, "TV"))
    case 62 => Some(Label(Wide(TV), "TV"))
    case 71 => Some(Label(TX, "TX"))
    case 72 => Some(Label(Wide(TX), "TX"))
    case 73 => Some(Label(DBZX, "DBZX"))
    case 74 => Some(Label(Wide(DBZX), "DBZX"))
    case 65 => Some(Label(SNR, "SNR"))
    case 66 => Some(Label(Wide(SNR), "SNR"))
    case 63 => Some(Label(DBZV, "DBZV"))
    case 64 => Some(Label(Wide(DBZV), "DBZV"))
    case 75 => Some(Label(Wide(PMI), "PMI"))
    case 76 => Some(Label(Wide(PMI), "PMI"))
    case 77 => Some(Label(LOG, "LOG"))
    // the 2-byte log receiver SNR is named after the V-channel reflectivity
    case 78 => Some(Label(Wide(LOG), "DBZV"))
    case 79 => Some(Label(CSP, "CSP"))
    case 80 => Some(Label(Wide(CSP), "CSP"))
    case 81 => Some(Label(Wide(CCOR), "CCOR"))
    case 82 => Some(Label(Wide(CCOR), "CCOR"))
    case 83 => Some(Label(PIA, "PIA"))
    case 84 => Some(Label(Wide(PIA), "PIA"))
    case 85 => Some(Label(ATTV, "ATTV"))
    case 86 => Some(Label(Wide(ATTV), "ATTV"))
    case 87 => Some(Label(ATTZDR, "ATTZDR"))
    case 88 => Some(Label(Wide(ATTZDR), "ATTZDR"))
    case _ => None
  }

  /** The 1-byte SQI label names a quantity code the encoder's catalog leaves
      unset, so the encoder finds neither a scale nor an ODIM name for it. */
  lemma SqiLabelUnset()
    ensures LabelOf(SQI).Some? && !IsSet(LabelOf(SQI).value.code)
    ensures Entry(LabelOf(SQI).value.code).quantity != LabelOf(SQI).value.name
  {
  }

  /** With the correction, every listed data type except the 2-byte log
      receiver SNR gets a set catalog code whose ODIM name is its label name. */
  lemma FixedLabelsMatchCatalog(dt: int)
    requires FixedLabelOf(dt).Some? && dt != LOG16
    ensures IsSet(FixedLabelOf(dt).value.code)
    ensures Entry(FixedLabelOf(dt).value.code).quantity == FixedLabelOf(dt).value.name
  {
    if dt < 6 {
      LabelsMatchBelow6(dt);
    } else if dt < 12 {
      LabelsMatchBelow12(dt);
    } else if dt < 20 {
      LabelsMatchBelow20(dt);
    } else if dt < 26 {
      LabelsMatchBelow26(dt);
    } else if dt < 56 {
      LabelsMatchBelow56(dt);
    } else if dt < 65 {
      LabelsMatchBelow65(dt);
    } else if dt < 75 {
      LabelsMatchBelow75(dt);
    } else if dt < 81 {
      LabelsMatchBelow81(dt);
    } else {
      LabelsMatchFrom81(dt);
    }
  }

  lemma LabelsMatchBelow6(dt: int)
    requires FixedLabelOf(dt).Some? && dt < 6
    ensures IsSet(FixedLabelOf(dt).value.code)
    ensures Entry(FixedLabelOf(dt).value.code).quantity == FixedLabelOf(dt).value.name
  {
  }

  lemma LabelsMatchBelow12(dt: int)
    requires FixedLabelOf(dt).Some? && 6 <= dt < 12
    ensures IsSet(FixedLabelOf(dt).value.code)
    ensures Entry(FixedLabelOf(dt).value.code).quantity == FixedLabelOf(dt).value.name
  {
  }

  lemma LabelsMatchBelow20(dt: int)
    requires FixedLabelOf(dt).Some? && 12 <= dt < 20
    ensures IsSet(FixedLabelOf(dt).value.code)
    ensures Entry(FixedLabelOf(dt).value.code).quantity == FixedLabelOf(dt).value.name
  {
  }

  lemma LabelsMatchBelow26(dt: int)
    requires FixedLabelOf(dt).Some? && 20 <= dt < 26
    ensures IsSet(FixedLabelOf(dt).value.code)
    ensures Entry(FixedLabelOf(dt).value.code).quantity == FixedLabelOf(dt).value.name
  {
  }

  lemma LabelsMatchBelow56(dt: int)
    requires FixedLabelOf(dt).Some? && 26 <= dt < 56
    ensures IsSet(FixedLabelOf(dt).value.code)
    ensures Entry(FixedLabelOf(dt).value.code).quantity == FixedLabelOf(dt).value.name
  {
  }

  lemma LabelsMatchBelow65(dt: int)
    requires FixedLabelOf(dt).Some? && 56 <= dt < 65
    ensures IsSet(FixedLabelOf(dt).value.code)
    ensures Entry(FixedLabelOf(dt).value.code).quantity == FixedLabelOf(dt).value.name
  {
  }

  lemma LabelsMatchBelow75(dt: int)
    requires FixedLabelOf(dt).Some? && 65 <= dt < 75
    ensures IsSet(FixedLabelOf(dt).value.code)
    ensures Entry(FixedLabelOf(dt).value.code).quantity == FixedLabelOf(dt).value.name
  {
  }

  lemma LabelsMatchBelow81(dt: int)
    requires FixedLabelOf(dt).Some? && 75 <= dt < 81 && dt != LOG16
    ensures IsSet(FixedLabelOf(dt).value.code)
    ensures Entry(FixedLabelOf(dt).value.code).quantity == FixedLabelOf(dt).value.name
  {
  }

  lemma LabelsMatchFrom81(dt: int)
    requires FixedLabelOf(dt).Some? && 81 <= dt
    ensures IsSet(FixedLabelOf(dt).value.code)
    ensures Entry(FixedLabelOf(dt).value.code).quantity == FixedLabelOf(dt).value.name
  {
  }

  /** Every data type forced to 2 bytes is labelled with a 2-byte quantity
      after the correction; as written, SQI is the exception. */
  lemma ForcedLabelsWide(dt: int)
    requires Forced16(dt)
    ensures FixedLabelOf(dt).Some? && FixedLabelOf(dt).value.code > TWOB
    ensures LabelOf(dt).Some? && (LabelOf(dt).value.code > TWOB <==> dt != SQI)
  {
  }

  /** The loop of ProcessDatatype over a list of data types: each entry gets
      its label; an unlisted data type keeps the label of the previous entry,
      because the working DataWhat is not cleared between iterations. */
  function ProcessList(types: seq<int>, prev: Label, fixed: bool): (ls: seq<Label>)
    ensures |ls| == |types|
    decreases |types|
  {
    if types == [] then []
    else
      var l := if fixed then FixedLabelOf(types[0]) else LabelOf(types[0]);
      var cur := if l.Some? then l.value else prev;
      [cur] + ProcessList(types[1..], cur, fixed)
  }

  /** The label carried into entry i: the label of the last listed data type
      before it, or `prev` when there is none. */
  function Carried(types: seq<int>, i: nat, prev: Label, fixed: bool): Label
    requires i <= |types|
    decreases i
  {
    if i == 0 then prev
    else
      var l := if fixed then FixedLabelOf(types[i - 1]) else LabelOf(types[i - 1]);
      if l.Some? then l.value else Carried(types, i - 1, prev, fixed)
  }

  lemma {:induction false} ProcessListSpec(types: seq<int>, prev: Label, fixed: bool)
    ensures forall i :: 0 <= i < |types| ==>
      ProcessList(types, prev, fixed)[i] == Carried(types, i + 1, prev, fixed)
    decreases |types|
  {
    if types != [] {
      var l := if fixed then FixedLabelOf(types[0]) else LabelOf(types[0]);
      var cur := if l.Some? then l.value else prev;
      ProcessListSpec(types[1..], cur, fixed);
      forall i | 0 <= i < |types|
        ensures ProcessList(types, prev, fixed)[i] == Carried(types, i + 1, prev, fixed)
      {
        CarriedShift(types, i + 1, prev, fixed);
      }
    }
  }

  /** Carrying through a list is carrying through its tail from the first
      entry's label. */
  lemma {:induction false} CarriedShift(types: seq<int>, i: nat, prev: Label, fixed: bool)
    requires 1 <= i <= |types|
    ensures var l := if fixed then FixedLabelOf(types[0]) else LabelOf(types[0]);
      var cur := if l.Some? then l.value else prev;
      Carried(types, i, prev, fixed) == Carried(types[1..], i - 1, cur, fixed)
    decreases i
  {
    if i > 1 {
      CarriedShift(types, i - 1, prev, fixed);
      assert types[1..][i - 2] == types[i - 1];
    }
  }

  /** The labels of the dataset slots after a scan's first pass: ProcessDatatype
      over the whole list, then, as written, a second call for each forced
      data type that stores its label in the slot numbered by the data type
      itself. */
  function RelabelForced(slots: map<int, Label>, types: seq<int>, from: nat, fixed: bool): map<int, Label>
    requires from <= |types|
    decreases |types| - from
  {
    if from == |types| then slots
    else
      var d := types[from];
      var next :=
        if !Forced16(d) then slots
        else
          var l := (if fixed then FixedLabelOf(d) else LabelOf(d)).value;
          if fixed then slots[from := l] else slots[d := l];
      RelabelForced(next, types, from + 1, fixed)
  }

  /** The slot labels after the first pass over a list of data types. */
  function SlotLabels(types: seq<int>, fixed: bool): map<int, Label> {
    var ls := ProcessList(types, NoLabel, fixed);
    RelabelForced(map i | 0 <= i < |ls| :: ls[i], types, 0, fixed)
  }

  lemma {:induction false} RelabelKeeps(slots: map<int, Label>, types: seq<int>, from: nat)
    requires from <= |types|
    requires forall i :: from <= i < |types| && Forced16(types[i]) ==> i in slots && slots[i] == FixedLabelOf(types[i]).value
    ensures RelabelForced(slots, types, from, true) == slots
    decreases |types| - from
  {
    if from < |types| {
      var d := types[from];
      if Forced16(d) {
        assert slots[from := FixedLabelOf(d).value] == slots;
      }
      RelabelKeeps(slots, types, from + 1);
    }
  }

  /** With the second call storing into the entry's own slot, the slots keep
      exactly the labels of the first call: slot i is labelled for types[i]. */
  lemma FixedSlotLabels(types: seq<int>)
    ensures forall i :: 0 <= i < |types| ==> i in SlotLabels(types, true)
    ensures forall i :: 0 <= i < |types| && FixedLabelOf(types[i]).Some? ==>
      SlotLabels(types, true)[i] == FixedLabelOf(types[i]).value
  {
    var ls := ProcessList(types, NoLabel, true);
    var m := map i | 0 <= i < |ls| :: ls[i];
    ProcessListSpec(types, NoLabel, true);
    forall i | 0 <= i < |types| && Forced16(types[i])
      ensures i in m && m[i] == FixedLabelOf(types[i]).value
    {
      assert ls[i] == Carried(types, i + 1, NoLabel, true);
    }
    RelabelKeeps(m, types, 0);
    forall i | 0 <= i < |types| && FixedLabelOf(types[i]).Some?
      ensures SlotLabels(types, true)[i] == FixedLabelOf(types[i]).value
    {
      assert ls[i] == Carried(types, i + 1, NoLabel, true);
    }
  }

  /** Entries that are not forced leave the slots alone. */
  lemma {:induction false} RelabelSkip(slots: map<int, Label>, types: seq<int>, from: nat, to: nat, fixed: bool)
    requires from <= to <= |types|
    requires forall i :: from <= i < to ==> !Forced16(types[i])
    ensures RelabelForced(slots, types, from, fixed) == RelabelForced(slots, types, to, fixed)
    decreases |types| - from
  {
    if from < to {
      RelabelSkip(slots, types, from + 1, to, fixed);
    }
  }

  /** A product with fifteen data types, KDP at index 11 and SQI at index 14:
      as written, the forced call for KDP relabels slot 14, so the SQI samples
      are announced as KDP. */
  lemma ForcedRelabelClobbers()
    ensures var types := [DBT, DBZ, VEL, WIDTH, ZDR_T, DBZC, DBT2, DBZ2, VEL2, WIDTH2, ZDR2, KDP_T, PHIDP_T, VELC, SQI];
      && 14 in SlotLabels(types, false)
      && SlotLabels(types, false)[14] == Label(Wide(KDP), "KDP")
      && LabelOf(types[14]) == Some(Label(SQIH, "SQIH"))
  {
    var types := [DBT, DBZ, VEL, WIDTH, ZDR_T, DBZC, DBT2, DBZ2, VEL2, WIDTH2, ZDR2, KDP_T, PHIDP_T, VELC, SQI];
    var ls := ProcessList(types, NoLabel, false);
    var m := map i | 0 <= i < |ls| :: ls[i];
    var after11 := m[KDP_T := Label(Wide(KDP), "KDP")];
    RelabelSkip(m, types, 0, 11, false);
    assert RelabelForced(m, types, 11, false) == RelabelForced(after11, types, 12, false);
    RelabelSkip(after11, types, 12, 14, false);
    assert RelabelForced(after11, types, 14, false) == RelabelForced(after11[SQI := Label(SQIH, "SQIH")], types, 15, false);
  }
}

=== FILE: naming.dfy ===
/**
  The encoder's file-level choices: the compression level taken from the
  environment, the scan_optimized attribute, the IRIS flag attributes, the
  radar number read from the source string, and the Odyssey file name whose
  letters say what the volume holds.

  The environment arrives as `Option<string>` values, None for a variable
  that is not set.
*/
module Naming {
  import opened Wrappers
  import opened Quantities
  import opened CStrings
  import ScanMeta

  // ---------------------------------------------------------------------
  // Compression level

  /** ODIM_COMPRESSION_LEVEL: atoi of the variable when it is set, 6 when
      it is not set or atoi gives a value outside 0 .. 9. */
  function CompressionLevel(env: Option<string>): (c: int)
    ensures 0 <= c <= 9
    ensures env.None? ==> c == 6
  {
    var v := if env.None? then 6 else Atoi(env.value);
    if v < 0 || v > 9 then 6 else v
  }

  /** A level written as a decimal number, with any non-digit text after it,
      is the level used when it lies in 0 .. 9, and 6 otherwise; so is a
      negative number, which is always replaced. */
  lemma CompressionLevelOf(n: nat, rest: string)
    requires rest == [] || !IsDigit(rest[0])
    ensures CompressionLevel(Some(NatString(n) + rest)) == (if n <= 9 then n else 6)
    ensures n > 0 ==> CompressionLevel(Some("-" + (NatString(n) + rest))) == 6
  {
    AtoiNatString(n, rest);
  }

  // ---------------------------------------------------------------------
  // scan_optimized

  /** The quantity a scan is optimized for: VRADH under dual PRF, when the
      low and high PRF differ, DBZH otherwise. */
  function ScanOptimized(lowprf: int, highprf: int): string {
    if lowprf != highprf then "VRADH" else "DBZH"
  }

  /** On the PRF settings the decoder derives, a scan is VRADH-optimized
      exactly when its trigger is one of the dual-PRF ratios and the low PRF
      differs from the high one. */
  lemma ScanOptimizedPrf(itrig: int, iprf: int, lowFromHigh: int)
    ensures var m := ScanMeta.PrfOf(itrig, iprf, lowFromHigh);
      ScanOptimized(m.lowprf, m.highprf) == "VRADH"
      <==> itrig in {ScanMeta.PRF_2_3, ScanMeta.PRF_3_4, ScanMeta.PRF_4_5} && lowFromHigh != iprf
    ensures var m := ScanMeta.PrfOf(itrig, iprf, lowFromHigh);
      m.single ==> ScanOptimized(m.lowprf, m.highprf) == "DBZH"
  {
  }

  // ---------------------------------------------------------------------
  // IRIS flag attributes

  /** A string attribute of a dataset's how group. */
  datatype Attr = Attr(name: string, value: string)

  /** The names of the bits of the first flag word; "" marks a bit that has
      no attribute. */
  const Names0: seq<string> := [
    "f_speckle_Z", "", "f_speckle_V", "", "f_rangenorm", "f_beginpulse",
    "f_endpulse", "f_varpulses_dPRF", "f_3lag_PP02", "f_shipVcorr",
    "f_unfold_Vc", "f_fallsp_Vc", "f_beamblock_Zc", "f_Z_atten_Zc",
    "f_targdetect_Zc", "f_stormrel_Vc"]

  /** The names of the bits of the second flag word. */
  const Names1: seq<string> := [
    "f_dp_atten_Zc+ZDRc", "f_dp_atten_Z+ZDR", "", "", "", "", "", "",
    "", "", "", "", "", "", "", ""]

  /** boolstr of the encoder. */
  function BoolStr(b: bool): string {
    if b then "True" else "False"
  }

  /** Bit `pos` of flag word `c`: (1 << pos) & c is not zero. */
  predicate Bit(c: bv16, pos: nat)
    requires pos < 16
  {
    c & (1 << pos) != 0
  }

  /** The attributes for the bits from `pos` on, one per named bit, in bit
      order. */
  function AttrsFrom(names: seq<string>, c: bv16, pos: nat): (r: seq<Attr>)
    requires |names| == 16 && pos <= 16
    ensures |r| <= 16 - pos
    decreases 16 - pos
  {
    if pos == 16 then []
    else if names[pos] != "" then [Attr(names[pos], BoolStr(Bit(c, pos)))] + AttrsFrom(names, c, pos + 1)
    else AttrsFrom(names, c, pos + 1)
  }

  /** The flag attributes of a scan: the named bits of the first word, then
      those of the second, each as "True" or "False". */
  function FlagAttrs(c0: bv16, c1: bv16): seq<Attr> {
    AttrsFrom(Names0, c0, 0) + AttrsFrom(Names1, c1, 0)
  }

  /** The position of `name` in `names`, from `pos` on. */
  function IndexFrom(names: seq<string>, name: string, pos: nat): (r: Option<nat>)
    requires pos <= |names|
    ensures r.Some? ==> pos <= r.value < |names| && names[r.value] == name
    ensures r.Some? ==> forall p :: pos <= p < r.value ==> names[p] != name
    ensures r.None? ==> forall p :: pos <= p < |names| ==> names[p] != name
    decreases |names| - pos
  {
    if pos == |names| then None
    else if names[pos] == name then Some(pos)
    else IndexFrom(names, name, pos + 1)
  }

  /** The bits a reader finds set in attributes: the position in `names` of
      every attribute it knows whose value is "True". */
  function ReadFlags(attrs: seq<Attr>, names: seq<string>): set<nat>
    decreases |attrs|
  {
    if attrs == [] then {}
    else
      var p := IndexFrom(names, attrs[0].name, 0);
      (if p.Some? && attrs[0].value == "True" then {p.value} else {}) + ReadFlags(attrs[1..], names)
  }

  /** The set bits from `pos` on that have a name. */
  function NamedBits(names: seq<string>, c: bv16, pos: nat): set<nat>
    requires |names| == 16
  {
    set p | pos <= p < 16 && names[p] != "" && Bit(c, p)
  }

  lemma {:induction false} ReadFlagsAppend(a: seq<Attr>, b: seq<Attr>, names: seq<string>)
    ensures ReadFlags(a + b, names) == ReadFlags(a, names) + ReadFlags(b, names)
    decreases |a|
  {
    if a == [] {
      assert a + b == b;
    } else {
      assert (a + b)[1..] == a[1..] + b;
      ReadFlagsAppend(a[1..], b, names);
    }
  }

  /** No name appears twice. */
  predicate Distinct(names: seq<string>) {
    forall p, q :: 0 <= p < q < |names| && names[p] != "" ==> names[p] != names[q]
  }

  lemma IndexOfDistinct(names: seq<string>, pos: nat)
    requires Distinct(names) && pos < |names| && names[pos] != ""
    ensures IndexFrom(names, names[pos], 0) == Some(pos)
  {
  }

  lemma {:induction false} ReadAttrsFrom(names: seq<string>, c: bv16, pos: nat)
    requires |names| == 16 && pos <= 16 && Distinct(names)
    ensures ReadFlags(AttrsFrom(names, c, pos), names) == NamedBits(names, c, pos)
    decreases 16 - pos
  {
    if pos < 16 {
      ReadAttrsFrom(names, c, pos + 1);
      if names[pos] != "" {
        var head := [Attr(names[pos], BoolStr(Bit(c, pos)))];
        ReadFlagsAppend(head, AttrsFrom(names, c, pos + 1), names);
        IndexOfDistinct(names, pos);
        assert head[1..] == [];
      }
      assert NamedBits(names, c, pos) == (if names[pos] != "" && Bit(c, pos) then {pos} else {}) + NamedBits(names, c, pos + 1);
    }
  }

  /** Attributes named by one word are unknown to the other word's table. */
  lemma {:induction false} ReadForeign(names: seq<string>, other: seq<string>, c: bv16, pos: nat)
    requires |names| == 16 && |other| == 16 && pos <= 16
    requires forall p, q :: 0 <= p < 16 && 0 <= q < 16 && names[p] != "" ==> names[p] != other[q]
    ensures ReadFlags(AttrsFrom(names, c, pos), other) == {}
    decreases 16 - pos
  {
    if pos < 16 {
      ReadForeign(names, other, c, pos + 1);
      if names[pos] != "" {
        var head := [Attr(names[pos], BoolStr(Bit(c, pos)))];
        ReadFlagsAppend(head, AttrsFrom(names, c, pos + 1), other);
        assert head[1..] == [];
        assert IndexFrom(other, names[pos], 0).None?;
      }
    }
  }

  lemma DistinctNames()
    ensures Distinct(Names0) && Distinct(Names1)
  {
    DistinctNamesLow();
    DistinctNamesHigh();
    assert Distinct(Names1) by {
      assert forall q :: 2 <= q < 16 ==> Names1[q] == "";
    }
  }

  lemma DistinctNamesLow()
    ensures forall p, q :: 0 <= p < 8 && p < q < 16 && Names0[p] != "" ==> Names0[p] != Names0[q]
  {
  }

  lemma DistinctNamesHigh()
    ensures forall p, q :: 8 <= p < q < 16 ==> Names0[p] != Names0[q]
  {
  }

  lemma ForeignNames()
    ensures forall p, q :: 0 <= p < 16 && 0 <= q < 16 && Names0[p] != "" ==> Names0[p] != Names1[q]
    ensures forall p, q :: 0 <= p < 16 && 0 <= q < 16 && Names1[p] != "" ==> Names1[p] != Names0[q]
  {
  }

  lemma NamedPositions(c0: bv16, c1: bv16)
    ensures NamedBits(Names0, c0, 0) == set p | 0 <= p < 16 && p != 1 && p != 3 && Bit(c0, p)
    ensures NamedBits(Names1, c1, 0) == set p | 0 <= p < 2 && Bit(c1, p)
  {
  }

  /** The flag attributes lose nothing but the unnamed bits: reading them
      back gives every set bit of the first word except bits 1 and 3, and the
      set bits among the second word's two low bits. */
  lemma FlagsRoundTrip(c0: bv16, c1: bv16)
    ensures ReadFlags(FlagAttrs(c0, c1), Names0) == set p | 0 <= p < 16 && p != 1 && p != 3 && Bit(c0, p)
    ensures ReadFlags(FlagAttrs(c0, c1), Names1) == set p | 0 <= p < 2 && Bit(c1, p)
  {
    NamedPositions(c0, c1);
    FirstWord(c0, c1);
    SecondWord(c0, c1);
  }

  lemma FirstWord(c0: bv16, c1: bv16)
    ensures ReadFlags(FlagAttrs(c0, c1), Names0) == NamedBits(Names0, c0, 0)
  {
    DistinctNames();
    ForeignNames();
    ReadFlagsAppend(AttrsFrom(Names0, c0, 0), AttrsFrom(Names1, c1, 0), Names0);
    ReadAttrsFrom(Names0, c0, 0);
    ReadForeign(Names1, Names0, c1, 0);
  }

  lemma SecondWord(c0: bv16, c1: bv16)
    ensures ReadFlags(FlagAttrs(c0, c1), Names1) == NamedBits(Names1, c1, 0)
  {
    DistinctNames();
    ForeignNames();
    ReadFlagsAppend(AttrsFrom(Names0, c0, 0), AttrsFrom(Names1, c1, 0), Names1);
    ReadAttrsFrom(Names1, c1, 0);
    ReadForeign(Names0, Names1, c0, 0);
  }

  // ---------------------------------------------------------------------
  // Radar number

  /** The radar number: atoi of the text six characters after the first
      "RAD:" of the source string, which skips the two-letter country code
      of "RAD:FI44". None where the encoder dereferences a null pointer or
      reads past the end of the string. */
  function RadNum(source: string): (r: Option<int>)
    ensures r.Some? ==> Contains(source, "RAD:")
  {
    var i := Strstr(source, "RAD:");
    if i.None? || i.value + 6 > |source| then None
    else Some(Atoi(source[i.value + 6..]))
  }

  /** A source string that starts with "RAD:", two characters and a number
      gives that number. */
  lemma RadNumOf(cc: string, n: nat, rest: string)
    requires |cc| == 2
    requires rest == [] || !IsDigit(rest[0])
    ensures RadNum("RAD:" + cc + (NatString(n) + rest)) == Some(n)
  {
    var s := "RAD:" + cc + (NatString(n) + rest);
    assert OccursAt(s, "RAD:", 0);
    assert s[6..] == NatString(n) + rest;
    AtoiNatString(n, rest);
  }

  // ---------------------------------------------------------------------
  // File name letters

  /** The product letter of the last scan: Z when it wrote more than one
      quantity, otherwise G, H or I for reflectivity, velocity or width
      written last, and X for anything else. */
  function A1(groups: int, lastQ: int): char {
    if groups > 1 then 'Z'
    else if lastQ == DBZH || lastQ == Wide(DBZH) then 'G'
    else if lastQ == VRADH || lastQ == Wide(VRADH) || lastQ == VRADDH || lastQ == Wide(VRADDH) then 'H'
    else if lastQ == WRADH || lastQ == Wide(WRADH) then 'I'
    else 'X'
  }

  /** The same letter chosen from the ODIM name of the quantity. */
  function LetterOfName(name: string): char {
    if name == "DBZH" then 'G'
    else if name == "VRADH" || name == "VRADDH" then 'H'
    else if name == "WRADH" then 'I'
    else 'X'
  }

  lemma LetterBelow(q: int)
    requires q < 17
    ensures A1(1, q) == LetterOfName(Entry(q).quantity)
  {
    if q <= 8 {} else {}
  }

  lemma LetterMiddle(q: int)
    requires 17 <= q < 46
    ensures A1(1, q) == LetterOfName(Entry(q).quantity)
  {
    if q <= 30 {} else {}
  }

  lemma LetterAbove(q: int)
    requires 46 <= q
    ensures A1(1, q) == LetterOfName(Entry(q).quantity)
  {
    if q <= 52 {} else {}
  }

  /** With one quantity or none, the letter is the one of the ODIM quantity
      name the catalog gives the code, so that the 1-byte and the 2-byte
      form of a quantity get the same letter. */
  lemma A1ByName(groups: int, q: int)
    requires groups <= 1
    ensures A1(groups, q) == LetterOfName(Entry(q).quantity)
    ensures 1 <= q < TWOB ==> A1(groups, q) == A1(groups, Wide(q))
  {
    if q < 17 {
      LetterBelow(q);
    } else if q < 46 {
      LetterMiddle(q);
    } else {
      LetterAbove(q);
    }
  }

  /** The object letter: Z for a volume of several scans, A for a single
      scan; a file with no scan is not named at all. */
  function A2(scans: nat): (r: Option<char>)
    ensures r.Some? <==> scans > 0
    ensures r.Some? ==> (r.value == 'Z' <==> scans > 1)
  {
    if scans == 0 then None else if scans > 1 then Some('Z') else Some('A')
  }

  /** The fields of an Odyssey file name. */
  datatype NameFields = NameFields(a1: char, a2: char, radnum: int, center: string, timestamp: string)

  /** T_PA%c%c%02d_C_%s_%s.h5 */
  function OdysseyName(f: NameFields): string {
    "T_PA" + [f.a1, f.a2] + Pad2(f.radnum) + "_C_" + f.center + "_" + f.timestamp + ".h5"
  }

  /** The name as '_'-separated tokens. */
  function NameTokens(f: NameFields): seq<string> {
    ["T", "PA" + [f.a1, f.a2] + Pad2(f.radnum), "C", f.center, f.timestamp + ".h5"]
  }

  /** Reading the fields back from a name. */
  function ParseName(name: string): Option<NameFields> {
    var t := Tokens(name, '_');
    if |t| == 5 && t[0] == "T" && t[2] == "C" && |t[1]| == 6 && t[1][..2] == "PA"
       && (forall i :: 4 <= i < 6 ==> IsDigit(t[1][i]))
       && |t[4]| >= 3 && t[4][|t[4]| - 3..] == ".h5"
    then Some(NameFields(t[1][2], t[1][3], ParseDigits(t[1][4..6]), t[3], t[4][..|t[4]| - 3]))
    else None
  }

  /** Fields a name can carry: letters other than '_', a radar number that
      prints as two digits, and a centre and time stamp that are non-empty
      and hold no '_'. */
  predicate Nameable(f: NameFields) {
    && f.a1 != '_' && f.a2 != '_'
    && 0 <= f.radnum < 100
    && |f.center| > 0 && '_' !in f.center
    && |f.timestamp| > 0 && '_' !in f.timestamp
  }

  lemma Join5(a: string, b: string, c: string, d: string, e: string, x: char)
    ensures Join([a, b, c, d, e], x) == a + [x] + (b + [x] + (c + [x] + (d + [x] + e)))
  {
    var t4 := [d, e];
    assert t4[1..] == [e];
    assert Join(t4, x) == d + [x] + e;
    var t3 := [c, d, e];
    assert t3[1..] == t4;
    assert Join(t3, x) == c + [x] + (d + [x] + e);
    var t2 := [b, c, d, e];
    assert t2[1..] == t3;
    assert Join(t2, x) == b + [x] + (c + [x] + (d + [x] + e));
    var t := [a, b, c, d, e];
    assert t[1..] == t2;
  }

  lemma NameShape(a1: char, a2: char, p: string, center: string, ts: string)
    ensures "T_PA" + [a1, a2] + p + "_C_" + center + "_" + ts + ".h5"
            == "T" + "_" + (("PA" + [a1, a2] + p) + "_" + ("C" + "_" + (center + "_" + (ts + ".h5"))))
  {
    var l := "T_PA" + [a1, a2] + p + "_C_" + center + "_" + ts + ".h5";
    var r := "T" + "_" + (("PA" + [a1, a2] + p) + "_" + ("C" + "_" + (center + "_" + (ts + ".h5"))));
    assert |l| == |r|;
    forall i | 0 <= i < |l| ensures l[i] == r[i] {
    }
  }

  lemma NameIsJoin(f: NameFields)
    ensures OdysseyName(f) == Join(NameTokens(f), '_')
  {
    var t := NameTokens(f);
    Join5(t[0], t[1], t[2], t[3], t[4], '_');
    NameShape(f.a1, f.a2, Pad2(f.radnum), f.center, f.timestamp);
  }

  /** The name gives its fields back. */
  lemma NameRoundTrip(f: NameFields)
    requires Nameable(f)
    ensures ParseName(OdysseyName(f)) == Some(f)
  {
    NameTokensClean(f);
    NameIsJoin(f);
    TokensJoin(NameTokens(f), '_');
    ParseFromTokens(OdysseyName(f), f);
  }

  /** No token of a name is empty or holds '_'. */
  lemma NameTokensClean(f: NameFields)
    requires Nameable(f)
    ensures forall j :: 0 <= j < |NameTokens(f)| ==> |NameTokens(f)[j]| > 0 && '_' !in NameTokens(f)[j]
  {
    var t := NameTokens(f);
    Pad2Digits(f.radnum);
    assert '_' !in t[1] by {
      assert forall i :: 4 <= i < 6 ==> t[1][i] == Pad2(f.radnum)[i - 4];
    }
    assert '_' !in t[4] by {
      assert forall i :: |f.timestamp| <= i < |t[4]| ==> t[4][i] == ".h5"[i - |f.timestamp|];
    }
  }

  /** A name that splits into the tokens of `f` parses as `f`. */
  lemma ParseFromTokens(name: string, f: NameFields)
    requires Nameable(f) && Tokens(name, '_') == NameTokens(f)
    ensures ParseName(name) == Some(f)
  {
    var t := NameTokens(f);
    Pad2Digits(f.radnum);
    assert t[1][4..6] == Pad2(f.radnum);
    assert t[4][..|t[4]| - 3] == f.timestamp;
  }
}

=== FILE: quantities.dfy ===
/**
  The ODIM quantity catalog of the encoder (SetQuantityParams) and its name
  lookup (getQuantityCode).

  Every ODIM quantity has a code. A 1-byte quantity X and its 2-byte form X2
  are TWOB codes apart, and code 0 means "no quantity". A catalog entry holds
  the name the encoder is asked for (in_quantity, "DBZH2"), the ODIM name it
  writes ("DBZH"), the linear scale and the two sentinel codes.
*/
module Quantities {

  /** Distance between a 1-byte quantity code and its 2-byte form. */
  const TWOB: int := 32
  /** Number of catalog slots (OQ_QUANTS_TOTAL). */
  const Total: int := 64

  // 1-byte quantity codes; the 2-byte form of each is the code plus TWOB.
  const TH: int := 1
  const TV: int := 2
  const TX: int := 3
  const DBZH: int := 4
  const DBZV: int := 5
  const DBZX: int := 6
  const SNR: int := 7
  const LOG: int := 8
  const CSP: int := 9
  const ATTV: int := 10
  const PIA: int := 11
  const ATTZDR: int := 12
  const DBZHC: int := 13
  const VRADH: int := 14
  const VRADDH: int := 15
  const WRADH: int := 16
  const ZDR: int := 17
  const ZDRC: int := 18
  const KDP: int := 19
  const PHIDP: int := 20
  const SQIH: int := 21
  const PMI: int := 22
  const CCOR: int := 23
  const RHOHV: int := 24
  const LDR: int := 25
  const LDRV: int := 26
  const HCLASS: int := 27

  /** The 2-byte form of 1-byte quantity code `q`. */
  function Wide(q: int): int {
    q + TWOB
  }

  /** One catalog entry (QuantCfg). */
  datatype Cfg = Cfg(inQuantity: string, quantity: string, gain: real, offset: real, nodata: int, undetect: int)

  /** A slot SetQuantityParams leaves as it was cleared: zero scale and
      sentinels, a one-space request name and an empty ODIM name. */
  const Unset: Cfg := Cfg(" ", "", 0.0, 0.0, 0, 0)

  /** The usual 1-byte scale: 0.5 dB steps from -32 dB. */
  function Narrow(name: string): Cfg {
    Cfg(name, name, 0.5, -32.0, 255, 0)
  }

  /** The usual 2-byte scale: 0.01 steps centred on code 32768. */
  function Wide16(name: string): Cfg {
    Cfg(name + "2", name, 0.01, -327.68, 65535, 0)
  }

  /** A 2-byte correlation-like scale: code 1 is 0, code 65534 is 1. */
  function Unit16(name: string): Cfg {
    Cfg(name + "2", name, 1.0 / 65533.0, -(1.0 / 65533.0), 65535, 0)
  }

  /** SetQuantityParams: the catalog entry of quantity code `q`. */
  function Entry(q: int): Cfg {
    match q
    case 1 => Narrow("TH")
    case 2 => Narrow("TV")
    case 3 => Narrow("TX")
    case 4 => Narrow("DBZH")
    case 5 => Narrow("DBZV")
    case 6 => Narrow("DBZX")
    case 7 => Narrow("SNR")
    case 8 => Narrow("LOG")
    case 9 => Narrow("CSP")
    case 10 => Narrow("ATTV")
    case 11 => Narrow("PIA")
    case 12 => Narrow("ATTZDR")
    case 13 => Narrow("DBZHC")
    // velocity in units of the Nyquist velocity; 0 is both nodata and undetect
    case 14 => Cfg("VRADH", "VRADH", 1.0 / 127.0, -128.0 / 127.0, 0, 0)
    case 15 => Cfg("VRADDH", "VRADDH", 75.0 / 127.0, -(150.0 / 127.0 + 74.4), 255, 0)
    // width in units of the Nyquist width
    case 16 => Cfg("WRADH", "WRADH", 1.0 / 256.0, 0.0, 255, 0)
    case 17 => Cfg("ZDR", "ZDR", 1.0 / 16.0, 128.0 / 16.0, 255, 0)
    case 18 => Cfg("ZDRC", "ZDRC", 1.0 / 16.0, 128.0 / 16.0, 255, 0)
    case 20 => Cfg("PHIDP", "PHIDP", 180.0 / 254.0, -(180.0 / 254.0), 255, 0)
    // a 1-byte request name with 2-byte sentinels
    case 24 => Cfg("RHOHV", "RHOHV", 1.0 / 65533.0, -(1.0 / 65533.0), 65535, 0)
    case 25 => Cfg("LDR", "LDR", 0.2, -0.2 - 45.0, 255, 0)
    case 26 => Cfg("LDRV", "LDRV", 0.2, -0.2 - 45.0, 255, 0)
    case 27 => Cfg("HCLASS", "HCLASS", 1.0, 0.0, 255, 0)
    case 33 => Wide16("TH")
    case 34 => Wide16("TV")
    case 35 => Wide16("TX")
    case 36 => Wide16("DBZH")
    case 37 => Wide16("DBZV")
    case 38 => Wide16("DBZX")
    case 39 => Wide16("SNR")
    case 40 => Wide16("LOG")
    case 41 => Wide16("CSP")
    case 42 => Wide16("ATTV")
    case 43 => Wide16("PIA")
    case 44 => Wide16("ATTZDR")
    case 45 => Wide16("DBZHC")
    case 46 => Wide16("VRADH")
    case 47 => Wide16("VRADDH")
    case 48 => Cfg("WRADH2", "WRADH", 0.01, 0.0, 65535, 0)
    case 49 => Wide16("ZDR")
    case 50 => Wide16("ZDRC")
    case 51 => Wide16("KDP")
    case 52 => Cfg("PHIDP2", "PHIDP", 360.0 / 65534.0, -(360.0 / 65534.0), 65535, 0)
    case 53 => Unit16("SQIH")
    case 54 => Unit16("PMI")
    case 55 => Unit16("CCOR")
    case 56 => Unit16("RHOHV")
    case 57 => Wide16("LDR")
    case 58 => Wide16("LDRV")
    case 59 => Cfg("HCLASS2", "HCLASS", 1.0, 0.0, 65535, 0)
    case _ => Unset
  }

  /** Whether SetQuantityParams fills slot `q`. */
  predicate IsSet(q: int) {
    Entry(q) != Unset
  }

  /** The search of getQuantityCode from slot `from` on: the first slot whose
      request name is `name`, or Total when there is none. */
  function FindFrom(name: string, from: nat): (q: int)
    requires from <= Total
    ensures from <= q <= Total
    ensures q < Total ==> Entry(q).inQuantity == name
    ensures forall p :: from <= p < q ==> Entry(p).inQuantity != name
    decreases Total - from
  {
    if from == Total then Total
    else if Entry(from).inQuantity == name then from
    else FindFrom(name, from + 1)
  }

  /** getQuantityCode: the first code whose request name is `name`, or 0 when
      there is none. Slot 0 and the cleared slots carry the name " ", so a
      request for " " also gives 0. */
  function GetQuantityCode(name: string): (q: int)
    ensures 0 <= q < Total
    ensures forall p :: 0 <= p < q ==> Entry(p).inQuantity != name
    ensures Entry(q).inQuantity == name || (q == 0 && forall p :: 0 <= p < Total ==> Entry(p).inQuantity != name)
  {
    var q := FindFrom(name, 0);
    if q == Total then 0 else q
  }

  /** The 2-byte entry of every quantity is requested by the ODIM name with a
      "2" appended, and writes the same ODIM name as the 1-byte entry when
      that one is set. */
  lemma WideNames(n: int)
    requires 1 <= n <= HCLASS && IsSet(Wide(n))
    ensures Entry(Wide(n)).inQuantity == Entry(Wide(n)).quantity + "2"
    ensures IsSet(n) ==> Entry(n).quantity == Entry(Wide(n)).quantity
  {
    if n <= 9 {
    } else if n <= 18 {
    } else {
    }
  }

  /** Sentinels: every set entry has undetect 0; every 2-byte entry has nodata
      65535; the 1-byte entries have nodata 255 except VRADH, whose nodata is
      0 like its undetect, and RHOHV, which carries the 2-byte sentinel. */
  lemma Sentinels(q: int)
    requires IsSet(q)
    ensures Entry(q).undetect == 0
    ensures q > TWOB ==> Entry(q).nodata == 65535
    ensures q < TWOB ==> Entry(q).nodata == (if q == VRADH then 0 else if q == RHOHV then 65535 else 255)
  {
  }

  /** The set slots are exactly the 1-byte codes other than KDP, SQIH, PMI and
      CCOR, and the 2-byte codes of all 27 quantities. */
  lemma SetSlots(q: int)
    ensures IsSet(q) <==> (1 <= q <= HCLASS && q !in {KDP, SQIH, PMI, CCOR}) || (Wide(1) <= q <= Wide(HCLASS))
  {
  }
}

=== FILE: record_stream.dfy ===
/**
  The record-stream reader of the IRIS RAW decoder (get_raw_bytes).

  A RAW product is a flat image of fixed-size tape records. Every record
  starts with a small block header whose first field is the record number.
  The reader keeps a cursor (record number, offset inside the record) and
  hands out runs of bytes of any length. It skips and checks one block header
  each time it enters a record, and it crosses record boundaries transparently.
*/
module RecordStream {
  import opened Wrappers

  /** TAPE_RECORD_LEN: size of one record of the RAW product. */
  const RecordLen: int := 6144
  /** RAW_PROD_BHDR_SIZE: size of the block header at the start of every record. */
  const HeaderSize: int := 12
  /** Payload bytes carried by one record. */
  const BodyLen: int := RecordLen - HeaderSize
  /** INGEST_DATA_HEADER_SIZE: size of one per-quantity ingest data header. */
  const IngestHeaderSize: int := 76

  /** The decoder's (irec_c, ioff_c) pair. */
  datatype Cursor = Cursor(irec: int, ioff: int)

  /** Offset zero means "the header of record irec has not been read yet";
      otherwise the offset lies past the header and inside the record. */
  predicate Valid(c: Cursor) {
    0 <= c.irec && (c.ioff == 0 || HeaderSize <= c.ioff < RecordLen)
  }

  datatype ReadError =
    | BlockMismatch(found: int, expected: int)  // block header number differs from irec_c
    | Truncated(record: int)                    // the product image ends inside a needed record

  datatype Chunk = Chunk(bytes: seq<Byte>, next: Cursor)

  /** A little-endian SINT2 field. */
  function Int16LE(lo: Byte, hi: Byte): (v: int)
    ensures -32768 <= v < 32768
  {
    var u := lo + 256 * hi;
    if u >= 32768 then u - 65536 else u
  }

  /** The record number stored in the block header of record `irec`. */
  function HeaderRecNo(s: seq<Byte>, irec: int): int
    requires 0 <= irec && irec * RecordLen + HeaderSize <= |s|
  {
    Int16LE(s[irec * RecordLen], s[irec * RecordLen + 1])
  }

  predicate HeaderOk(s: seq<Byte>, r: int) {
    0 <= r && r * RecordLen + HeaderSize <= |s| && HeaderRecNo(s, r) == r
  }

  /** Position of the cursor in the payload stream: the product bytes with every
      block header removed. */
  function PayloadIndex(c: Cursor): int {
    c.irec * BodyLen + (if c.ioff == 0 then 0 else c.ioff - HeaderSize)
  }

  /** Position in the product image of payload byte `p`. */
  function PhysOf(p: nat): nat {
    (p / BodyLen) * RecordLen + HeaderSize + p % BodyLen
  }

  function Prepend(b: seq<Byte>, r: Result<Chunk, ReadError>): Result<Chunk, ReadError> {
    if r.Err? then r else Ok(Chunk(b + r.value.bytes, r.value.next))
  }

  /** Bytes copied from the current record: what is left of it, or fewer. */
  function Take(c: Cursor, n: nat): nat
    requires Valid(c) && c.ioff != 0
  {
    if RecordLen - c.ioff < n then RecordLen - c.ioff else n
  }

  /** Cursor after copying `k` bytes from the current record: offset zero of the
      next record when the copy reaches the end of this one. */
  function Advance(c: Cursor, k: nat): Cursor
    requires Valid(c) && c.ioff != 0 && c.ioff + k <= RecordLen
  {
    if c.ioff + k == RecordLen then Cursor(c.irec + 1, 0) else Cursor(c.irec, c.ioff + k)
  }

  /** get_raw_bytes: read `n` bytes at cursor `c`. The header of a record is read
      and checked only when the offset is zero; a copy that reaches the end of a
      record moves the cursor to offset zero of the next record. */
  function Read(s: seq<Byte>, c: Cursor, n: nat): (r: Result<Chunk, ReadError>)
    requires Valid(c)
    ensures r.Ok? ==> |r.value.bytes| == n && Valid(r.value.next)
    ensures r.Ok? ==> PayloadIndex(r.value.next) == PayloadIndex(c) + n
    ensures r.Ok? && n > 0 ==> r.value.next.ioff != HeaderSize
    ensures n == 0 ==> r == Ok(Chunk([], c))
    decreases n, if c.ioff == 0 then 1 else 0
  {
    if n == 0 then Ok(Chunk([], c))
    else if c.ioff == 0 then
      if c.irec * RecordLen + HeaderSize > |s| then Err(Truncated(c.irec))
      else if HeaderRecNo(s, c.irec) != c.irec then Err(BlockMismatch(HeaderRecNo(s, c.irec), c.irec))
      else Read(s, Cursor(c.irec, HeaderSize), n)
    else
      var k := Take(c, n);
      var start := c.irec * RecordLen + c.ioff;
      if start + k > |s| then Err(Truncated(c.irec))
      else Prepend(s[start..start + k], Read(s, Advance(c, k), n - k))
  }

  /** Read entering a record whose header is correct. */
  lemma ReadHeaderStep(s: seq<Byte>, c: Cursor, n: nat)
    requires Valid(c) && c.ioff == 0 && n > 0 && HeaderOk(s, c.irec)
    ensures Read(s, c, n) == Read(s, Cursor(c.irec, HeaderSize), n)
  {
  }

  /** Read entering a record: the header is checked, then the read starts
      right after it. */
  lemma ReadEnter(s: seq<Byte>, c: Cursor, n: nat)
    requires Valid(c) && c.ioff == 0 && n > 0
    ensures Read(s, c, n)
         == if c.irec * RecordLen + HeaderSize > |s| then Err(Truncated(c.irec))
            else if HeaderRecNo(s, c.irec) != c.irec then Err(BlockMismatch(HeaderRecNo(s, c.irec), c.irec))
            else Read(s, Cursor(c.irec, HeaderSize), n)
  {
  }

  /** Read inside a record: one copy, then the rest from the advanced cursor. */
  lemma ReadCopyStep(s: seq<Byte>, c: Cursor, n: nat)
    requires Valid(c) && c.ioff != 0 && n > 0
    ensures var k := Take(c, n);
      var start := c.irec * RecordLen + c.ioff;
      Read(s, c, n) == if start + k > |s| then Err(Truncated(c.irec))
                       else Prepend(s[start..start + k], Read(s, Advance(c, k), n - k))
  {
  }

  /** Continue with a second read of `b` bytes after a first read result. */
  function Then(s: seq<Byte>, r: Result<Chunk, ReadError>, b: nat): Result<Chunk, ReadError>
    requires r.Ok? ==> Valid(r.value.next)
  {
    if r.Err? then r else Prepend(r.value.bytes, Read(s, r.value.next, b))
  }

  lemma PrependAssoc(x: seq<Byte>, y: seq<Byte>, r: Result<Chunk, ReadError>)
    ensures Prepend(x, Prepend(y, r)) == Prepend(x + y, r)
  {
    if r.Ok? {
      assert x + (y + r.value.bytes) == (x + y) + r.value.bytes;
    }
  }

  /** A read that stays inside the current record and finds its bytes. */
  lemma ReadShort(s: seq<Byte>, c: Cursor, a: nat)
    requires Valid(c) && c.ioff != 0 && 0 < a < RecordLen - c.ioff
    requires c.irec * RecordLen + c.ioff + a <= |s|
    ensures Read(s, c, a)
         == Ok(Chunk(s[c.irec * RecordLen + c.ioff..c.irec * RecordLen + c.ioff + a], Cursor(c.irec, c.ioff + a)))
  {
    var start := c.irec * RecordLen + c.ioff;
    var c1 := Cursor(c.irec, c.ioff + a);
    ReadCopyStep(s, c, a);
    assert Take(c, a) == a && Advance(c, a) == c1;
    assert Read(s, c1, 0) == Ok(Chunk([], c1));
    assert s[start..start + a] + [] == s[start..start + a];
  }

  /** A read whose first copy runs past the end of the product image. */
  lemma ReadTruncated(s: seq<Byte>, c: Cursor, n: nat)
    requires Valid(c) && c.ioff != 0 && n > 0
    requires c.irec * RecordLen + c.ioff + Take(c, n) > |s|
    ensures Read(s, c, n) == Err(Truncated(c.irec))
  {
    ReadCopyStep(s, c, n);
  }

  /** A read whose first copy is available. */
  lemma ReadCopied(s: seq<Byte>, c: Cursor, n: nat)
    requires Valid(c) && c.ioff != 0 && n > 0
    requires c.irec * RecordLen + c.ioff + Take(c, n) <= |s|
    ensures Read(s, c, n)
         == Prepend(s[c.irec * RecordLen + c.ioff..c.irec * RecordLen + c.ioff + Take(c, n)],
                    Read(s, Advance(c, Take(c, n)), n - Take(c, n)))
  {
    ReadCopyStep(s, c, n);
  }

  /** ReadConcatWithin when even the first read runs past the product image. */
  lemma WithinTruncated(s: seq<Byte>, c: Cursor, a: nat, b: nat)
    requires Valid(c) && c.ioff != 0 && 0 < a < RecordLen - c.ioff && b > 0
    requires c.irec * RecordLen + c.ioff + a > |s|
    ensures Read(s, c, a + b) == Then(s, Read(s, c, a), b)
  {
    ReadTruncated(s, c, a);
    ReadTruncated(s, c, a + b);
  }

  /** ReadConcatWithin when only the second read runs past the product image. */
  lemma WithinSecondTruncated(s: seq<Byte>, c: Cursor, a: nat, b: nat)
    requires Valid(c) && c.ioff != 0 && 0 < a < RecordLen - c.ioff && b > 0
    requires c.irec * RecordLen + c.ioff + a <= |s| < c.irec * RecordLen + c.ioff + Take(c, a + b)
    ensures Read(s, c, a + b) == Then(s, Read(s, c, a), b)
  {
    var c1 := Cursor(c.irec, c.ioff + a);
    assert Take(c1, b) == Take(c, a + b) - a;
    ReadShort(s, c, a);
    ReadTruncated(s, c1, b);
    ReadTruncated(s, c, a + b);
  }

  /** The second read of ReadConcatWithin: a copy up to the same point as
      the copy of the combined read, then the same rest. */
  lemma WithinSecondCopy(s: seq<Byte>, c: Cursor, a: nat, b: nat)
    requires Valid(c) && c.ioff != 0 && 0 < a < RecordLen - c.ioff && b > 0
    requires c.irec * RecordLen + c.ioff + Take(c, a + b) <= |s|
    ensures var start := c.irec * RecordLen + c.ioff;
      Read(s, Cursor(c.irec, c.ioff + a), b)
      == Prepend(s[start + a..start + Take(c, a + b)], Read(s, Advance(c, Take(c, a + b)), a + b - Take(c, a + b)))
  {
    var c1 := Cursor(c.irec, c.ioff + a);
    var k := Take(c, a + b);
    assert Take(c1, b) == k - a && Advance(c1, k - a) == Advance(c, k);
    ReadCopied(s, c1, b);
  }

  /** The combined read of ReadConcatWithin, its copy split at `a`. */
  lemma WithinWholeCopy(s: seq<Byte>, c: Cursor, a: nat, b: nat)
    requires Valid(c) && c.ioff != 0 && 0 < a < RecordLen - c.ioff && b > 0
    requires c.irec * RecordLen + c.ioff + Take(c, a + b) <= |s|
    ensures var start := c.irec * RecordLen + c.ioff;
      Read(s, c, a + b)
      == Prepend(s[start..start + a] + s[start + a..start + Take(c, a + b)],
                 Read(s, Advance(c, Take(c, a + b)), a + b - Take(c, a + b)))
  {
    var start := c.irec * RecordLen + c.ioff;
    var k := Take(c, a + b);
    ReadCopied(s, c, a + b);
    assert s[start..start + k] == s[start..start + a] + s[start + a..start + k];
  }

  /** ReadConcatWithin when the copies of both reads are available. */
  lemma WithinCopied(s: seq<Byte>, c: Cursor, a: nat, b: nat)
    requires Valid(c) && c.ioff != 0 && 0 < a < RecordLen - c.ioff && b > 0
    requires c.irec * RecordLen + c.ioff + Take(c, a + b) <= |s|
    ensures Read(s, c, a + b) == Then(s, Read(s, c, a), b)
  {
    var start := c.irec * RecordLen + c.ioff;
    var k := Take(c, a + b);
    ReadShort(s, c, a);
    WithinSecondCopy(s, c, a, b);
    WithinWholeCopy(s, c, a, b);
    PrependAssoc(s[start..start + a], s[start + a..start + k], Read(s, Advance(c, k), a + b - k));
  }

  /** ReadConcat when the first read ends inside the current record. */
  lemma ReadConcatWithin(s: seq<Byte>, c: Cursor, a: nat, b: nat)
    requires Valid(c) && c.ioff != 0 && 0 < a < RecordLen - c.ioff && b > 0
    ensures Read(s, c, a + b) == Then(s, Read(s, c, a), b)
  {
    var start := c.irec * RecordLen + c.ioff;
    if start + a > |s| {
      WithinTruncated(s, c, a, b);
    } else if start + Take(c, a + b) > |s| {
      WithinSecondTruncated(s, c, a, b);
    } else {
      WithinCopied(s, c, a, b);
    }
  }

  /** Bytes copied before a read stay in front when a second read follows. */
  lemma ThenPrepend(s: seq<Byte>, x: seq<Byte>, r: Result<Chunk, ReadError>, b: nat)
    requires r.Ok? ==> Valid(r.value.next)
    ensures Then(s, Prepend(x, r), b) == Prepend(x, Then(s, r, b))
  {
    if r.Ok? {
      PrependAssoc(x, r.value.bytes, Read(s, r.value.next, b));
    }
  }

  /** A read that reaches the end of the current record copies all that is
      left of it, then reads on from the next record. */
  lemma ReadAcross(s: seq<Byte>, c: Cursor, n: nat)
    requires Valid(c) && c.ioff != 0 && n >= RecordLen - c.ioff
    ensures var room := RecordLen - c.ioff;
      var start := c.irec * RecordLen + c.ioff;
      Read(s, c, n) == if start + room > |s| then Err(Truncated(c.irec))
                       else Prepend(s[start..start + room], Read(s, Advance(c, room), n - room))
  {
    ReadCopyStep(s, c, n);
  }

  /** ReadConcat when the first read uses up the current record. */
  lemma ReadConcatAcross(s: seq<Byte>, c: Cursor, a: nat, b: nat)
    requires Valid(c) && c.ioff != 0 && a >= RecordLen - c.ioff
    requires Read(s, Advance(c, RecordLen - c.ioff), a + b - (RecordLen - c.ioff))
          == Then(s, Read(s, Advance(c, RecordLen - c.ioff), a - (RecordLen - c.ioff)), b)
    ensures Read(s, c, a + b) == Then(s, Read(s, c, a), b)
  {
    var room := RecordLen - c.ioff;
    var start := c.irec * RecordLen + c.ioff;
    ReadAcross(s, c, a);
    ReadAcross(s, c, a + b);
    if start + room <= |s| {
      ThenPrepend(s, s[start..start + room], Read(s, Advance(c, room), a - room), b);
    }
  }

  /** ReadConcat when one of the two reads is empty. */
  lemma ReadConcatEmpty(s: seq<Byte>, c: Cursor, a: nat, b: nat)
    requires Valid(c) && (a == 0 || b == 0)
    ensures Read(s, c, a + b) == Then(s, Read(s, c, a), b)
  {
    if a == 0 {
      assert Read(s, c, a) == Ok(Chunk([], c));
      var r := Read(s, c, b);
      if r.Ok? {
        assert [] + r.value.bytes == r.value.bytes;
      }
    } else {
      var r := Read(s, c, a);
      if r.Ok? {
        assert Read(s, r.value.next, 0) == Ok(Chunk([], r.value.next));
        assert r.value.bytes + [] == r.value.bytes;
      }
    }
  }

  /** ReadConcat at a record whose header is missing or wrong: both fail alike. */
  lemma ReadConcatBadHeader(s: seq<Byte>, c: Cursor, a: nat, b: nat)
    requires Valid(c) && c.ioff == 0 && a > 0 && b > 0 && !HeaderOk(s, c.irec)
    ensures Read(s, c, a + b) == Then(s, Read(s, c, a), b)
  {
    ReadEnter(s, c, a);
    ReadEnter(s, c, a + b);
  }

  /** Two successive reads deliver exactly what one read of the combined length
      delivers, fail exactly when it fails, and leave the same cursor: block
      boundaries never skip or repeat a byte. */
  lemma {:induction false} ReadConcat(s: seq<Byte>, c: Cursor, a: nat, b: nat)
    requires Valid(c)
    ensures Read(s, c, a + b) == Then(s, Read(s, c, a), b)
    decreases a, if c.ioff == 0 then 1 else 0
  {
    if a == 0 || b == 0 {
      ReadConcatEmpty(s, c, a, b);
    } else if c.ioff == 0 {
      if HeaderOk(s, c.irec) {
        ReadHeaderStep(s, c, a);
        ReadHeaderStep(s, c, a + b);
        ReadConcat(s, Cursor(c.irec, HeaderSize), a, b);
      } else {
        ReadConcatBadHeader(s, c, a, b);
      }
    } else if a < RecordLen - c.ioff {
      ReadConcatWithin(s, c, a, b);
    } else {
      var room := RecordLen - c.ioff;
      ReadConcat(s, Advance(c, room), a - room, b);
      assert a + b - room == (a - room) + b;
      ReadConcatAcross(s, c, a, b);
    }
  }

  lemma DivModOfBody(q: int, m: int)
    requires 0 <= q && 0 <= m < BodyLen
    ensures (q * BodyLen + m) / BodyLen == q
    ensures (q * BodyLen + m) % BodyLen == m
  {
    var p := q * BodyLen + m;
    var d := p / BodyLen;
    var e := p % BodyLen;
    assert d * BodyLen + e == p;
    assert (d - q) * BodyLen == m - e;
  }

  /** Inside a record, payload and product positions advance together. */
  lemma PhysWithin(c: Cursor, i: nat)
    requires Valid(c) && c.ioff != 0 && c.ioff + i < RecordLen
    ensures PhysOf(PayloadIndex(c) + i) == c.irec * RecordLen + c.ioff + i
  {
    DivModOfBody(c.irec, c.ioff - HeaderSize + i);
  }

  /** A successful read at a record header reads on right after it. */
  lemma ReadEnterOk(s: seq<Byte>, c: Cursor, n: nat)
    requires Valid(c) && c.ioff == 0 && n > 0 && Read(s, c, n).Ok?
    ensures Read(s, Cursor(c.irec, HeaderSize), n) == Read(s, c, n)
    ensures PayloadIndex(Cursor(c.irec, HeaderSize)) == PayloadIndex(c)
  {
    ReadEnter(s, c, n);
  }

  /** A successful read inside a record: its first copy, then a successful
      rest. */
  lemma ReadCopyOk(s: seq<Byte>, c: Cursor, n: nat)
    requires Valid(c) && c.ioff != 0 && n > 0 && Read(s, c, n).Ok?
    ensures c.irec * RecordLen + c.ioff + Take(c, n) <= |s|
    ensures Read(s, Advance(c, Take(c, n)), n - Take(c, n)).Ok?
    ensures Read(s, c, n).value.bytes
         == s[c.irec * RecordLen + c.ioff..c.irec * RecordLen + c.ioff + Take(c, n)]
            + Read(s, Advance(c, Take(c, n)), n - Take(c, n)).value.bytes
    ensures PayloadIndex(Advance(c, Take(c, n))) == PayloadIndex(c) + Take(c, n)
  {
    ReadCopyStep(s, c, n);
  }

  /** Byte `i` of a successful read is payload byte PayloadIndex(c) + i of the
      product, that is the product byte at PhysOf(PayloadIndex(c) + i). */
  lemma {:induction false} ReadByte(s: seq<Byte>, c: Cursor, n: nat, i: nat)
    requires Valid(c) && Read(s, c, n).Ok? && i < n
    ensures PhysOf(PayloadIndex(c) + i) < |s| && Read(s, c, n).value.bytes[i] == s[PhysOf(PayloadIndex(c) + i)]
    decreases n, if c.ioff == 0 then 1 else 0
  {
    if c.ioff == 0 {
      ReadEnterOk(s, c, n);
      ReadByte(s, Cursor(c.irec, HeaderSize), n, i);
    } else if i < Take(c, n) {
      ReadByteFirstCopy(s, c, n, i);
    } else {
      var k := Take(c, n);
      ReadCopyOk(s, c, n);
      ReadByte(s, Advance(c, k), n - k, i - k);
    }
  }

  /** ReadByte for a byte of the read's first copy. */
  lemma ReadByteFirstCopy(s: seq<Byte>, c: Cursor, n: nat, i: nat)
    requires Valid(c) && c.ioff != 0 && Read(s, c, n).Ok? && i < Take(c, n) && i < n
    ensures PhysOf(PayloadIndex(c) + i) < |s| && Read(s, c, n).value.bytes[i] == s[PhysOf(PayloadIndex(c) + i)]
  {
    ReadCopyOk(s, c, n);
    PhysWithin(c, i);
  }

  /** Record `r` has its header read by a read of `n` bytes at `c`: the read is
      not empty, `r` is not the record the cursor is already inside, and the
      first payload byte of `r` is among the bytes requested. */
  predicate Entered(c: Cursor, n: nat, r: int) {
    && n > 0
    && (if c.ioff == 0 then c.irec else c.irec + 1) <= r
    && r * BodyLen < PayloadIndex(c) + n
  }

  lemma PhysOfMonotone(p1: nat, p2: nat)
    requires p1 <= p2
    ensures PhysOf(p1) <= PhysOf(p2)
  {
    var q1, q2 := p1 / BodyLen, p2 / BodyLen;
    assert q1 <= q2;
    if q1 < q2 {
      assert (q1 + 1) * RecordLen <= q2 * RecordLen;
    }
  }

  /** Every record whose header a read of `n` bytes at `c` checks has the
      right record number. */
  ghost predicate EnteredOk(s: seq<Byte>, c: Cursor, n: nat) {
    forall r :: Entered(c, n, r) ==> HeaderOk(s, r)
  }

  /** The header-checking behaviour of a read: it fails with a block mismatch
      only at an entered record whose header number is wrong, and it succeeds
      exactly when every entered record has the right header and the product
      holds the last requested byte. */
  ghost predicate ChecksHeaders(s: seq<Byte>, c: Cursor, n: nat)
    requires Valid(c)
  {
    var r := Read(s, c, n);
    && (r.Ok? ==> EnteredOk(s, c, n))
    && (r.Err? && r.error.BlockMismatch? ==>
          && Entered(c, n, r.error.expected)
          && 0 <= r.error.expected && r.error.expected * RecordLen + HeaderSize <= |s|
          && HeaderRecNo(s, r.error.expected) == r.error.found != r.error.expected)
    && ((EnteredOk(s, c, n) && (n > 0 ==> PhysOf(PayloadIndex(c) + n - 1) < |s|)) ==> r.Ok?)
  }

  /** Entering a record: the records entered after the header are the ones
      entered before it, less the record itself. */
  lemma ChecksHeadersEnter(s: seq<Byte>, c: Cursor, n: nat)
    requires Valid(c) && c.ioff == 0 && n > 0
    requires ChecksHeaders(s, Cursor(c.irec, HeaderSize), n)
    ensures ChecksHeaders(s, c, n)
  {
    var c1 := Cursor(c.irec, HeaderSize);
    ReadEnter(s, c, n);
    assert PayloadIndex(c1) == PayloadIndex(c);
    assert Entered(c, n, c.irec);
    forall r | Entered(c1, n, r) ensures Entered(c, n, r) { }
    if EnteredOk(s, c, n) {
      assert HeaderOk(s, c.irec);
      assert Read(s, c, n) == Read(s, c1, n);
    }
    if Read(s, c, n).Ok? {
      assert Read(s, c, n) == Read(s, c1, n);
      forall r | Entered(c, n, r) ensures HeaderOk(s, r) {
        if r != c.irec { assert Entered(c1, n, r); }
      }
    }
  }

  /** Copying inside a record enters no record: the rest of the read enters
      exactly the records the whole read enters. */
  lemma EnteredAfterCopy(s: seq<Byte>, c: Cursor, n: nat)
    requires Valid(c) && c.ioff != 0 && n > 0
    ensures EnteredOk(s, Advance(c, Take(c, n)), n - Take(c, n)) == EnteredOk(s, c, n)
  {
    var k := Take(c, n);
    var next := Advance(c, k);
    assert PayloadIndex(next) == PayloadIndex(c) + k;
    forall r | Entered(next, n - k, r) ensures Entered(c, n, r) { }
    forall r | Entered(c, n, r) ensures Entered(next, n - k, r) {
      assert r * BodyLen >= (c.irec + 1) * BodyLen;
      assert next.ioff == 0;
    }
  }

  /** The last byte of the whole read lies at or past the last byte of its
      first copy, and it is the last byte of the rest when there is a rest. */
  lemma LastByteAfterCopy(c: Cursor, n: nat)
    requires Valid(c) && c.ioff != 0 && n > 0
    ensures var k := Take(c, n);
      && c.irec * RecordLen + c.ioff + k - 1 <= PhysOf(PayloadIndex(c) + n - 1)
      && (n - k > 0 ==> PayloadIndex(Advance(c, k)) + (n - k) - 1 == PayloadIndex(c) + n - 1)
  {
    var k := Take(c, n);
    var p := PayloadIndex(c);
    DivModOfBody(c.irec, c.ioff - HeaderSize + k - 1);
    assert PhysOf(p + k - 1) == c.irec * RecordLen + c.ioff + k - 1;
    PhysOfMonotone(p + k - 1, p + n - 1);
  }

  /** ChecksHeaders over a copy inside a record: the copy itself checks no
      header and fails only when the image is too short. */
  lemma ChecksHeadersCopy(s: seq<Byte>, c: Cursor, n: nat)
    requires Valid(c) && c.ioff != 0 && n > 0
    requires ChecksHeaders(s, Advance(c, Take(c, n)), n - Take(c, n))
    ensures ChecksHeaders(s, c, n)
  {
    var k := Take(c, n);
    var next := Advance(c, k);
    EnteredAfterCopy(s, c, n);
    LastByteAfterCopy(c, n);
    if c.irec * RecordLen + c.ioff + k <= |s| {
      ReadCopied(s, c, n);
    } else {
      ReadTruncated(s, c, n);
    }
  }

  /** Every read checks its headers as ChecksHeaders describes. */
  lemma {:induction false} ReadChecksHeaders(s: seq<Byte>, c: Cursor, n: nat)
    requires Valid(c)
    ensures ChecksHeaders(s, c, n)
    decreases n, if c.ioff == 0 then 1 else 0
  {
    if n == 0 {
      assert Read(s, c, n) == Ok(Chunk([], c));
    } else if c.ioff == 0 {
      ReadChecksHeaders(s, Cursor(c.irec, HeaderSize), n);
      ChecksHeadersEnter(s, c, n);
    } else {
      ReadChecksHeaders(s, Advance(c, Take(c, n)), n - Take(c, n));
      ChecksHeadersCopy(s, c, n);
    }
  }

  /** End of a scan: the rest of a partly read record is discarded and the
      cursor moves to the start of the next record. */
  function EndScan(c: Cursor): (r: Cursor)
    requires Valid(c)
    ensures Valid(r) && r.ioff == 0
    ensures r.irec == (if c.ioff == 0 then c.irec else c.irec + 1)
    ensures PayloadIndex(r) - PayloadIndex(c) == (if c.ioff == 0 then 0 else RecordLen - c.ioff)
  {
    if c.ioff != 0 then Cursor(c.irec + 1, 0) else c
  }

  /** The raw ingest data headers read at the start of a scan, in file order. */
  datatype Headers = Headers(raw: seq<seq<Byte>>, next: Cursor)

  /** `count` successive reads of one ingest data header each. */
  function ReadHeaders(s: seq<Byte>, c: Cursor, count: nat): (r: Result<Headers, ReadError>)
    requires Valid(c)
    ensures r.Ok? ==> |r.value.raw| == count && Valid(r.value.next)
    ensures r.Ok? ==> forall j :: 0 <= j < count ==> |r.value.raw[j]| == IngestHeaderSize
    decreases count
  {
    if count == 0 then Ok(Headers([], c))
    else
      var h :- Read(s, c, IngestHeaderSize);
      var rest :- ReadHeaders(s, h.next, count - 1);
      Ok(Headers([h.bytes] + rest.raw, rest.next))
  }

  /** The headers a read of `count` headers delivers are the consecutive
      76-byte pieces of one chunk of bytes. */
  ghost predicate Pieces(r: Result<Headers, ReadError>, all: Result<Chunk, ReadError>, count: nat)
  {
    && (r.Ok? <==> all.Ok?)
    && (r.Ok? ==>
        && r.value.next == all.value.next
        && |r.value.raw| == count
        && |all.value.bytes| == count * IngestHeaderSize
        && forall j :: 0 <= j < count ==>
             r.value.raw[j] == all.value.bytes[j * IngestHeaderSize..(j + 1) * IngestHeaderSize])
  }

  lemma PiecesCons(h: Chunk, r: Result<Headers, ReadError>, rest: Result<Chunk, ReadError>, count: nat)
    requires |h.bytes| == IngestHeaderSize && count > 0
    requires Pieces(r, rest, count - 1)
    ensures Pieces(if r.Err? then Err(r.error) else Ok(Headers([h.bytes] + r.value.raw, r.value.next)),
                   Prepend(h.bytes, rest), count)
  {
    if r.Ok? {
      var raw := [h.bytes] + r.value.raw;
      var bytes := h.bytes + rest.value.bytes;
      forall j | 0 <= j < count
        ensures raw[j] == bytes[j * IngestHeaderSize..(j + 1) * IngestHeaderSize]
      {
        if j == 0 {
          assert bytes[0..IngestHeaderSize] == h.bytes;
        } else {
          assert raw[j] == r.value.raw[j - 1];
          assert j * IngestHeaderSize == IngestHeaderSize + (j - 1) * IngestHeaderSize;
          assert bytes[j * IngestHeaderSize..(j + 1) * IngestHeaderSize]
              == rest.value.bytes[(j - 1) * IngestHeaderSize..j * IngestHeaderSize];
        }
      }
    }
  }

  /** Header j of the loop is bytes [76 j, 76 (j + 1)) of one read of all the
      headers; the loop fails exactly when that read fails. */
  lemma {:induction false} ReadHeadersSpec(s: seq<Byte>, c: Cursor, count: nat)
    requires Valid(c)
    ensures Pieces(ReadHeaders(s, c, count), Read(s, c, count * IngestHeaderSize), count)
    decreases count
  {
    if count == 0 {
      assert Read(s, c, 0) == Ok(Chunk([], c));
    } else {
      var m := (count - 1) * IngestHeaderSize;
      assert count * IngestHeaderSize == IngestHeaderSize + m;
      ReadConcat(s, c, IngestHeaderSize, m);
      var h := Read(s, c, IngestHeaderSize);
      if h.Ok? {
        ReadHeadersSpec(s, h.value.next, count - 1);
        PiecesCons(h.value, ReadHeaders(s, h.value.next, count - 1), Read(s, h.value.next, m), count);
      }
    }
  }

  /** Slot written by iteration `iQ` of the ingest header loop: with an extended
      header present, iteration 0 and iteration 1 both write slot 0. */
  function SlotOf(iQ: nat, xhdr: bool): int {
    if iQ == 0 then 0 else iQ - (if xhdr then 1 else 0)
  }

  /** The slot writes of the loop, from iteration j on, in order. */
  function StoreFrom(raw: seq<seq<Byte>>, j: nat, xhdr: bool, m: map<int, seq<Byte>>): map<int, seq<Byte>>
    requires j <= |raw|
    decreases |raw| - j
  {
    if j == |raw| then m else StoreFrom(raw, j + 1, xhdr, m[SlotOf(j, xhdr) := raw[j]])
  }

  /** Once the first iteration is past, iteration i writes slot i - x, x being
      1 when the extended header came first: later writes never collide. */
  lemma {:induction false} StoreFromLater(raw: seq<seq<Byte>>, j: nat, xhdr: bool, m: map<int, seq<Byte>>)
    requires 1 <= j <= |raw|
    ensures var x := if xhdr then 1 else 0;
      var out := StoreFrom(raw, j, xhdr, m);
      forall k :: k in out <==> (k in m || j - x <= k < |raw| - x)
    ensures var x := if xhdr then 1 else 0;
      var out := StoreFrom(raw, j, xhdr, m);
      forall k :: k in out ==> out[k] == if j - x <= k < |raw| - x then raw[k + x] else m[k]
    decreases |raw| - j
  {
    if j < |raw| {
      var x := if xhdr then 1 else 0;
      var m' := m[j - x := raw[j]];
      assert SlotOf(j, xhdr) == j - x;
      assert StoreFrom(raw, j, xhdr, m) == StoreFrom(raw, j + 1, xhdr, m');
      StoreFromLater(raw, j + 1, xhdr, m');
      var out := StoreFrom(raw, j, xhdr, m);
      forall k | k in out
        ensures out[k] == if j - x <= k < |raw| - x then raw[k + x] else m[k]
      {
        if k == j - x { assert k + x == j; }
      }
    }
  }

  /** The slots after the whole ingest header loop. */
  function Store(raw: seq<seq<Byte>>, xhdr: bool): map<int, seq<Byte>> {
    StoreFrom(raw, 0, xhdr, map[])
  }

  /** After the loop, slot t holds header t + 1 of the run when the extended
      header came first and header t otherwise; the extended header itself
      survives in slot 0 only when no quantity follows it. */
  lemma StoreSpec(raw: seq<seq<Byte>>, xhdr: bool)
    ensures var x := if xhdr then 1 else 0;
      && (forall t :: 0 <= t < |raw| - x ==> t in Store(raw, xhdr) && Store(raw, xhdr)[t] == raw[t + x])
      && (forall t :: t in Store(raw, xhdr) ==> 0 <= t < |raw| - x || (t == 0 && |raw| > 0))
  {
    if |raw| > 0 {
      assert Store(raw, xhdr) == StoreFrom(raw, 1, xhdr, map[0 := raw[0]]);
      StoreFromLater(raw, 1, xhdr, map[0 := raw[0]]);
    }
  }

  /** One slot of StoreSpec. */
  lemma StoreSlot(raw: seq<seq<Byte>>, xhdr: bool, t: int)
    requires 0 <= t < |raw| - (if xhdr then 1 else 0)
    ensures t in Store(raw, xhdr) && Store(raw, xhdr)[t] == raw[t + (if xhdr then 1 else 0)]
  {
    StoreSpec(raw, xhdr);
  }

  /** Header slots filled by the per-scan ingest header loop. */
  datatype IngestHeaders = IngestHeaders(slots: map<int, seq<Byte>>, next: Cursor)

  /** The loop at the start of every scan: one ingest data header per recorded
      quantity, plus one for the extended header when it is present. A failing
      read ends the decoding, so only complete runs are stored. */
  function ReadIngestHeaders(s: seq<Byte>, c: Cursor, quantities: nat, xhdr: bool): Result<IngestHeaders, ReadError>
    requires Valid(c)
  {
    var h :- ReadHeaders(s, c, quantities + (if xhdr then 1 else 0));
    Ok(IngestHeaders(Store(h.raw, xhdr), h.next))
  }

  /** Slot t holds the ingest header of quantity t, that is bytes
      [76 (t + x), 76 (t + x + 1)) of one read of the whole run, x being 1 when
      the extended header came first; the loop reads exactly that run. */
  lemma IngestHeadersSpec(s: seq<Byte>, c: Cursor, quantities: nat, xhdr: bool)
    requires Valid(c)
    ensures var x := if xhdr then 1 else 0;
      var res := ReadIngestHeaders(s, c, quantities, xhdr);
      var all := Read(s, c, (quantities + x) * IngestHeaderSize);
      && (res.Ok? <==> all.Ok?)
      && (res.Ok? ==>
          && res.value.next == all.value.next
          && forall t :: 0 <= t < quantities ==>
               t in res.value.slots
               && res.value.slots[t] == all.value.bytes[(t + x) * IngestHeaderSize..(t + x + 1) * IngestHeaderSize])
  {
    var x := if xhdr then 1 else 0;
    var n := quantities + x;
    ReadHeadersSpec(s, c, n);
    var h := ReadHeaders(s, c, n);
    var all := Read(s, c, n * IngestHeaderSize);
    if h.Ok? {
      var slots := Store(h.value.raw, xhdr);
      assert ReadIngestHeaders(s, c, quantities, xhdr) == Ok(IngestHeaders(slots, h.value.next));
      forall t | 0 <= t < quantities
        ensures t in slots
        ensures slots[t] == all.value.bytes[(t + x) * IngestHeaderSize..(t + x + 1) * IngestHeaderSize]
      {
        StoreSlot(h.value.raw, xhdr, t);
      }
    }
  }
}

=== FILE: requantize.dfy ===
/**
  The encoder's per-quantity work: choosing how a decoded quantity is written
  (as it is, narrowed from 2 bytes to 1, or widened from 1 byte to 2), the
  gain and offset of the conversion, and the per-sample conversion loops.

  Gains and offsets are reals; the 1-byte VRADH and WRADH codes are stored in
  units of the Nyquist velocity and Nyquist width, which arrive as the
  parameters `ni` and `nw`.
*/
module Requantize {
  import opened Wrappers
  import opened Quantities
  import opened Wanted
  import ScanAssembly

  // ---------------------------------------------------------------------
  // Encode selection

  /** How a quantity is written: mode 1 as it is, mode 8 narrowed, mode 16
      widened; `wanted` is the quantity written and `outbytes` its width. */
  datatype Encoding = Encoding(mode: int, wanted: int, outbytes: int)

  /** The quantities that have no linear 1-byte form: a 1-byte request for
      one of them against its 2-byte source is turned into the 2-byte
      request. */
  function Forced(w: int, a: int): int {
    if (w == SQIH && a == Wide(SQIH)) || (w == PMI && a == Wide(PMI))
       || (w == CCOR && a == Wide(CCOR)) || (w == RHOHV && a == Wide(RHOHV))
    then w + TWOB
    else w
  }

  /** The three encodings of available code `a`. */
  predicate Shaped(e: Encoding, a: int, binbytes: int) {
    || (e.mode == 1 && e.wanted == a && e.outbytes == binbytes)
    || (e.mode == 8 && e.wanted == a - TWOB && e.outbytes == 1)
    || (e.mode == 16 && e.wanted == a + TWOB && e.outbytes == 2)
  }

  /** One pass of the selection loop: wanted code `w` against available code
      `a`, whose samples are `binbytes` wide. */
  function Try(w: int, a: int, binbytes: int): (r: Option<Encoding>)
    ensures r.Some? ==> Shaped(r.value, a, binbytes)
  {
    var q := Forced(w, a);
    if a == q then Some(Encoding(1, q, binbytes))
    else if q == a - TWOB then Some(Encoding(8, q, 1))
    else if q == a + TWOB then Some(Encoding(16, q, 2))
    else None
  }

  /** A wanted code selects an encoding exactly when it pairs with the
      available code, the forced rewrite included. */
  lemma TryPairs(w: int, a: int, binbytes: int)
    ensures Try(w, a, binbytes).Some? <==> Pairs(w, a)
  {
  }

  /** The forced rewrite: a 1-byte request for SQIH, PMI, CCOR or RHOHV
      against its 2-byte source writes the 2-byte source as it is, and no
      narrowing ever produces one of those four. */
  lemma ForcedWide(w: int, a: int, binbytes: int)
    ensures w in {SQIH, PMI, CCOR, RHOHV} && a == Wide(w) ==> Try(w, a, binbytes) == Some(Encoding(1, a, binbytes))
    ensures Try(w, a, binbytes).Some? && Try(w, a, binbytes).value.mode == 8
            ==> Try(w, a, binbytes).value.wanted !in {SQIH, PMI, CCOR, RHOHV}
  {
  }

  /** The loop over the wanted row from slot i: stop at the terminator 0; a
      negative code wants the available quantity itself and ends the loop;
      any other code is tried in turn. */
  function SelectFrom(row: seq<int>, a: int, binbytes: int, i: nat): (r: Option<Encoding>)
    requires i <= |row|
    ensures r.Some? ==> Shaped(r.value, a, binbytes)
    decreases |row| - i
  {
    if i == |row| then None
    else if row[i] == 0 then None
    else if row[i] < 0 then Try(a, a, binbytes)
    else if Try(row[i], a, binbytes).Some? then Try(row[i], a, binbytes)
    else SelectFrom(row, a, binbytes, i + 1)
  }

  /** The encoding of available quantity `a`: with ALL_QUANTS set the
      quantity is written as it is, otherwise the wanted row is searched. */
  function Select(all: bool, row: seq<int>, a: int, binbytes: int): (r: Option<Encoding>)
    ensures r.Some? ==> Shaped(r.value, a, binbytes)
  {
    if all then (if a == 0 then None else Try(a, a, binbytes))
    else SelectFrom(row, a, binbytes, 0)
  }

  /** The code a slot asks for: a negative code asks for `a` itself. */
  function Asked(v: int, a: int): int {
    if v < 0 then a else v
  }

  lemma {:induction false} SelectFromSpec(row: seq<int>, a: int, binbytes: int, i: nat)
    requires i <= |row|
    requires forall j :: 0 <= j < i ==> row[j] > 0 && Try(row[j], a, binbytes).None?
    ensures var r := SelectFrom(row, a, binbytes, i);
      && (r.Some? ==> exists k | i <= k < |row| ::
            && Live(row, k) && row[k] != 0 && r == Try(Asked(row[k], a), a, binbytes)
            && forall j :: 0 <= j < k ==> row[j] > 0 && Try(row[j], a, binbytes).None?)
      && (r.None? ==> forall k :: 0 <= k < |row| && Live(row, k) && row[k] != 0 ==>
            (row[k] > 0 && Try(row[k], a, binbytes).None?))
    decreases |row| - i
  {
    if i < |row| {
      assert Live(row, i);
      if row[i] > 0 && Try(row[i], a, binbytes).None? {
        SelectFromSpec(row, a, binbytes, i + 1);
      } else if row[i] == 0 {
        forall k | 0 <= k < |row| && Live(row, k) && row[k] != 0
          ensures row[k] > 0 && Try(row[k], a, binbytes).None?
        {
          if k > i { assert false; }
        }
      }
    }
  }

  /** The selection is the first slot, before the terminator, that is
      negative or pairs with the available code; when there is none the
      quantity is skipped. */
  lemma SelectSpec(row: seq<int>, a: int, binbytes: int)
    ensures var r := Select(false, row, a, binbytes);
      && (r.Some? ==> exists k | 0 <= k < |row| ::
            && Live(row, k) && row[k] != 0 && r == Try(Asked(row[k], a), a, binbytes)
            && (row[k] < 0 || Pairs(row[k], a))
            && forall j :: 0 <= j < k ==> row[j] > 0 && !Pairs(row[j], a))
      && (r.None? ==> forall k :: 0 <= k < |row| && Live(row, k) && row[k] != 0 ==>
            (row[k] > 0 && !Pairs(row[k], a)))
  {
    SelectFromSpec(row, a, binbytes, 0);
    forall w | true ensures Try(w, a, binbytes).Some? <==> Pairs(w, a) {
      TryPairs(w, a, binbytes);
    }
  }

  /** A quantity the encoder writes belongs to a scan the acceptance test
      lets through, provided its code appears in the scan's quantity list
      before the terminator. */
  lemma SelectedScanAccepted(row: seq<int>, avail: seq<int>, k: int, binbytes: int)
    requires Live(avail, k) && avail[k] != 0
    requires Select(false, row, avail[k], binbytes).Some?
    ensures AcceptCount(row, avail, 0) > 0
  {
    var a := avail[k];
    SelectSpec(row, a, binbytes);
    var i :| 0 <= i < |row| && Live(row, i) && row[i] != 0 && (row[i] < 0 || Pairs(row[i], a));
    AcceptedIff(row, avail);
    assert row[i] >= 0 ==> Live(avail, k) && Pairs(row[i], avail[k]);
  }

  // ---------------------------------------------------------------------
  // Gain and offset

  /** A linear scale: value = gain * code + offset. */
  datatype Scale = Scale(gain: real, offset: real)

  /** The value code `x` stands for under scale `s`. */
  function Value(s: Scale, x: real): real {
    s.gain * x + s.offset
  }

  /** The conversion from source codes to target codes and the scale
      written for the target. */
  datatype Conversion = Conversion(conv: Scale, written: Scale)

  /** eps of the encoder, added to the conversion offset. */
  const Eps: real := 0.000001

  /** `s` multiplied by `m`. */
  function Times(s: Scale, m: real): Scale {
    Scale(s.gain * m, s.offset * m)
  }

  /** `s` divided by `m`. */
  function Over(s: Scale, m: real): Scale
    requires m != 0.0
  {
    Scale(s.gain / m, s.offset / m)
  }

  /** The catalog scale of quantity `q`. */
  function CatalogScale(q: int): Scale {
    Scale(Entry(q).gain, Entry(q).offset)
  }

  /** The factor that turns quantity `q`'s catalog scale into m/s: the 1-byte
      VRADH and WRADH codes are fractions of the Nyquist velocity and
      width. */
  function Nyquist(q: int, ni: real, nw: real): real {
    if q == VRADH then ni else if q == WRADH then nw else 1.0
  }

  /** The scale quantity `q` carries in the output file when written as it
      is: the catalog scale times the Nyquist factor. */
  function FileScale(q: int, ni: real, nw: real): Scale {
    Times(CatalogScale(q), Nyquist(q, ni, nw))
  }

  /** The scale written in mode 1: the catalog scale of the quantity, times
      the Nyquist factor for 1-byte VRADH and WRADH data. */
  function PassScale(a: int, binbytes: int, ni: real, nw: real): (s: Scale)
    ensures binbytes == 1 ==> s == FileScale(a, ni, nw)
    ensures binbytes != 1 ==> s == CatalogScale(a)
  {
    if binbytes == 1 && a == VRADH then Times(CatalogScale(a), ni)
    else if binbytes == 1 && a == WRADH then Times(CatalogScale(a), nw)
    else
      assert binbytes == 1 ==> Nyquist(a, ni, nw) == 1.0;
      CatalogScale(a)
  }

  /** The conversion from codes of scale `src` to codes of scale `dst`, eps
      included. */
  function Between(src: Scale, dst: Scale): Scale
    requires dst.gain != 0.0
  {
    Scale(src.gain / dst.gain, Eps + (src.offset - dst.offset) / dst.gain)
  }

  /** The gain and offset computation of modes 8 and 16 as the encoder has
      it: the Nyquist velocity adjusts the source scale when VRADH is
      wanted, but the Nyquist width adjusts the target scale when WRADH is
      wanted. None stands for a division by zero, which the encoder does not
      guard against. */
  function ConvertAsWritten(a: int, w: int, ni: real, nw: real): Option<Conversion> {
    if (w == VRADH && ni == 0.0) || (w == WRADH && nw == 0.0) then None
    else
      var s := if w == Wide(VRADH) then Times(CatalogScale(a), ni)
               else if w == VRADH then Over(CatalogScale(a), ni)
               else CatalogScale(a);
      var d := if w == Wide(WRADH) then Times(CatalogScale(w), nw)
               else if w == WRADH then Over(CatalogScale(w), nw)
               else CatalogScale(w);
      if d.gain == 0.0 then None
      else Some(Conversion(Between(s, d), Times(d, Nyquist(w, ni, nw))))
  }

  /** The gain and offset computation with WRADH treated like VRADH: the
      Nyquist factor of the wanted quantity always adjusts the source
      scale, and the target's written scale is its file scale. */
  function Convert(a: int, w: int, ni: real, nw: real): Option<Conversion> {
    if (w == VRADH && ni == 0.0) || (w == WRADH && nw == 0.0) then None
    else
      var s := if w == Wide(VRADH) then Times(CatalogScale(a), ni)
               else if w == VRADH then Over(CatalogScale(a), ni)
               else if w == Wide(WRADH) then Times(CatalogScale(a), nw)
               else if w == WRADH then Over(CatalogScale(a), nw)
               else CatalogScale(a);
      var d := CatalogScale(w);
      if d.gain == 0.0 then None
      else Some(Conversion(Between(s, d), Times(d, Nyquist(w, ni, nw))))
  }

  /** The value a reader computes from a converted code, before rounding
      and without eps, through the scale written for it. */
  function ReadBack(cv: Conversion, x: real): real {
    Value(cv.written, Value(cv.conv, x) - Eps)
  }

  /** Reading a converted code through the target scale times `m` gives `m`
      times the value of the source code. */
  lemma BetweenReadBack(s: Scale, d: Scale, m: real, x: real)
    requires d.gain != 0.0
    ensures ReadBack(Conversion(Between(s, d), Times(d, m)), x) == m * Value(s, x)
  {
    var c := Between(s, d);
    var y := Value(c, x) - Eps;
    assert d.gain * c.gain == s.gain;
    assert d.gain * (c.offset - Eps) == s.offset - d.offset;
    assert d.gain * y == Value(s, x) - d.offset;
    calc {
      ReadBack(Conversion(c, Times(d, m)), x);
      (d.gain * m) * y + d.offset * m;
      m * (d.gain * y) + m * d.offset;
      m * Value(s, x);
    }
  }

  lemma OverValue(s: Scale, m: real, x: real)
    requires m != 0.0
    ensures m * Value(Over(s, m), x) == Value(s, x)
  {
    assert m * Over(s, m).gain == s.gain;
    assert m * Over(s, m).offset == s.offset;
  }

  lemma TimesValue(s: Scale, m: real, x: real)
    ensures Value(Times(s, m), x) == m * Value(s, x)
  {
  }

  lemma KeepsNarrowed(a: int, w: int, n: real, ni: real, nw: real, x: real)
    requires (w == VRADH && n == ni) || (w == WRADH && n == nw)
    requires a == w + TWOB || a == w - TWOB
    requires Convert(a, w, ni, nw).Some?
    ensures Convert(a, w, ni, nw).value.written == FileScale(w, ni, nw)
    ensures ReadBack(Convert(a, w, ni, nw).value, x) == Value(FileScale(a, ni, nw), x)
  {
    var c := CatalogScale(a);
    assert Convert(a, w, ni, nw).value == Conversion(Between(Over(c, n), CatalogScale(w)), Times(CatalogScale(w), n));
    BetweenReadBack(Over(c, n), CatalogScale(w), n, x);
    OverValue(c, n, x);
    assert FileScale(a, ni, nw) == Times(c, 1.0);
    TimesValue(c, 1.0, x);
  }

  lemma KeepsWidened(a: int, w: int, n: real, ni: real, nw: real, x: real)
    requires (w == Wide(VRADH) && n == ni) || (w == Wide(WRADH) && n == nw)
    requires a == w + TWOB || a == w - TWOB
    requires Convert(a, w, ni, nw).Some?
    ensures Convert(a, w, ni, nw).value.written == FileScale(w, ni, nw)
    ensures ReadBack(Convert(a, w, ni, nw).value, x) == Value(FileScale(a, ni, nw), x)
  {
    var c := CatalogScale(a);
    assert Convert(a, w, ni, nw).value == Conversion(Between(Times(c, n), CatalogScale(w)), Times(CatalogScale(w), 1.0));
    BetweenReadBack(Times(c, n), CatalogScale(w), 1.0, x);
    assert FileScale(a, ni, nw) == Times(c, n) by {
      if a == w + TWOB {
        assert c == Scale(0.0, 0.0);
      }
    }
  }

  lemma KeepsOther(a: int, w: int, ni: real, nw: real, x: real)
    requires w != VRADH && w != WRADH && w != Wide(VRADH) && w != Wide(WRADH)
    requires a == w + TWOB || a == w - TWOB
    requires Convert(a, w, ni, nw).Some?
    ensures Convert(a, w, ni, nw).value.written == FileScale(w, ni, nw)
    ensures ReadBack(Convert(a, w, ni, nw).value, x) == Value(FileScale(a, ni, nw), x)
  {
    var c := CatalogScale(a);
    assert Nyquist(a, ni, nw) == 1.0 by {
      assert Entry(VRADH - TWOB).gain == 0.0 && Entry(WRADH - TWOB).gain == 0.0;
    }
    assert Convert(a, w, ni, nw).value == Conversion(Between(c, CatalogScale(w)), Times(CatalogScale(w), 1.0));
    BetweenReadBack(c, CatalogScale(w), 1.0, x);
    TimesValue(c, 1.0, x);
  }

  /** The conversion keeps the meaning of every sample: a converted code,
      read through the scale written for it, gives the value the source
      code has through the source's own file scale; the written scale is
      the target's file scale. */
  lemma ConvertKeepsValue(a: int, w: int, ni: real, nw: real, x: real)
    requires w == a + TWOB || w == a - TWOB
    requires Convert(a, w, ni, nw).Some?
    ensures Convert(a, w, ni, nw).value.written == FileScale(w, ni, nw)
    ensures ReadBack(Convert(a, w, ni, nw).value, x) == Value(FileScale(a, ni, nw), x)
  {
    if w == VRADH {
      KeepsNarrowed(a, w, ni, ni, nw, x);
    } else if w == WRADH {
      KeepsNarrowed(a, w, nw, ni, nw, x);
    } else if w == Wide(VRADH) {
      KeepsWidened(a, w, ni, ni, nw, x);
    } else if w == Wide(WRADH) {
      KeepsWidened(a, w, nw, ni, nw, x);
    } else {
      KeepsOther(a, w, ni, nw, x);
    }
  }

  /** Away from WRADH the encoder's computation is the intended one. */
  lemma AsWrittenAgrees(a: int, w: int, ni: real, nw: real)
    requires w != WRADH && w != Wide(WRADH)
    ensures ConvertAsWritten(a, w, ni, nw) == Convert(a, w, ni, nw)
  {
  }

  lemma WidthScales()
    ensures CatalogScale(WRADH) == Scale(1.0 / 256.0, 0.0)
    ensures CatalogScale(Wide(WRADH)) == Scale(0.01, 0.0)
  {
  }

  /** The encoder's WRADH conversions are off by the Nyquist width: a
      widened code reads back as the true width divided by it, a narrowed
      code as the true width multiplied by it. */
  lemma WidthAsWritten(ni: real, nw: real, x: real)
    requires nw != 0.0
    ensures ConvertAsWritten(WRADH, Wide(WRADH), ni, nw).Some?
    ensures nw * ReadBack(ConvertAsWritten(WRADH, Wide(WRADH), ni, nw).value, x) == Value(FileScale(WRADH, ni, nw), x)
    ensures ConvertAsWritten(Wide(WRADH), WRADH, ni, nw).Some?
    ensures ReadBack(ConvertAsWritten(Wide(WRADH), WRADH, ni, nw).value, x) == nw * Value(FileScale(Wide(WRADH), ni, nw), x)
  {
    WidthScales();
    var c := CatalogScale(WRADH);
    var c2 := CatalogScale(Wide(WRADH));
    var up := Times(c2, nw);
    assert up.gain != 0.0;
    assert ConvertAsWritten(WRADH, Wide(WRADH), ni, nw) == Some(Conversion(Between(c, up), Times(up, 1.0)));
    BetweenReadBack(c, up, 1.0, x);
    TimesValue(c, nw, x);
    var down := Over(c, nw);
    assert down.gain != 0.0;
    assert ConvertAsWritten(Wide(WRADH), WRADH, ni, nw) == Some(Conversion(Between(c2, down), Times(down, nw)));
    BetweenReadBack(c2, down, nw, x);
    assert FileScale(Wide(WRADH), ni, nw) == Times(c2, 1.0);
    TimesValue(c2, 1.0, x);
  }

  lemma NonzeroProduct(a: real, b: real)
    requires a != 0.0 && b != 0.0
    ensures a * b != 0.0
  {
  }

  /** A value and its `n`-fold multiple differ unless `n` is 1 or the value
      is 0. */
  lemma FactorApart(r: real, t: real, n: real)
    requires n != 1.0 && t != 0.0
    requires n * r == t || r == n * t
    ensures r != t
  {
    if n * r == t {
      assert r != 0.0;
      NonzeroProduct(n - 1.0, r);
      assert (n - 1.0) * r == n * r - r;
    } else {
      NonzeroProduct(n - 1.0, t);
      assert (n - 1.0) * t == n * t - t;
    }
  }

  /** With a Nyquist width other than 1 m/s, every nonzero width the
      encoder converts between 1 and 2 bytes is read back wrong. */
  lemma WidthMismatch(ni: real, nw: real, x: real)
    requires nw != 0.0 && nw != 1.0
    ensures Value(FileScale(WRADH, ni, nw), x) != 0.0
            ==> ReadBack(ConvertAsWritten(WRADH, Wide(WRADH), ni, nw).value, x) != Value(FileScale(WRADH, ni, nw), x)
    ensures Value(FileScale(Wide(WRADH), ni, nw), x) != 0.0
            ==> ReadBack(ConvertAsWritten(Wide(WRADH), WRADH, ni, nw).value, x) != Value(FileScale(Wide(WRADH), ni, nw), x)
  {
    WidthAsWritten(ni, nw, x);
    var r1 := ReadBack(ConvertAsWritten(WRADH, Wide(WRADH), ni, nw).value, x);
    var t1 := Value(FileScale(WRADH, ni, nw), x);
    if t1 != 0.0 {
      FactorApart(r1, t1, nw);
    }
    var r2 := ReadBack(ConvertAsWritten(Wide(WRADH), WRADH, ni, nw).value, x);
    var t2 := Value(FileScale(Wide(WRADH), ni, nw), x);
    if t2 != 0.0 {
      FactorApart(r2, t2, nw);
    }
  }

  /** Widening 1-byte WRADH code 128 with a Nyquist width of 8 m/s: the code
      means 4 m/s, and the encoder's 2-byte code reads back as something
      else. */
  lemma WidthWideningExample()
    ensures Value(FileScale(WRADH, 1.0, 8.0), 128.0) == 4.0
    ensures ReadBack(ConvertAsWritten(WRADH, Wide(WRADH), 1.0, 8.0).value, 128.0) != 4.0
  {
    WidthScales();
    assert FileScale(WRADH, 1.0, 8.0) == Scale(1.0 / 32.0, 0.0);
    WidthMismatch(1.0, 8.0, 128.0);
  }

  // ---------------------------------------------------------------------
  // Sample conversion

  /** C's conversion of a double to an integer: truncation toward zero. */
  function Trunc(r: real): int {
    if r >= 0.0 then r.Floor else -((-r).Floor)
  }

  /** The clamp of the 2-to-1-byte loop: below 0 gives 0, above 254 gives
      254, anything else is truncated. */
  function Clamp(f: real): (b: Byte)
    ensures b <= 254
  {
    if f < 0.0 then 0 else if f > 254.0 then 254 else f.Floor
  }

  lemma ClampMonotone(f1: real, f2: real)
    requires f1 <= f2
    ensures Clamp(f1) <= Clamp(f2)
  {
    if 0.0 <= f1 && f2 <= 254.0 {
      assert f1.Floor as real <= f1 <= f2 < f2.Floor as real + 1.0;
    }
  }

  /** One sample of the 2-to-1-byte loop: the source nodata code gives the
      target nodata, then the source undetect code the target undetect;
      any other code is scaled, clamped to 0 .. 254 and truncated. The
      sentinels are cast to the sample widths as the encoder casts them. */
  function NarrowSample(w: Word, src: Cfg, dst: Cfg, conv: Scale): (b: Byte)
    ensures w == src.nodata % 65536 ==> b == dst.nodata % 256
    ensures w != src.nodata % 65536 && w == src.undetect % 65536 ==> b == dst.undetect % 256
    ensures w != src.nodata % 65536 && w != src.undetect % 65536 ==> b <= 254
  {
    if w == src.nodata % 65536 then dst.nodata % 256
    else if w == src.undetect % 65536 then dst.undetect % 256
    else Clamp(Value(conv, w as real))
  }

  lemma ValueMonotone(s: Scale, x: real, y: real)
    requires s.gain >= 0.0 && x <= y
    ensures Value(s, x) <= Value(s, y)
  {
    assert s.gain * y - s.gain * x == s.gain * (y - x);
  }

  /** Narrowing keeps the order of the samples it scales: with a
      non-negative gain a larger source code never gives a smaller target
      code. */
  lemma NarrowMonotone(w1: Word, w2: Word, src: Cfg, dst: Cfg, conv: Scale)
    requires conv.gain >= 0.0 && w1 <= w2
    requires w1 != src.nodata % 65536 && w1 != src.undetect % 65536
    requires w2 != src.nodata % 65536 && w2 != src.undetect % 65536
    ensures NarrowSample(w1, src, dst, conv) <= NarrowSample(w2, src, dst, conv)
  {
    ValueMonotone(conv, w1 as real, w2 as real);
    ClampMonotone(Value(conv, w1 as real), Value(conv, w2 as real));
  }

  /** One sample of the 1-to-2-byte loop: undetect is checked before
      nodata, and any other code is scaled and truncated. None stands for a
      value outside 0 .. 65535, whose conversion C leaves undefined. */
  function WidenSample(b: Byte, src: Cfg, dst: Cfg, conv: Scale): (r: Option<Word>)
    ensures b == src.undetect % 256 ==> r == Some(dst.undetect % 65536)
    ensures b != src.undetect % 256 && b == src.nodata % 256 ==> r == Some(dst.nodata % 65536)
  {
    if b == src.undetect % 256 then Some(dst.undetect % 65536)
    else if b == src.nodata % 256 then Some(dst.nodata % 65536)
    else
      var v := Trunc(Value(conv, b as real));
      if 0 <= v < 65536 then Some(v) else None
  }

  /** Sentinels survive narrowing followed by widening between a quantity's
      two catalog entries: undetect always, nodata for every quantity except
      1-byte VRADH, whose nodata and undetect share the code 0, so that its
      nodata comes back as undetect. */
  lemma SentinelRoundTrip(q: int, c1: Scale, c2: Scale)
    requires 1 <= q <= HCLASS && IsSet(q) && IsSet(Wide(q))
    ensures var n := Entry(Wide(q));
      var o := Entry(q);
      WidenSample(NarrowSample(n.undetect % 65536, n, o, c1), o, n, c2) == Some(n.undetect % 65536)
    ensures var n := Entry(Wide(q));
      var o := Entry(q);
      WidenSample(NarrowSample(n.nodata % 65536, n, o, c1), o, n, c2) == Some(n.nodata % 65536) <==> q != VRADH
  {
    Sentinels(q);
    Sentinels(Wide(q));
    if q == VRADH {
      assert Entry(q).nodata == 0 && Entry(q).undetect == 0;
    }
  }

  /** The 2-to-1-byte loop over a scan: one target code per little-endian
      source word, in order. */
  method NarrowAll(data: seq<Byte>, src: Cfg, dst: Cfg, conv: Scale) returns (out: seq<Byte>)
    requires |data| % 2 == 0
    ensures |out| == |data| / 2
    ensures forall i :: 0 <= i < |out| ==> out[i] == NarrowSample(data[2 * i] as int + 256 * data[2 * i + 1] as int, src, dst, conv)
  {
    out := [];
    var iN := 0;
    while iN < |data|
      invariant 0 <= iN <= |data| && iN % 2 == 0
      invariant |out| == iN / 2
      invariant forall i :: 0 <= i < |out| ==> out[i] == NarrowSample(data[2 * i] as int + 256 * data[2 * i + 1] as int, src, dst, conv)
    {
      var w := data[iN] as int + 256 * data[iN + 1] as int;
      out := out + [NarrowSample(w, src, dst, conv)];
      iN := iN + 2;
    }
  }

  /** The 1-to-2-byte loop over a scan: two little-endian bytes per source
      code, in order; None when some sample has no 16-bit value. */
  method WidenAll(data: seq<Byte>, src: Cfg, dst: Cfg, conv: Scale) returns (out: Option<seq<Byte>>)
    ensures out.Some? <==> forall i :: 0 <= i < |data| ==> WidenSample(data[i], src, dst, conv).Some?
    ensures out.Some? ==> |out.value| == 2 * |data|
    ensures out.Some? ==> forall i :: 0 <= i < |data| ==>
      out.value[2 * i] as int + 256 * out.value[2 * i + 1] as int == WidenSample(data[i], src, dst, conv).value
  {
    var acc: seq<Byte> := [];
    var iN := 0;
    while iN < |data|
      invariant 0 <= iN <= |data|
      invariant |acc| == 2 * iN
      invariant forall i :: 0 <= i < iN ==> WidenSample(data[i], src, dst, conv).Some?
      invariant forall i :: 0 <= i < iN ==>
        acc[2 * i] as int + 256 * acc[2 * i + 1] as int == WidenSample(data[i], src, dst, conv).value
    {
      var r := WidenSample(data[iN], src, dst, conv);
      if r.None? {
        return None;
      }
      acc := acc + ScanAssembly.LittleEndian(r.value);
      iN := iN + 1;
    }
    out := Some(acc);
  }

  // ---------------------------------------------------------------------
  // One quantity of a scan

  /** What the encoder writes for one quantity: its code, the scale stored
      with it and its samples. */
  datatype Output = Output(quantity: int, scale: Scale, data: seq<Byte>)

  /** The bytes the 1-to-2-byte loop reads: it steps over the source by the
      source's sample width and takes the byte at each step, which for
      2-byte samples is the low byte of every little-endian word. */
  function FirstBytes(data: seq<Byte>, binbytes: int): (f: seq<Byte>)
    requires binbytes == 1 || binbytes == 2
    requires |data| % binbytes == 0
    ensures |f| * binbytes == |data|
    ensures binbytes == 1 ==> f == data
    ensures binbytes == 2 ==> forall i :: 0 <= i < |f| ==> f[i] == data[2 * i]
  {
    if binbytes == 1 then data
    else seq(|data| / 2, i requires 0 <= i < |data| / 2 => data[2 * i])
  }

  /** One quantity of a scan, as the encoder computes it: the selection
      decides whether and how it is written; mode 1 copies the samples with
      the pass-through scale; modes 8 and 16 convert every sample with the
      encoder's own gain and offset (`ConvertAsWritten`) and store the scale
      that computation leaves for the target, which away from WRADH is the
      target's file scale. None when the quantity is skipped, when the
      conversion divides by zero, when a widened sample has no 16-bit value,
      and when narrowing 1-byte samples, where the loop's 2-byte read at the
      last sample runs past the end of the scan. Widening 2-byte samples
      (the decoder's SQI) converts the low byte of every word. */
  method EncodeQuantity(all: bool, row: seq<int>, a: int, binbytes: int, data: seq<Byte>, ni: real, nw: real)
    returns (r: Option<Output>)
    requires binbytes == 1 || binbytes == 2
    requires |data| % binbytes == 0
    ensures Select(all, row, a, binbytes).None? ==> r.None?
    ensures Select(all, row, a, binbytes).Some? && Select(all, row, a, binbytes).value.mode == 1
            ==> r == Some(Output(a, PassScale(a, binbytes, ni, nw), data))
    ensures r.Some? ==> Select(all, row, a, binbytes).Some?
                        && r.value.quantity == Select(all, row, a, binbytes).value.wanted
                        && |r.value.data| == |data| / binbytes * Select(all, row, a, binbytes).value.outbytes
    ensures Select(all, row, a, binbytes).Some? && Select(all, row, a, binbytes).value.mode != 1
            && ConvertAsWritten(a, Select(all, row, a, binbytes).value.wanted, ni, nw).None?
            ==> r.None?
    ensures r.Some? && Select(all, row, a, binbytes).value.mode != 1
            ==> ConvertAsWritten(a, r.value.quantity, ni, nw).Some?
                && r.value.scale == ConvertAsWritten(a, r.value.quantity, ni, nw).value.written
    ensures r.Some? && Select(all, row, a, binbytes).value.mode != 1 && r.value.quantity != WRADH && r.value.quantity != Wide(WRADH)
            ==> r.value.scale == FileScale(r.value.quantity, ni, nw)
    ensures Select(all, row, a, binbytes).Some? && Select(all, row, a, binbytes).value.mode == 8
            && ConvertAsWritten(a, Select(all, row, a, binbytes).value.wanted, ni, nw).Some?
            ==> (r.None? <==> binbytes == 1 && |data| > 0)
    ensures r.Some? && Select(all, row, a, binbytes).value.mode == 8
            ==> forall i :: 0 <= i < |r.value.data| ==>
                  r.value.data[i] == NarrowSample(data[2 * i] as int + 256 * data[2 * i + 1] as int,
                                                  Entry(a), Entry(r.value.quantity), ConvertAsWritten(a, r.value.quantity, ni, nw).value.conv)
    ensures Select(all, row, a, binbytes).Some? && Select(all, row, a, binbytes).value.mode == 16
            && ConvertAsWritten(a, Select(all, row, a, binbytes).value.wanted, ni, nw).Some?
            ==> (r.None? <==> exists i :: (0 <= i < |FirstBytes(data, binbytes)|
                   && WidenSample(FirstBytes(data, binbytes)[i], Entry(a), Entry(Select(all, row, a, binbytes).value.wanted),
                                  ConvertAsWritten(a, Select(all, row, a, binbytes).value.wanted, ni, nw).value.conv).None?))
    ensures r.Some? && Select(all, row, a, binbytes).value.mode == 16
            ==> forall i :: 0 <= i < |FirstBytes(data, binbytes)| ==>
                  r.value.data[2 * i] as int + 256 * r.value.data[2 * i + 1] as int
                  == WidenSample(FirstBytes(data, binbytes)[i], Entry(a), Entry(r.value.quantity),
                                 ConvertAsWritten(a, r.value.quantity, ni, nw).value.conv).value
  {
    var sel := Select(all, row, a, binbytes);
    if sel.None? {
      return None;
    }
    var e := sel.value;
    if e.mode == 1 {
      assert |data| / binbytes * binbytes == |data|;
      return Some(Output(a, PassScale(a, binbytes, ni, nw), data));
    }
    var cv := ConvertAsWritten(a, e.wanted, ni, nw);
    if cv.None? {
      return None;
    }
    if e.wanted != WRADH && e.wanted != Wide(WRADH) {
      AsWrittenAgrees(a, e.wanted, ni, nw);
      ConvertKeepsValue(a, e.wanted, ni, nw, 0.0);
    }
    if e.mode == 8 {
      if binbytes == 1 && |data| > 0 {
        return None;
      }
      var out := NarrowAll(data, Entry(a), Entry(e.wanted), cv.value.conv);
      return Some(Output(e.wanted, cv.value.written, out));
    }
    var src := FirstBytes(data, binbytes);
    var wide := WidenAll(src, Entry(a), Entry(e.wanted), cv.value.conv);
    if wide.None? {
      return None;
    }
    return Some(Output(e.wanted, cv.value.written, wide.value));
  }
}

=== FILE: scan_assembly.dfy ===
/**
  Assembly of one scan: the rays of every quantity are merged into a buffer
  of bins x azimuths cells, prefilled with 255, and the first ray of the
  scan (a1gate) and its rotation sense are derived from the ray headers.

  A ray is what the cosine-word decompressor left in the decoder's ray
  buffer: its header fields and the raw bytes of its data union. The
  decompressor itself is not part of this model.
*/
module ScanAssembly {
  import opened Wrappers
  import opened IrisTypes

  /** The byte every cell holds before any ray is merged. */
  const FillByte: Byte := 255

  function Fill(n: nat): (s: seq<Byte>)
    ensures |s| == n && forall i :: 0 <= i < n ==> s[i] == FillByte
  {
    seq(n, _ => FillByte)
  }

  // ---------------------------------------------------------------------
  // Widening of 1-byte correlation-like data to 2 bytes

  /** Integer square root. */
  function ISqrt(n: nat): (r: nat)
    ensures r * r <= n < (r + 1) * (r + 1)
    decreases n
  {
    if n < 2 then n
    else
      var s := ISqrt(n / 4);
      var r := 2 * s;
      SqrtStep(n, s);
      if (r + 1) * (r + 1) <= n then r + 1 else r
  }

  lemma SqrtStep(n: nat, s: nat)
    requires s * s <= n / 4 < (s + 1) * (s + 1)
    ensures (2 * s) * (2 * s) <= n < (2 * s + 2) * (2 * s + 2)
  {
    assert (2 * s) * (2 * s) == 4 * (s * s);
    assert (2 * s + 2) * (2 * s + 2) == 4 * ((s + 1) * (s + 1));
  }

  lemma SquareMonotone(x: nat, y: nat)
    requires x <= y
    ensures x * x <= y * y
  {
    assert x * x <= x * y <= y * y;
  }

  lemma ISqrtMonotone(a: nat, b: nat)
    requires a <= b
    ensures ISqrt(a) <= ISqrt(b)
  {
    if ISqrt(a) > ISqrt(b) {
      SquareMonotone(ISqrt(b) + 1, ISqrt(a));
      assert false;
    }
  }

  /** Data types whose 1-byte samples the decoder rewrites as 2-byte words
      through the square-root relation. */
  predicate Upgraded(dt: int) {
    dt in {RHOHV_T, SQI, CCOR8, PMI8}
  }

  /** The 2-byte word of a 1-byte correlation sample: 255 (no data) becomes
      65535, 0 (undetect) stays 0, and a value v in 1..254 becomes
      1 + floor(65533 * sqrt((v - 1) / 253)). */
  function Upgrade(v: Byte): (w: Word)
    ensures v == 255 <==> w == 65535
    ensures v == 0 <==> w == 0
    ensures 1 <= v <= 254 ==> 1 <= w <= 65534
    ensures 1 <= v <= 254 ==> (w - 1) * (w - 1) * 253 <= 65533 * 65533 * (v - 1) < w * w * 253
  {
    if v == 255 then 65535
    else if v == 0 then 0
    else
      var n := 65533 * 65533 * (v - 1) / 253;
      var r := ISqrt(n);
      UpgradeBound(v, n, r);
      1 + r
  }

  lemma UpgradeBound(v: int, n: nat, r: nat)
    requires 1 <= v <= 254 && n == 65533 * 65533 * (v - 1) / 253
    requires r * r <= n < (r + 1) * (r + 1)
    ensures r <= 65533
    ensures r * r * 253 <= 65533 * 65533 * (v - 1) < (r + 1) * (r + 1) * 253
  {
    assert n <= 65533 * 65533;
    if r > 65533 {
      SquareMonotone(65534, r);
      assert false;
    }
    assert n * 253 <= 65533 * 65533 * (v - 1) < n * 253 + 253;
  }

  /** The widening keeps the order of every byte sample. */
  lemma UpgradeMonotone(a: Byte, b: Byte)
    requires a <= b
    ensures Upgrade(a) <= Upgrade(b)
  {
    if b == 255 {
      assert Upgrade(b) == 65535;
    } else if 1 <= a {
      var na := 65533 * 65533 * (a - 1);
      var nb := 65533 * 65533 * (b - 1);
      assert na <= nb;
      ISqrtMonotone(na / 253, nb / 253);
    }
  }

  /** A word as the two bytes the decoder stores on a little-endian host. */
  function LittleEndian(w: Word): (b: seq<Byte>)
    ensures |b| == 2 && b[0] as int + 256 * b[1] as int == w
  {
    [w % 256, w / 256]
  }

  // ---------------------------------------------------------------------
  // Merging one ray

  /** A decoded ray: whether the decompressor produced any words for it (the
      output length is positive), its bin count and time from the ray
      header, and the bytes of the ray buffer. */
  datatype Ray = Ray(present: bool, bins: nat, itime: nat, data: seq<Byte>)

  /** The ray buffer is sized for a full ray of 2-byte bins. */
  predicate Fits(ray: Ray) {
    |ray.data| >= 2 * ray.bins
  }

  /** The bytes a KDP ray writes: the word 1 for every bin. */
  function KdpBytes(bins: nat): (b: seq<Byte>)
    ensures |b| == 2 * bins
    ensures forall i :: 0 <= i < bins ==> b[2 * i] as int + 256 * b[2 * i + 1] as int == 1
  {
    var b := seq(2 * bins, i => if i % 2 == 0 then 1 else 0);
    assert forall i :: 0 <= i < bins ==> b[2 * i] == 1 && b[2 * i + 1] == 0 by {
      forall i | 0 <= i < bins ensures b[2 * i] == 1 && b[2 * i + 1] == 0 {
        assert (2 * i) % 2 == 0 && (2 * i + 1) % 2 == 1;
      }
    }
    b
  }

  /** The bytes an upgraded ray writes: the widened word of every bin. */
  function UpgradedBytes(data: seq<Byte>, bins: nat): (b: seq<Byte>)
    requires |data| >= bins
    ensures |b| == 2 * bins
    ensures forall i :: 0 <= i < bins ==> b[2 * i] as int + 256 * b[2 * i + 1] as int == Upgrade(data[i])
    decreases bins
  {
    if bins == 0 then []
    else
      var init := UpgradedBytes(data, bins - 1);
      var last := LittleEndian(Upgrade(data[bins - 1]));
      assert forall i :: 0 <= i < bins - 1 ==> (init + last)[2 * i] == init[2 * i] && (init + last)[2 * i + 1] == init[2 * i + 1];
      init + last
  }

  /** What a ray of data type `dt`, stored `db` bytes per bin, writes at its
      row: nothing for a missing ray; the KDP placeholder; the widened words
      of the upgraded types; the raw bytes when a bin is one or two bytes;
      and nothing for any other width. */
  function Payload(ray: Ray, dt: int, db: nat): (p: Option<seq<Byte>>)
    requires Fits(ray)
    ensures !ray.present ==> p.None?
    ensures p.Some? && (dt == KDP_T || Upgraded(dt)) ==> |p.value| == 2 * ray.bins
    ensures p.Some? && dt != KDP_T && !Upgraded(dt) ==> |p.value| == ray.bins * db && |p.value| <= |ray.data| && p.value == ray.data[..|p.value|]
    ensures p.Some? <==> ray.present && (dt == KDP_T || Upgraded(dt) || db == 1 || db == 2)
  {
    if !ray.present then None
    else if dt == KDP_T then Some(KdpBytes(ray.bins))
    else if Upgraded(dt) then Some(UpgradedBytes(ray.data, ray.bins))
    else if db == 1 then Some(ray.data[..ray.bins])
    else if db == 2 then Some(ray.data[..2 * ray.bins])
    else None
  }

  /** A write past the end of the scan buffer, at azimuth `az`. */
  datatype AssemblyError = Overrun(az: nat)

  /** Merging ray `az` into the buffer: its payload goes to offset
      az * bins * db, computed from this ray's own bin count. */
  function MergeRay(buf: seq<Byte>, ray: Ray, dt: int, db: nat, az: nat): (r: Result<seq<Byte>, AssemblyError>)
    requires Fits(ray)
    ensures Payload(ray, dt, db).None? ==> r == Ok(buf)
    ensures r.Ok? ==> |r.value| == |buf|
    ensures r.Ok? && Payload(ray, dt, db).Some? ==>
      var n := az * ray.bins * db;
      var p := Payload(ray, dt, db).value;
      n + |p| <= |buf| && r.value[..n] == buf[..n] && r.value[n..n + |p|] == p && r.value[n + |p|..] == buf[n + |p|..]
    ensures r.Err? <==> Payload(ray, dt, db).Some? && az * ray.bins * db + |Payload(ray, dt, db).value| > |buf|
  {
    WriteAt(buf, Payload(ray, dt, db), az * ray.bins * db, az)
  }

  /** Writing an optional payload at offset `n`, or failing when it does not fit. */
  function WriteAt(buf: seq<Byte>, pay: Option<seq<Byte>>, n: nat, az: nat): (r: Result<seq<Byte>, AssemblyError>)
    ensures pay.None? ==> r == Ok(buf)
    ensures r.Ok? ==> |r.value| == |buf|
    ensures r.Ok? && pay.Some? ==>
      n + |pay.value| <= |buf| && r.value[..n] == buf[..n] && r.value[n..n + |pay.value|] == pay.value
      && r.value[n + |pay.value|..] == buf[n + |pay.value|..]
    ensures r.Err? <==> pay.Some? && n + |pay.value| > |buf|
  {
    match pay
    case None => Ok(buf)
    case Some(p) =>
      if n + |p| > |buf| then Err(Overrun(az))
      else Ok(Splice(buf, n, p))
  }

  /** The buffer with `p` written over it at offset `n`. */
  function Splice(buf: seq<Byte>, n: nat, p: seq<Byte>): (out: seq<Byte>)
    requires n + |p| <= |buf|
    ensures |out| == |buf|
    ensures out[..n] == buf[..n] && out[n..n + |p|] == p && out[n + |p|..] == buf[n + |p|..]
  {
    var out := buf[..n] + p + buf[n + |p|..];
    assert out[..n] == buf[..n];
    assert out[n..n + |p|] == p;
    assert out[n + |p|..] == buf[n + |p|..];
    out
  }

  // ---------------------------------------------------------------------
  // Assembling a quantity

  /** Merging rays `i` onward, in azimuth order. */
  function MergeFrom(buf: seq<Byte>, rays: seq<Ray>, i: nat, dt: int, db: nat): Result<seq<Byte>, AssemblyError>
    requires i <= |rays|
    requires forall a :: 0 <= a < |rays| ==> Fits(rays[a])
    decreases |rays| - i
  {
    if i == |rays| then Ok(buf)
    else
      var next :- MergeRay(buf, rays[i], dt, db, i);
      MergeFrom(next, rays, i + 1, dt, db)
  }

  /** The data array of one quantity: sized by the bin count of the first
      ray, filled with 255, then every ray merged in turn. */
  function Assemble(rays: seq<Ray>, dt: int, db: nat): Result<seq<Byte>, AssemblyError>
    requires forall a :: 0 <= a < |rays| ==> Fits(rays[a])
  {
    if rays == [] then Ok([])
    else MergeFrom(Fill(rays[0].bins * |rays| * db), rays, 0, dt, db)
  }

  /** The row a ray should leave in the data array: its payload, or the fill
      when it writes nothing. */
  function Row(ray: Ray, dt: int, db: nat): seq<Byte>
    requires Fits(ray)
  {
    match Payload(ray, dt, db)
    case Some(p) => p
    case None => Fill(ray.bins * db)
  }

  /** Rows laid one after another. */
  function Concat(rows: seq<seq<Byte>>): seq<Byte>
    decreases |rows|
  {
    if rows == [] then [] else Concat(rows[..|rows| - 1]) + rows[|rows| - 1]
  }

  /** The rows the rays should leave, in azimuth order. */
  function RowsOf(rays: seq<Ray>, dt: int, db: nat): (rows: seq<seq<Byte>>)
    requires forall a :: 0 <= a < |rays| ==> Fits(rays[a])
    ensures |rows| == |rays| && forall a :: 0 <= a < |rays| ==> rows[a] == Row(rays[a], dt, db)
  {
    seq(|rays|, a requires 0 <= a < |rays| => Row(rays[a], dt, db))
  }

  /** The widths that make every row exactly bins * db bytes: DataBytes gives
      the KDP and upgraded types two bytes, and a row of another type is
      copied when its bins are one or two bytes. */
  predicate Uniform(rays: seq<Ray>, bins: nat, dt: int, db: nat) {
    (db == 1 || db == 2)
    && ((dt == KDP_T || Upgraded(dt)) ==> db == 2)
    && forall a :: 0 <= a < |rays| ==> rays[a].bins == bins && Fits(rays[a])
  }

  lemma RowLength(ray: Ray, dt: int, db: nat)
    requires Fits(ray) && (db == 1 || db == 2) && ((dt == KDP_T || Upgraded(dt)) ==> db == 2)
    ensures |Row(ray, dt, db)| == ray.bins * db
  {
  }

  /** Under a uniform bin count every row is bins * db bytes long. */
  lemma UniformRows(rays: seq<Ray>, bins: nat, dt: int, db: nat)
    requires Uniform(rays, bins, dt, db)
    ensures forall a :: 0 <= a < |rays| ==> |RowsOf(rays, dt, db)[a]| == bins * db
  {
    forall a | 0 <= a < |rays| ensures |RowsOf(rays, dt, db)[a]| == bins * db {
      RowLength(rays[a], dt, db);
    }
  }

  lemma MulSucc(x: nat, l: nat)
    ensures (x + 1) * l == x * l + l
  {
  }

  lemma MulNonneg(x: nat, y: nat)
    ensures x * y >= 0
  {
  }

  lemma MulAssoc(x: nat, y: nat, z: nat)
    ensures x * y * z == x * (y * z)
  {
  }

  /** Rows of one width `l` lay out to n * l bytes. */
  lemma {:induction false} ConcatLength(rows: seq<seq<Byte>>, l: nat)
    requires forall a :: 0 <= a < |rows| ==> |rows[a]| == l
    ensures |Concat(rows)| == |rows| * l
    decreases |rows|
  {
    if rows != [] {
      var init := rows[..|rows| - 1];
      ConcatLength(init, l);
      MulSucc(|init|, l);
    }
  }

  /** Laying out a prefix of the rows gives a prefix of the layout. */
  lemma {:induction false} ConcatPrefix(rows: seq<seq<Byte>>, n: nat)
    requires n <= |rows|
    ensures |Concat(rows[..n])| <= |Concat(rows)|
    ensures Concat(rows)[..|Concat(rows[..n])|] == Concat(rows[..n])
    decreases |rows|
  {
    if n < |rows| {
      var init := rows[..|rows| - 1];
      assert init[..n] == rows[..n];
      ConcatPrefix(init, n);
      var c := Concat(rows[..n]);
      assert Concat(rows) == Concat(init) + rows[|rows| - 1];
      assert (Concat(init) + rows[|rows| - 1])[..|c|] == Concat(init)[..|c|];
    } else {
      assert rows[..n] == rows;
    }
  }

  lemma ConcatSnoc(rows: seq<seq<Byte>>, i: nat)
    requires i < |rows|
    ensures Concat(rows[..i + 1]) == Concat(rows[..i]) + rows[i]
  {
    assert rows[..i + 1][..i] == rows[..i];
  }

  /** Row `a` of rows all `l` bytes long sits at offset a * l. */
  lemma ConcatSlice(rows: seq<seq<Byte>>, a: nat, l: nat)
    requires a < |rows|
    requires forall j :: 0 <= j < |rows| ==> |rows[j]| == l
    ensures a * l + l <= |Concat(rows)|
    ensures Concat(rows)[a * l..a * l + l] == rows[a]
  {
    var before := rows[..a];
    var upto := rows[..a + 1];
    assert upto[..a] == before;
    assert Concat(upto) == Concat(before) + rows[a];
    ConcatLength(before, l);
    assert |before| == a;
    ConcatPrefix(rows, a + 1);
    var all := Concat(rows);
    var lo := |Concat(before)|;
    assert lo == a * l;
    assert all[lo..lo + l] == all[..lo + l][lo..lo + l];
  }

  /** One merge step on a buffer whose first rows are done and whose tail is
      still fill. */
  lemma MergeRowStep(done: seq<Byte>, rest: nat, ray: Ray, dt: int, db: nat, i: nat)
    requires Fits(ray) && (db == 1 || db == 2) && ((dt == KDP_T || Upgraded(dt)) ==> db == 2)
    requires |done| == i * ray.bins * db
    ensures MergeRay(done + Fill(|Row(ray, dt, db)| + rest), ray, dt, db, i) == Ok(done + Row(ray, dt, db) + Fill(rest))
  {
    var buf := done + Fill(|Row(ray, dt, db)| + rest);
    var after := done + Row(ray, dt, db) + Fill(rest);
    RowLength(ray, dt, db);
    match Payload(ray, dt, db)
    case None =>
      assert buf == after;
    case Some(p) =>
      var r := MergeRay(buf, ray, dt, db, i);
      assert r.Ok?;
      assert r.value == after by {
        assert r.value[..|done|] == buf[..|done|] == done;
        assert r.value[|done| + |p|..] == buf[|done| + |p|..] == Fill(rest);
        assert r.value == r.value[..|done|] + r.value[|done|..|done| + |p|] + r.value[|done| + |p|..];
      }
  }

  /** Under a uniform bin count, ray `i` is merged right after the rows of
      the rays before it. */
  lemma RowOffset(rays: seq<Ray>, i: nat, bins: nat, dt: int, db: nat)
    requires i < |rays| && Uniform(rays, bins, dt, db)
    ensures |Concat(RowsOf(rays, dt, db)[..i])| == i * rays[i].bins * db
  {
    UniformRows(rays, bins, dt, db);
    ConcatLength(RowsOf(rays, dt, db)[..i], bins * db);
    MulAssoc(i, bins, db);
  }

  /** Under a uniform bin count, the rows fill the array sized from the
      first ray. */
  lemma TotalLength(rays: seq<Ray>, bins: nat, dt: int, db: nat)
    requires 0 < |rays| && Uniform(rays, bins, dt, db)
    ensures |Concat(RowsOf(rays, dt, db))| == rays[0].bins * |rays| * db
  {
    UniformRows(rays, bins, dt, db);
    ConcatLength(RowsOf(rays, dt, db), bins * db);
    MulAssoc(|rays|, bins, db);
    assert |rays| * bins == bins * |rays|;
  }

  /** The layout of the first i + 1 rows is that of the first i followed by
      row i, and it is a prefix of the whole layout. */
  lemma NextLayout(rows: seq<seq<Byte>>, i: nat)
    requires i < |rows|
    ensures Concat(rows[..i + 1]) == Concat(rows[..i]) + rows[i]
    ensures |Concat(rows[..i + 1])| <= |Concat(rows)|
  {
    ConcatSnoc(rows, i);
    ConcatPrefix(rows, i + 1);
  }

  /** Merging ray `i` into a buffer whose first `i` rows are done and whose
      remainder is fill moves on to the next ray with its row added. */
  lemma MergeOne(buf: seq<Byte>, rays: seq<Ray>, rows: seq<seq<Byte>>, i: nat, dt: int, db: nat)
    requires i < |rays| == |rows| && forall a :: 0 <= a < |rays| ==> Fits(rays[a])
    requires (db == 1 || db == 2) && ((dt == KDP_T || Upgraded(dt)) ==> db == 2)
    requires rows[i] == Row(rays[i], dt, db)
    requires |Concat(rows[..i])| == i * rays[i].bins * db
    requires |Concat(rows[..i])| <= |Concat(rows)|
    requires buf == Concat(rows[..i]) + Fill(|Concat(rows)| - |Concat(rows[..i])|)
    ensures |Concat(rows[..i + 1])| <= |Concat(rows)|
    ensures MergeFrom(buf, rays, i, dt, db)
         == MergeFrom(Concat(rows[..i + 1]) + Fill(|Concat(rows)| - |Concat(rows[..i + 1])|), rays, i + 1, dt, db)
  {
    NextLayout(rows, i);
    var rest: nat := |Concat(rows)| - |Concat(rows[..i + 1])|;
    MergeRowStep(Concat(rows[..i]), rest, rays[i], dt, db, i);
  }

  /** Merging ray `i` into the rows before it and fill after them adds its
      row. */
  lemma MergeNext(buf: seq<Byte>, rays: seq<Ray>, i: nat, bins: nat, dt: int, db: nat)
    requires i < |rays| && Uniform(rays, bins, dt, db)
    requires |Concat(RowsOf(rays, dt, db)[..i])| <= |Concat(RowsOf(rays, dt, db))|
    requires buf == Concat(RowsOf(rays, dt, db)[..i]) + Fill(|Concat(RowsOf(rays, dt, db))| - |Concat(RowsOf(rays, dt, db)[..i])|)
    ensures |Concat(RowsOf(rays, dt, db)[..i + 1])| <= |Concat(RowsOf(rays, dt, db))|
    ensures MergeFrom(buf, rays, i, dt, db)
         == MergeFrom(Concat(RowsOf(rays, dt, db)[..i + 1]) + Fill(|Concat(RowsOf(rays, dt, db))| - |Concat(RowsOf(rays, dt, db)[..i + 1])|), rays, i + 1, dt, db)
  {
    RowOffset(rays, i, bins, dt, db);
    MergeOne(buf, rays, RowsOf(rays, dt, db), i, dt, db);
  }

  /** Past the last ray the buffer is the finished rows. */
  lemma MergeFromEnd(buf: seq<Byte>, rays: seq<Ray>, dt: int, db: nat)
    requires forall a :: 0 <= a < |rays| ==> Fits(rays[a])
    requires |Concat(RowsOf(rays, dt, db)[..|rays|])| <= |Concat(RowsOf(rays, dt, db))|
    requires buf == Concat(RowsOf(rays, dt, db)[..|rays|]) + Fill(|Concat(RowsOf(rays, dt, db))| - |Concat(RowsOf(rays, dt, db)[..|rays|])|)
    ensures MergeFrom(buf, rays, |rays|, dt, db) == Ok(Concat(RowsOf(rays, dt, db)))
  {
    var rows := RowsOf(rays, dt, db);
    assert rows[..|rays|] == rows;
    assert Fill(0) == [];
    assert buf == Concat(rows);
  }

  /** Merging the rays from `i` on into the finished rows before `i` and fill
      after them yields all the rows. */
  lemma {:induction false} MergeFromRows(buf: seq<Byte>, rays: seq<Ray>, i: nat, bins: nat, dt: int, db: nat)
    requires i <= |rays| && Uniform(rays, bins, dt, db)
    requires |Concat(RowsOf(rays, dt, db)[..i])| <= |Concat(RowsOf(rays, dt, db))|
    requires buf == Concat(RowsOf(rays, dt, db)[..i]) + Fill(|Concat(RowsOf(rays, dt, db))| - |Concat(RowsOf(rays, dt, db)[..i])|)
    ensures MergeFrom(buf, rays, i, dt, db) == Ok(Concat(RowsOf(rays, dt, db)))
    decreases |rays| - i
  {
    var rows := RowsOf(rays, dt, db);
    if i < |rays| {
      MergeNext(buf, rays, i, bins, dt, db);
      MergeFromRows(Concat(rows[..i + 1]) + Fill(|Concat(rows)| - |Concat(rows[..i + 1])|), rays, i + 1, bins, dt, db);
    } else {
      MergeFromEnd(buf, rays, dt, db);
    }
  }

  /** When every ray has the bin count of the first, assembly succeeds and
      yields the rays' rows in azimuth order, a missing ray leaving its row
      at the fill value. */
  lemma AssembleRows(rays: seq<Ray>, bins: nat, dt: int, db: nat)
    requires Uniform(rays, bins, dt, db)
    ensures Assemble(rays, dt, db) == Ok(Concat(RowsOf(rays, dt, db)))
  {
    if rays != [] {
      var rows := RowsOf(rays, dt, db);
      assert rows[..0] == [];
      TotalLength(rays, bins, dt, db);
      MergeFromRows(Fill(rays[0].bins * |rays| * db), rays, 0, bins, dt, db);
    }
  }

  /** Per azimuth: the assembled data holds at row `a` exactly the row of
      ray `a` — its payload, or 255 throughout when the ray is missing. */
  lemma AssembledRow(rays: seq<Ray>, a: nat, bins: nat, dt: int, db: nat)
    requires a < |rays| && Uniform(rays, bins, dt, db)
    ensures Assemble(rays, dt, db).Ok?
    ensures a * (bins * db) + bins * db <= |Assemble(rays, dt, db).value|
    ensures Assemble(rays, dt, db).value[a * (bins * db)..a * (bins * db) + bins * db] == Row(rays[a], dt, db)
    ensures !rays[a].present ==> Row(rays[a], dt, db) == Fill(bins * db)
  {
    AssembleRows(rays, bins, dt, db);
    UniformRows(rays, bins, dt, db);
    ConcatSlice(RowsOf(rays, dt, db), a, bins * db);
  }

  // ---------------------------------------------------------------------
  // Rotation sense and the first ray

  /** The rotation sense from the first ray's start and end azimuths (in
      degrees): the difference is brought into range by one turn of
      `azgates` in either direction, compared with half of `azgates` in C
      integer division, and a positive difference means clockwise. Half of
      `azgates` is half a turn in degrees only for 360 rays. */
  function RotSign(azStart: real, azEnd: real, azgates: int): (s: int)
    ensures s == 1 || s == -1
    ensures 0.0 <= azStart < 360.0 && 0.0 <= azEnd < 360.0 && azgates >= 360 && azgates % 2 == 0 ==>
      (s == 1 <==> 0.0 < azEnd - azStart <= (azgates / 2) as real || azEnd - azStart < -((azgates / 2) as real))
  {
    var half := if azgates >= 0 then azgates / 2 else -((-azgates) / 2);
    var d0 := azEnd - azStart;
    var d1 := if d0 < -(half as real) then d0 + azgates as real else d0;
    var d2 := if d1 > half as real then d1 - azgates as real else d1;
    if d2 > 0.0 then 1 else -1
  }

  /** For a full circle of 360 rays, a ray less than half a turn wide is
      clockwise exactly when its end lies less than half a turn ahead of its
      start. */
  lemma RotSignFullCircle(azStart: real, azEnd: real)
    requires 0.0 <= azStart < 360.0 && 0.0 <= azEnd < 360.0
    ensures RotSign(azStart, azEnd, 360) == 1 <==>
      (0.0 < azEnd - azStart <= 180.0 || azEnd - azStart < -180.0)
  {
  }

  /** From 720 rays on, half the ray count is at least a full turn, so the
      decoder never undoes a crossing of north: the sign is +1 exactly when
      the end azimuth is numerically larger than the start. */
  lemma RotSignFineScan(azStart: real, azEnd: real, azgates: int)
    requires 0.0 <= azStart < 360.0 && 0.0 <= azEnd < 360.0 && azgates >= 720
    ensures RotSign(azStart, azEnd, azgates) == 1 <==> azEnd > azStart
  {
    var half := azgates / 2;
    assert half >= 360;
    assert -(half as real) <= -360.0 < azEnd - azStart < 360.0 <= half as real;
  }

  /** The rotation sense with the difference brought into half a turn
      (180 degrees) either way, whatever the ray count. */
  function RotSignByTurn(azStart: real, azEnd: real): (s: int)
    ensures s == 1 || s == -1
  {
    var d0 := azEnd - azStart;
    var d1 := if d0 < -180.0 then d0 + 360.0 else d0;
    var d2 := if d1 > 180.0 then d1 - 360.0 else d1;
    if d2 > 0.0 then 1 else -1
  }

  /** The corrected sense is clockwise exactly when the end lies at most half
      a turn ahead of the start, modulo a turn, for every ray count; for 360
      rays it is the decoder's sign. */
  lemma RotSignByTurnClockwise(azStart: real, azEnd: real)
    requires 0.0 <= azStart < 360.0 && 0.0 <= azEnd < 360.0
    ensures RotSignByTurn(azStart, azEnd) == 1 <==>
      (0.0 < azEnd - azStart <= 180.0 || azEnd - azStart < -180.0)
    ensures RotSignByTurn(azStart, azEnd) == RotSign(azStart, azEnd, 360)
  {
  }

  /** A clockwise half-degree first ray that crosses north, in a scan of 720
      rays: the decoder gives it the counter-clockwise sign, the corrected
      sense the clockwise one. */
  lemma RotSignNorthCrossing()
    ensures RotSign(359.75, 0.25, 720) == -1
    ensures RotSignByTurn(359.75, 0.25) == 1
  {
    RotSignFineScan(359.75, 0.25, 720);
    RotSignByTurnClockwise(359.75, 0.25);
  }

  /** The index of the last ray among the latest ones. */
  predicate LastLatest(itimes: seq<nat>, k: int) {
    0 <= k < |itimes|
    && (forall j :: 0 <= j <= k ==> itimes[j] <= itimes[k])
    && (forall j :: k < j < |itimes| ==> itimes[j] < itimes[k])
  }

  /** Stepping one ray forward or back from ray `k` and wrapping at the
      ends of the scan lands on (k + step) mod n. */
  lemma WrapIndex(k: int, step: int, n: int)
    requires 0 <= k < n && (step == 1 || step == -1)
    ensures var f := k + step; (if f == n then 0 else if f < 0 then n - 1 else f) == (k + step) % n
  {
    var f := k + step;
    if f == n {
      assert f % n == 0;
    } else if f < 0 {
      assert f == -1;
      assert (n - 1) + (-1) * n == -1;
    } else {
      assert 0 <= f < n;
    }
  }

  /** a1gate: the ray following, in the sense of rotation, the last of the
      rays with the largest time, wrapped into the scan; also the largest ray
      time. The latest-ray test is "not earlier than the latest so far",
      starting from 0, so ties go to the later ray. */
  method A1Gate(itimes: seq<nat>, rotsgn: int) returns (a1gate: int, maxSecs: nat)
    requires rotsgn == 1 || rotsgn == -1
    ensures |itimes| == 0 ==> a1gate == 0 && maxSecs == 0
    ensures |itimes| > 0 ==> exists k :: LastLatest(itimes, k) && maxSecs == itimes[k] && a1gate == (k + rotsgn) % |itimes|
    ensures |itimes| > 0 ==> 0 <= a1gate < |itimes|
  {
    var azgates := |itimes|;
    var firstRay := 0;
    maxSecs := 0;
    var k := -1;
    var i := 0;
    while i < azgates
      invariant 0 <= i <= azgates
      invariant -1 <= k < i
      invariant k < 0 ==> i == 0 && maxSecs == 0 && firstRay == 0
      invariant k >= 0 ==> maxSecs == itimes[k] && firstRay == k + rotsgn
      invariant k >= 0 ==> (forall j :: 0 <= j <= k ==> itimes[j] <= itimes[k])
      invariant k >= 0 ==> (forall j :: k < j < i ==> itimes[j] < itimes[k])
    {
      if itimes[i] >= maxSecs {
        maxSecs := itimes[i];
        firstRay := i + rotsgn;
        k := i;
      }
      i := i + 1;
    }
    a1gate := firstRay;
    if a1gate == azgates {
      a1gate := 0;
    }
    if a1gate < 0 {
      a1gate := azgates - 1;
    }
    if azgates > 0 {
      assert LastLatest(itimes, k);
      WrapIndex(k, rotsgn, azgates);
    }
  }
}

=== FILE: scan_meta.dfy ===
/**
  Per-scan metadata the decoder derives from the product and ingest headers:
  polarization mode, PRF mode and the methods that follow from it, the filter
  thresholds of every data type, and the start time of the scan.

  Vendor helpers (dsp_string_from_tcf, fPrfLowFromHighCase) are inputs here:
  the TCF strings of the five filter groups and the low PRF arrive as values.
*/
module ScanMeta {
  import opened Wrappers
  import opened IrisTypes
  import opened CStrings

  // Polarization codes of the product end header (POL_*).
  const POL_HORIZ_FIX: int := 0
  const POL_VERT_FIX: int := 1
  const POL_ALTERNATING: int := 2
  const POL_SIMULTANEOUS: int := 3

  // Dual-PRF trigger codes (PRF_*).
  const PRF_FIXED: int := 0
  const PRF_2_3: int := 1
  const PRF_3_4: int := 2
  const PRF_4_5: int := 3

  /** The polarization attributes of a scan and the channel flags the decoder
      raises for it. */
  datatype Polarization = Polarization(polarization: string, polmode: string, h: bool, v: bool, hv: bool)

  /** The switch on ipolar: fixed vertical, alternating and simultaneous are
      recognised; every other code is fixed horizontal. */
  function PolarizationOf(ipolar: int): (p: Polarization)
    ensures (p.h ==> !p.v && !p.hv) && (p.v ==> !p.hv) && (p.h || p.v || p.hv)
    ensures p.hv <==> ipolar == POL_ALTERNATING || ipolar == POL_SIMULTANEOUS
    ensures p.v <==> ipolar == POL_VERT_FIX
  {
    if ipolar == POL_VERT_FIX then Polarization("V", "single-V", false, true, false)
    else if ipolar == POL_ALTERNATING then Polarization("H|V", "switched-dual", false, false, true)
    else if ipolar == POL_SIMULTANEOUS then Polarization("H,V", "simultaneous-dual", false, false, true)
    else Polarization("H", "single-H", true, false, false)
  }

  /** The polmode a data type imposes, if any: LDR data recorded H to V or V to
      H names the mode after it. */
  function LdrMode(t: int): Option<string> {
    if t == LDRH || t == LDRH2 then Some("LDR-H")
    else if t == LDRV_T || t == LDRV2 then Some("LDR-V")
    else None
  }

  /** The polmode after the per-quantity loop: each LDR data type overrides
      the mode in turn. */
  function PolModeAfter(base: string, types: seq<int>): string
    decreases |types|
  {
    if types == [] then base
    else
      var m := LdrMode(types[|types| - 1]);
      if m.Some? then m.value else PolModeAfter(base, types[..|types| - 1])
  }

  /** Index of the last LDR data type of the list, or -1. */
  function LastLdr(types: seq<int>): (i: int)
    ensures -1 <= i < |types|
    ensures i >= 0 ==> LdrMode(types[i]).Some?
    ensures forall j :: i < j < |types| ==> LdrMode(types[j]).None?
    decreases |types|
  {
    if types == [] then -1
    else if LdrMode(types[|types| - 1]).Some? then |types| - 1
    else LastLdr(types[..|types| - 1])
  }

  /** The last LDR data type of the list decides the polmode; without one the
      polmode of the polarization code stands. */
  lemma {:induction false} PolModeLastLdr(base: string, types: seq<int>)
    ensures PolModeAfter(base, types)
         == if LastLdr(types) < 0 then base else LdrMode(types[LastLdr(types)]).value
    decreases |types|
  {
    if types != [] && LdrMode(types[|types| - 1]).None? {
      var init := types[..|types| - 1];
      PolModeLastLdr(base, init);
      if LastLdr(init) >= 0 {
        assert types[LastLdr(init)] == init[LastLdr(init)];
      }
    }
  }

  /** PRF settings of a scan. */
  datatype PrfMode = PrfMode(lowprf: int, highprf: int, single: bool, azmethod: string)

  /** The switch on the trigger code: the three dual-PRF ratios take the low
      PRF from the vendor helper, every other code is a single PRF. */
  function PrfOf(itrig: int, iprf: int, lowFromHigh: int): (m: PrfMode)
    ensures m.highprf == iprf
    ensures m.single <==> itrig !in {PRF_2_3, PRF_3_4, PRF_4_5}
    ensures m.single ==> m.lowprf == iprf
    ensures !m.single ==> m.lowprf == lowFromHigh
    ensures m.azmethod == (if m.single then "NEAREST" else "AVERAGE")
  {
    if itrig == PRF_2_3 || itrig == PRF_3_4 || itrig == PRF_4_5 then PrfMode(lowFromHigh, iprf, false, "AVERAGE")
    else PrfMode(iprf, iprf, true, "NEAREST")
  }

  /** C division of two ints: the quotient of the magnitudes, truncated
      toward zero, with the sign of the true quotient. */
  function CDiv(a: int, b: int): int
    requires b != 0
  {
    var q := (if a >= 0 then a else -a) / (if b > 0 then b else -b);
    if (a >= 0) == (b > 0) then q else -q
  }

  /** C remainder: the remainder of the magnitudes, with the sign of the
      dividend. */
  function CMod(a: int, b: int): int
    requires b != 0
  {
    var r := (if a >= 0 then a else -a) % (if b > 0 then b else -b);
    if a >= 0 then r else -r
  }

  /** C guarantees (a / b) * b + a % b == a, and the remainder is smaller
      than the divisor in magnitude. */
  lemma CDivMod(a: int, b: int)
    requires b != 0
    ensures CDiv(a, b) * b + CMod(a, b) == a
    ensures -(if b > 0 then b else -b) < CMod(a, b) < (if b > 0 then b else -b)
    ensures a >= 0 ==> CMod(a, b) >= 0
    ensures a <= 0 ==> CMod(a, b) <= 0
  {
    var m := if a >= 0 then a else -a;
    var n := if b > 0 then b else -b;
    MagnitudeDivMod(m, n);
    assert CMod(a, b) == (if a >= 0 then m % n else -(m % n));
    if (a >= 0) == (b > 0) {
      assert CDiv(a, b) * b == (m / n) * n * (if a >= 0 then 1 else -1);
    } else {
      assert CDiv(a, b) * b == (m / n) * n * (if a >= 0 then 1 else -1);
    }
  }

  lemma MagnitudeDivMod(m: nat, n: nat)
    requires n > 0
    ensures m == (m / n) * n + m % n && 0 <= m % n < n
  {
  }

  /** The range-bin method: "NEAREST" exactly when the input bins per output
      bin, in C integer division, is one. A zero output count is a division
      by zero in the decoder and gives None here. */
  function BinMethod(binsIn: int, binsOut: int): (r: Option<(int, string)>)
    ensures r.None? <==> binsOut == 0
    ensures r.Some? ==> r.value.1 == (if r.value.0 == 1 then "NEAREST" else "AVERAGE")
    ensures r.Some? && binsIn >= 0 && binsOut > 0 ==> (r.value.0 == 1 <==> binsOut <= binsIn < 2 * binsOut)
  {
    if binsOut == 0 then None
    else
      var avg := CDiv(binsIn, binsOut);
      CDivMod(binsIn, binsOut);
      Some((avg, if avg == 1 then "NEAREST" else "AVERAGE"))
  }

  /** The TCF mask strings of the five filter groups of the calibration
      header, as the vendor helper renders them. */
  datatype TcfStrings = TcfStrings(uz: string, cz: string, vl: string, wd: string, zdr: string)

  /** The TCF string the decoder consults for a data type: total power,
      corrected reflectivity, velocity, width and ZDR types take their group's
      mask; LDR types leave the buffer as the previous quantity left it (it is
      not set on that path); every other type gets " ". */
  function ThresholdText(t: int, tcf: TcfStrings, stale: string): string {
    if t in {DBT, DBT2, DBTE8, DBTE16, DBTV8, DBTV16} then tcf.uz
    else if t in {DBZ, DBZ2, DBZC, DBZC2, DBZE8, DBZE16, DBZV8, DBZV16} then tcf.cz
    else if t in {VEL, VEL2, VELC, VELC2} then tcf.vl
    else if t in {WIDTH, WIDTH2} then tcf.wd
    else if t in {ZDR_T, ZDR2} then tcf.zdr
    else if LdrMode(t).Some? then stale
    else " "
  }

  /** Calibration thresholds of the task configuration, in their raw units. */
  datatype CalThresholds = CalThresholds(izns: int, iccr: int, isqi: int, isig: int, ipmi: int)

  /** Filter thresholds of one quantity (the data how group). */
  datatype DataHow = DataHow(log: real, csr: real, sqi: real, snrt: real, pmi: real)

  /** Thresholds of a quantity, read from its TCF string with strstr: a
      filter the string names takes its calibrated threshold (LOG and SIG in
      sixteenths of a dB, SQI and PMI in 256ths, CSR negated in sixteenths);
      a filter it does not name keeps its "no filter" value, 0 for LOG, SQI,
      SIG (SNRT) and PMI and 1000 for CSR. */
  function Thresholds(thr: string, cal: CalThresholds): (h: DataHow)
    ensures Contains(thr, "LOG") ==> 16.0 * h.log == cal.izns as real
    ensures h.log != 0.0 <==> Contains(thr, "LOG") && cal.izns != 0
    ensures Contains(thr, "CSR") ==> -16.0 * h.csr == cal.iccr as real
    ensures h.csr != 1000.0 <==> Contains(thr, "CSR") && cal.iccr != -16000
    ensures Contains(thr, "SQI") ==> 256.0 * h.sqi == cal.isqi as real
    ensures h.sqi != 0.0 <==> Contains(thr, "SQI") && cal.isqi != 0
    ensures Contains(thr, "SIG") ==> 16.0 * h.snrt == cal.isig as real
    ensures h.snrt != 0.0 <==> Contains(thr, "SIG") && cal.isig != 0
    ensures Contains(thr, "PMI") ==> 256.0 * h.pmi == cal.ipmi as real
    ensures h.pmi != 0.0 <==> Contains(thr, "PMI") && cal.ipmi != 0
  {
    DataHow(
      if Strstr(thr, "LOG").Some? then cal.izns as real / 16.0 else 0.0,
      if Strstr(thr, "CSR").Some? then -(cal.iccr as real) / 16.0 else 1000.0,
      if Strstr(thr, "SQI").Some? then cal.isqi as real / 256.0 else 0.0,
      if Strstr(thr, "SIG").Some? then cal.isig as real / 16.0 else 0.0,
      if Strstr(thr, "PMI").Some? then cal.ipmi as real / 256.0 else 0.0)
  }

  /** The data how attributes the encoder writes for a quantity: each one only
      when its value is past the "no filter" value. */
  function WrittenHow(h: DataHow): set<string> {
    (if h.sqi > 0.0 then {"SQI"} else {})
    + (if h.csr < 1000.0 then {"CSR"} else {})
    + (if h.log > 0.0 then {"LOG"} else {})
    + (if h.snrt > 0.0 then {"SNRT"} else {})
    + (if h.pmi > 0.0 then {"PMI"} else {})
  }

  /** A filter that the TCF string does not name never reaches the output:
      the decoder's defaults are exactly the values the encoder skips. */
  lemma DefaultsNotWritten(thr: string, cal: CalThresholds)
    ensures !Contains(thr, "LOG") ==> "LOG" !in WrittenHow(Thresholds(thr, cal))
    ensures !Contains(thr, "CSR") ==> "CSR" !in WrittenHow(Thresholds(thr, cal))
    ensures !Contains(thr, "SQI") ==> "SQI" !in WrittenHow(Thresholds(thr, cal))
    ensures !Contains(thr, "SIG") ==> "SNRT" !in WrittenHow(Thresholds(thr, cal))
    ensures !Contains(thr, "PMI") ==> "PMI" !in WrittenHow(Thresholds(thr, cal))
    ensures Contains(thr, "LOG") && cal.izns > 0 ==> "LOG" in WrittenHow(Thresholds(thr, cal))
    ensures Contains(thr, "CSR") && cal.iccr > -16000 ==> "CSR" in WrittenHow(Thresholds(thr, cal))
  {
    var h := Thresholds(thr, cal);
    assert !Contains(thr, "LOG") ==> h.log == 0.0;
    assert !Contains(thr, "CSR") ==> h.csr == 1000.0;
    assert !Contains(thr, "SQI") ==> h.sqi == 0.0;
    assert !Contains(thr, "SIG") ==> h.snrt == 0.0;
    assert !Contains(thr, "PMI") ==> h.pmi == 0.0;
    assert Contains(thr, "LOG") && cal.izns > 0 ==> h.log > 0.0;
    assert Contains(thr, "CSR") && cal.iccr > -16000 ==> h.csr < 1000.0;
  }

  /** Hours, minutes and seconds of a seconds-of-day count, with C's
      truncating division and remainder. */
  datatype Hms = Hms(hh: int, mm: int, ss: int)

  /** give_date_time's split: hours as the count divided by 3600, minutes as
      the remainder of the hour divided by 60, seconds as the count modulo
      60, all in C arithmetic. The three fields recombine to the count, and
      for a count of either sign they share its sign and stay below a
      minute (an hour) in magnitude. */
  function SplitSeconds(isec: int): (t: Hms)
    ensures t.hh * 3600 + t.mm * 60 + t.ss == isec
    ensures isec >= 0 ==> 0 <= t.mm < 60 && 0 <= t.ss < 60 && t.hh >= 0
    ensures isec <= 0 ==> -60 < t.mm <= 0 && -60 < t.ss <= 0 && t.hh <= 0
  {
    var t := Hms(CDiv(isec, 3600), CDiv(CMod(isec, 3600), 60), CMod(isec, 60));
    SplitMagnitude(isec);
    t
  }

  /** The split of a count is the split of its magnitude, with its sign. */
  lemma SplitMagnitude(isec: int)
    ensures var a := if isec >= 0 then isec else -isec;
            var sgn := if isec >= 0 then 1 else -1;
            CDiv(isec, 3600) == sgn * (a / 3600)
            && CDiv(CMod(isec, 3600), 60) == sgn * ((a % 3600) / 60)
            && CMod(isec, 60) == sgn * (a % 60)
            && a == 3600 * (a / 3600) + 60 * ((a % 3600) / 60) + a % 60
  {
    var a := if isec >= 0 then isec else -isec;
    HourMinute(a);
    var rem := CMod(isec, 3600);
    if isec >= 0 {
      assert rem == a % 3600;
    } else {
      assert rem == -(a % 3600);
    }
  }

  lemma HourMinute(a: nat)
    ensures (a % 3600) % 60 == a % 60
    ensures a == 3600 * (a / 3600) + 60 * ((a % 3600) / 60) + a % 60
  {
    var h := a / 3600;
    var r := a % 3600;
    assert a == 3600 * h + r;
    var m := r / 60;
    var s := r % 60;
    assert r == 60 * m + s;
    assert a == 60 * (60 * h + m) + s;
  }

  /** give_date_time's time string: %02d%02d%02d of the split seconds. */
  function TimeString(isec: int): string {
    var t := SplitSeconds(isec);
    Pad2(t.hh) + Pad2(t.mm) + Pad2(t.ss)
  }

  /** Reading an HHMMSS string back into seconds of the day. */
  function ParseTime(s: string): int
    requires |s| == 6 && forall i :: 0 <= i < 6 ==> '0' <= s[i] <= '9'
  {
    ParseDigits(s[0..2]) * 3600 + ParseDigits(s[2..4]) * 60 + ParseDigits(s[4..6])
  }

  /** For every time of day below 100 hours the time string is six digits and
      reads back as the same number of seconds. */
  lemma TimeRoundTrip(isec: int)
    requires 0 <= isec < 360000
    ensures |TimeString(isec)| == 6
    ensures forall i :: 0 <= i < 6 ==> '0' <= TimeString(isec)[i] <= '9'
    ensures ParseTime(TimeString(isec)) == isec
  {
    var t := SplitSeconds(isec);
    Pad2Digits(t.hh);
    Pad2Digits(t.mm);
    Pad2Digits(t.ss);
    var s := TimeString(isec);
    assert s[0..2] == Pad2(t.hh);
    assert s[2..4] == Pad2(t.mm);
    assert s[4..6] == Pad2(t.ss);
  }
}

=== FILE: wanted.dfy ===
/**
  The encoder's request string (get_wanted_quantities) and the scan
  acceptance test that reads what it leaves behind.

  A request is a list of space-separated tokens such as "1,2:DBZH,VRADH 3:*".
  Before the first ':' of a token comes a comma list of scans, '*' meaning all
  of them; every later ':'-separated part is a comma list of quantities whose
  k-th item goes to slot k of each listed scan, '*' meaning "every quantity".
  The parser fills the table wanted_scanquants, which starts out all zero.
*/
module Wanted {
  import opened Wrappers
  import opened Quantities
  import opened CStrings

  /** wanted_scanquants as the cells the parser wrote, keyed (scan, slot). */
  type Table = map<(int, int), int>

  /** A cell of the table: what was written there, or the initial 0. */
  function Cell(t: Table, scan: int, slot: int): int {
    if (scan, slot) in t then t[(scan, slot)] else 0
  }

  /** The parser's outcome: ALL_QUANTS and the table. */
  datatype Request = Request(all: bool, table: Table)

  /** The code of one quantity item: an item starting with '*' is -1, "every
      quantity", any other item the catalog lookup of its name. */
  function ItemCode(item: string): int {
    if item != [] && item[0] == '*' then -1 else GetQuantityCode(item)
  }

  /** Scans 0 .. n - 1. */
  function AllScans(n: nat): (r: seq<int>)
    ensures |r| == n && forall i :: 0 <= i < n ==> r[i] == i
  {
    seq(n, i => i)
  }

  /** swlist after the first `n` items of a scan list: an item starting
      with '*' makes the list every scan, any other item appends the number
      atoi reads. */
  function ScanListUpTo(items: seq<string>, n: nat, maxScans: nat): seq<int>
    requires n <= |items|
    decreases n
  {
    if n == 0 then []
    else if items[n - 1] != [] && items[n - 1][0] == '*' then AllScans(maxScans)
    else ScanListUpTo(items, n - 1, maxScans) + [Atoi(items[n - 1])]
  }

  /** swlist after all items of a scan list. */
  function ScanList(items: seq<string>, maxScans: nat): seq<int> {
    ScanListUpTo(items, |items|, maxScans)
  }

  /** Index of the last item starting with '*', or -1. */
  function LastStar(items: seq<string>): (j: int)
    ensures -1 <= j < |items|
    ensures j >= 0 ==> items[j] != [] && items[j][0] == '*'
    ensures forall i :: j < i < |items| ==> !(items[i] != [] && items[i][0] == '*')
    decreases |items|
  {
    if items == [] then -1
    else
      var last := items[|items| - 1];
      if last != [] && last[0] == '*' then |items| - 1 else LastStar(items[..|items| - 1])
  }

  /** The number atoi reads from each item. */
  function AtoiEach(items: seq<string>): (r: seq<int>)
    ensures |r| == |items| && forall i :: 0 <= i < |items| ==> r[i] == Atoi(items[i])
  {
    seq(|items|, i requires 0 <= i < |items| => Atoi(items[i]))
  }

  /** A list that is `head + x` with `a` appended is `head` followed by
      `x` with `a` appended. */
  lemma Regroup<T>(s: seq<T>, init: seq<T>, head: seq<T>, x: seq<T>, y: seq<T>, a: T)
    requires s == init + [a] && init == head + x && y == x + [a]
    ensures s == head + y
  {
  }

  lemma AtoiEachSnoc(items: seq<string>, k: nat, n: nat)
    requires k < n <= |items|
    ensures AtoiEach(items[k..n]) == AtoiEach(items[k..n - 1]) + [Atoi(items[n - 1])]
  {
    assert items[k..n] == items[k..n - 1] + [items[n - 1]];
  }

  /** Items k .. n - 1, none of which is '*', append their numbers to the
      list of the first k items. */
  lemma {:induction false} NoStarAppend(items: seq<string>, k: nat, n: nat, maxScans: nat)
    requires k <= n <= |items|
    requires forall i :: k <= i < n ==> !(items[i] != [] && items[i][0] == '*')
    ensures ScanListUpTo(items, n, maxScans) == ScanListUpTo(items, k, maxScans) + AtoiEach(items[k..n])
    decreases n
  {
    if n == k {
      assert AtoiEach(items[k..n]) == [];
      assert ScanListUpTo(items, k, maxScans) + [] == ScanListUpTo(items, k, maxScans);
    } else {
      NoStarAppend(items, k, n - 1, maxScans);
      AtoiEachSnoc(items, k, n);
      Regroup(ScanListUpTo(items, n, maxScans), ScanListUpTo(items, n - 1, maxScans), ScanListUpTo(items, k, maxScans),
              AtoiEach(items[k..n - 1]), AtoiEach(items[k..n]), Atoi(items[n - 1]));
    }
  }

  /** The scan list is every scan when some item is '*', followed by the
      numbers of the items after the last '*'. */
  lemma ScanListSpec(items: seq<string>, maxScans: nat)
    ensures var j := LastStar(items);
      ScanList(items, maxScans) == (if j >= 0 then AllScans(maxScans) else []) + AtoiEach(items[j + 1..])
  {
    var j := LastStar(items);
    NoStarAppend(items, j + 1, |items|, maxScans);
    assert items[j + 1..|items|] == items[j + 1..];
  }

  /** The innermost loop: slot `slot` of every listed scan gets `code`. */
  function WriteScans(t: Table, scans: seq<int>, slot: int, code: int): Table
    decreases |scans|
  {
    if scans == [] then t else WriteScans(t[(scans[0], slot) := code], scans[1..], slot, code)
  }

  /** One quantity list: its k-th item goes to slot k of every listed scan. */
  function WriteItems(t: Table, scans: seq<int>, items: seq<string>): Table
    decreases |items|
  {
    if items == [] then t
    else
      var k := |items| - 1;
      WriteScans(WriteItems(t, scans, items[..k]), scans, k, ItemCode(items[k]))
  }

  /** The ':'-separated quantity lists of a token, in order. */
  function WriteLists(t: Table, scans: seq<int>, lists: seq<string>): Table
    decreases |lists|
  {
    if lists == [] then t else WriteLists(WriteItems(t, scans, Tokens(lists[0], ',')), scans, lists[1..])
  }

  /** One space-separated token: the scan list, then its quantity lists. */
  function ApplyToken(t: Table, token: string, maxScans: nat): Table {
    var parts := Tokens(token, ':');
    if parts == [] then t
    else WriteLists(t, ScanList(Tokens(parts[0], ','), maxScans), parts[1..])
  }

  function ApplyTokens(t: Table, tokens: seq<string>, maxScans: nat): Table
    decreases |tokens|
  {
    if tokens == [] then t else ApplyTokens(ApplyToken(t, tokens[0], maxScans), tokens[1..], maxScans)
  }

  /** The requests meaning "every quantity of every scan": none at all, "ALL",
      "*" and "*:*". */
  predicate MeansAll(q: Option<string>) {
    q.None? || q.value == "ALL" || q.value == "*" || q.value == "*:*"
  }

  /** get_wanted_quantities with the scan table size MAX_SCANS. */
  function ParseWanted(q: Option<string>, maxScans: nat): (r: Request)
    ensures r.all <==> MeansAll(q)
  {
    if MeansAll(q) then Request(true, map sw | 1 <= sw < maxScans :: (sw, 0) := -1)
    else Request(false, ApplyTokens(map[], Tokens(q.value, ' '), maxScans))
  }

  /** An "all" request marks slot 0 of scans 1 .. MAX_SCANS - 1 with -1 and
      leaves every other cell 0. */
  lemma ParseAll(q: Option<string>, maxScans: nat, scan: int, slot: int)
    requires MeansAll(q)
    ensures Cell(ParseWanted(q, maxScans).table, scan, slot) == (if 1 <= scan < maxScans && slot == 0 then -1 else 0)
  {
  }

  /** The innermost loop writes slot `slot` of the listed scans and nothing
      else. */
  lemma {:induction false} WriteScansSpec(t: Table, scans: seq<int>, slot: int, code: int, s: int, k: int)
    ensures Cell(WriteScans(t, scans, slot, code), s, k) == if s in scans && k == slot then code else Cell(t, s, k)
    decreases |scans|
  {
    if scans != [] {
      WriteScansSpec(t[(scans[0], slot) := code], scans[1..], slot, code, s, k);
      assert s in scans <==> s == scans[0] || s in scans[1..];
    }
  }

  /** After a quantity list, slot k of a listed scan holds the code of item k
      when there is one; every other cell is as before. */
  lemma {:induction false} WriteItemsSpec(t: Table, scans: seq<int>, items: seq<string>, s: int, k: int)
    ensures Cell(WriteItems(t, scans, items), s, k)
         == if s in scans && 0 <= k < |items| then ItemCode(items[k]) else Cell(t, s, k)
    decreases |items|
  {
    if items != [] {
      var n := |items| - 1;
      WriteItemsSpec(t, scans, items[..n], s, k);
      WriteScansSpec(WriteItems(t, scans, items[..n]), scans, n, ItemCode(items[n]), s, k);
    }
  }

  /** Index of the last quantity list with an item k, or -1. */
  function LastCover(lists: seq<string>, k: int): (j: int)
    ensures -1 <= j < |lists|
    ensures j >= 0 ==> 0 <= k < |Tokens(lists[j], ',')|
    decreases |lists|
  {
    if lists == [] then -1
    else if 0 <= k < |Tokens(lists[|lists| - 1], ',')| then |lists| - 1
    else LastCover(lists[..|lists| - 1], k)
  }

  lemma LastCoverCons(l: string, lists: seq<string>, k: int)
    ensures var j := LastCover([l] + lists, k);
      j == (if LastCover(lists, k) >= 0 then LastCover(lists, k) + 1
            else if 0 <= k < |Tokens(l, ',')| then 0 else -1)
    decreases |lists|
  {
    if lists != [] {
      var all := [l] + lists;
      assert all[..|all| - 1] == [l] + lists[..|lists| - 1];
      assert all[|all| - 1] == lists[|lists| - 1];
      LastCoverCons(l, lists[..|lists| - 1], k);
    } else {
      assert ([l] + lists)[..0] == [];
    }
  }

  /** Several quantity lists after one scan list: slot k of a listed scan
      holds item k of the last list long enough to have one; a later list
      overwrites an earlier one. */
  lemma {:induction false} WriteListsSpec(t: Table, scans: seq<int>, lists: seq<string>, s: int, k: int)
    ensures var j := LastCover(lists, k);
      Cell(WriteLists(t, scans, lists), s, k)
      == if s in scans && j >= 0 then ItemCode(Tokens(lists[j], ',')[k]) else Cell(t, s, k)
    decreases |lists|
  {
    if lists != [] {
      var rest := lists[1..];
      var t1 := WriteItems(t, scans, Tokens(lists[0], ','));
      WriteListsSpec(t1, scans, rest, s, k);
      WriteItemsSpec(t, scans, Tokens(lists[0], ','), s, k);
      LastCoverCons(lists[0], rest, k);
      assert [lists[0]] + rest == lists;
      var j1 := LastCover(rest, k);
      if j1 >= 0 {
        assert lists[j1 + 1] == rest[j1];
      }
    }
  }

  // ---------------------------------------------------------------------
  // Scan acceptance

  /** A wanted code and an available code name the same quantity, at the
      same or at the other sample width. */
  predicate Pairs(w: int, a: int) {
    w == a || w == a + TWOB || a == w + TWOB
  }

  /** Index `i` of a 0-terminated row lies before its terminator or on it. */
  predicate Live(s: seq<int>, i: int) {
    0 <= i < |s| && forall j :: 0 <= j < i ==> s[j] != 0
  }

  /** The inner loop over the scan's quantity codes: an entry is compared
      before it is recognised as the terminator 0, so the terminator is
      compared too. */
  function MatchFrom(w: int, avail: seq<int>, aq: nat): bool
    requires aq <= |avail|
    decreases |avail| - aq
  {
    if aq == |avail| then false
    else if Pairs(w, avail[aq]) then true
    else if avail[aq] == 0 then false
    else MatchFrom(w, avail, aq + 1)
  }

  /** acc_quants: one for each wanted code, up to the terminator 0, that
      pairs with an available code; a negative code counts once and ends the
      loop. */
  function AcceptCount(wanted: seq<int>, avail: seq<int>, wq: nat): nat
    requires wq <= |wanted|
    decreases |wanted| - wq
  {
    if wq == |wanted| then 0
    else if wanted[wq] == 0 then 0
    else if wanted[wq] < 0 then 1
    else (if MatchFrom(wanted[wq], avail, 0) then 1 else 0) + AcceptCount(wanted, avail, wq + 1)
  }

  /** A scan is encoded exactly when some wanted code before the terminator
      is negative or pairs with an available code at or before its
      terminator. */
  predicate AcceptedSpec(wanted: seq<int>, avail: seq<int>) {
    exists i | 0 <= i < |wanted| ::
      Live(wanted, i) && wanted[i] != 0
      && (wanted[i] < 0 || exists k | 0 <= k < |avail| :: Live(avail, k) && Pairs(wanted[i], avail[k]))
  }

  lemma {:induction false} MatchFromSpec(w: int, avail: seq<int>, aq: nat)
    requires aq <= |avail|
    requires forall j :: 0 <= j < aq ==> avail[j] != 0
    ensures MatchFrom(w, avail, aq) <==> exists k | aq <= k < |avail| :: Live(avail, k) && Pairs(w, avail[k])
    decreases |avail| - aq
  {
    if aq < |avail| {
      assert Live(avail, aq);
      if !Pairs(w, avail[aq]) && avail[aq] != 0 {
        MatchFromSpec(w, avail, aq + 1);
        if exists k | aq <= k < |avail| :: Live(avail, k) && Pairs(w, avail[k]) {
          var k :| aq <= k < |avail| && Live(avail, k) && Pairs(w, avail[k]);
          assert k != aq;
        }
      } else if !Pairs(w, avail[aq]) {
        forall k | aq <= k < |avail| && Live(avail, k) ensures !Pairs(w, avail[k]) {
          if k > aq { assert false; }
        }
      }
    }
  }

  lemma {:induction false} AcceptCountSpec(wanted: seq<int>, avail: seq<int>, wq: nat)
    requires wq <= |wanted|
    requires forall j :: 0 <= j < wq ==> wanted[j] > 0
    ensures AcceptCount(wanted, avail, wq) > 0 <==>
      exists i | wq <= i < |wanted| ::
        Live(wanted, i) && wanted[i] != 0
        && (wanted[i] < 0 || exists k | 0 <= k < |avail| :: Live(avail, k) && Pairs(wanted[i], avail[k]))
    decreases |wanted| - wq
  {
    if wq < |wanted| {
      assert Live(wanted, wq);
      var w := wanted[wq];
      if w > 0 {
        MatchFromSpec(w, avail, 0);
        AcceptCountSpec(wanted, avail, wq + 1);
      } else if w == 0 {
        forall i | wq <= i < |wanted| && Live(wanted, i) && wanted[i] != 0 ensures false {
          if i > wq { assert false; }
        }
      }
    }
  }

  /** The counting loop agrees with the acceptance rule. */
  lemma AcceptedIff(wanted: seq<int>, avail: seq<int>)
    ensures AcceptCount(wanted, avail, 0) > 0 <==> AcceptedSpec(wanted, avail)
  {
    AcceptCountSpec(wanted, avail, 0);
  }

  /** The wanted row of scan `scan`: MAX_QUANTS slots of the table. */
  function Row(t: Table, scan: int, maxQuants: nat): (r: seq<int>)
    ensures |r| == maxQuants && forall k :: 0 <= k < maxQuants ==> r[k] == Cell(t, scan, k)
  {
    seq(maxQuants, k => Cell(t, scan, k))
  }

  /** After an "all" request every scan 1 .. MAX_SCANS - 1 is accepted,
      whatever quantities it holds, and scan 0 never is. */
  lemma AllAccepted(q: Option<string>, maxScans: nat, maxQuants: nat, scan: int, avail: seq<int>)
    requires MeansAll(q) && maxQuants > 0
    ensures AcceptCount(Row(ParseWanted(q, maxScans).table, scan, maxQuants), avail, 0) > 0 <==> 1 <= scan < maxScans
  {
    var row := Row(ParseWanted(q, maxScans).table, scan, maxQuants);
    ParseAll(q, maxScans, scan, 0);
    if !(1 <= scan < maxScans) {
      assert row[0] == 0;
    }
  }
}

=== FILE: wrappers.dfy ===
/** Failure-carrying result and optional values shared by the decoder and encoder modules. */
module Wrappers {

  datatype Option<+T> = None | Some(value: T)

  datatype Result<+T, +E> = Ok(value: T) | Err(error: E) {
    predicate IsFailure() {
      Err?
    }

    function PropagateFailure<U>(): Result<U, E>
      requires Err?
    {
      Err(error)
    }

    function Extract(): T
      requires Ok?
    {
      value
    }
  }

  /** One unsigned byte, as the C code's UINT1 / unsigned char. */
  type Byte = b: int | 0 <= b < 256

  /** One unsigned 16-bit word, as the C code's UINT2 / unsigned short. */
  type Word = w: int | 0 <= w < 65536
}
